=== FILE: README.md ===
# Book_Managment_System core, modelled in Dafny

Book_Managment_System is a FastAPI service for books, their authors and users,
backed by PostgreSQL. This project models its core as pure functions over
immutable values.

- **Rate limiter.** The sliding-window middleware in front of every route is a
  state machine over per-identifier logs of admission times (`RateLimiter`).
- **Validation.** The payload checks of books and of import rows, ISBN
  normalisation included (`BookSchema`, `ImportSchema`).
- **Raw listing.** The hand-written SQL listing of books: its whitelisted sort
  clause and its `WHERE` text and parameters (`BookRaw`).
- **Database.** The tables are maps from id to row, with the `UNIQUE` constraint
  on `isbn`, the unique index on `(lower(title), author_id)` and the author
  foreign key checked at commit (`Store`).
- **Repositories.** The filtered, ordered and paged listings and the lookups
  (`BookRepo`, `AuthorRepo`). They rest on a model of `ORDER BY … OFFSET …
  LIMIT` (`Ordering`), on `next_offset` paging (`Paging`) and on PostgreSQL
  `LIKE`/`ILIKE` matching with its default `\` escape (`Text`).
- **Services.** The check order and error codes of the three services
  (`BookService`, `AuthorService`, `UserService`).
- **Routes.** The query bounds, the `PATCH` merge and the mapping from each
  service error to an HTTP status (`BookRoutes`, `AuthorRoutes`, `UserRoutes`).
- **Import.** The duplicate test of the book import loop (`BookImport`).

A service error is `Err(f)` with `f` a `Failure` value: `NotFound`, `Conflict`,
`BadName` and so on. A route returns the database afterwards together with the
status it answers. Wall-clock values (the current year, the request time) are
parameters.

## Model

| member | source | states |
|---|---|---|
| RateLimiter.New | src/middlewares/rate_limiter.py:13-32 | Construction fails exactly when `identify_by` is neither `ip` nor `ip_path`; the limits are taken as given, unchecked; a missing or empty path or method set falls back to the fixed defaults; all buckets start empty |
| RateLimiter.Identifier | src/middlewares/rate_limiter.py:34-36 | The bucket key is the host (`unknown` without a client), or host `:` path in per-path mode |
| RateLimiter.IdentifierInjective | src/middlewares/rate_limiter.py:36 | In per-path mode, two requests share a bucket only if they have the same host and path (hosts without `/`, paths starting with `/`) |
| RateLimiter.Cleanup | src/middlewares/rate_limiter.py:38-41 | Cleanup removes a prefix of the log; every removed entry is at least a window old, and the first kept entry is younger than the window |
| RateLimiter.CleanupLeavesFresh | src/middlewares/rate_limiter.py:38-41 | On a time-ordered log, every entry that cleanup keeps is younger than the window, and the log stays ordered |
| RateLimiter.Admit | src/middlewares/rate_limiter.py:52-71 | The request is admitted exactly when the cleaned log holds fewer than `max_requests` entries, and `now` is then appended with `remaining = max - len`. Otherwise it is rejected, the bucket keeps the cleaned log (expired entries dropped, nothing appended), and Reset = now + Retry-After. When the cleaned log is empty and the limit is ≤ 0, reading the oldest entry faults |
| RateLimiter.AdmitSeesKept | src/middlewares/rate_limiter.py:53-55 | Whether a request is admitted depends on the log only through what cleanup keeps |
| RateLimiter.AdmitInWindow | src/middlewares/rate_limiter.py:55-71 | On a log whose entries lie within one window of its oldest entry `oldest`, nothing expires. An admitted request gets `remaining = max - n - 1` and Reset `oldest + window`. A rejected one gets Retry-After `oldest + window - now` and the same Reset |
| RateLimiter.DispatchInWindow | src/middlewares/rate_limiter.py:43-71 | The same exact header values through the middleware: the request's bucket becomes the cleaned log, with `now` appended when admitted, and the outcome is computed from the oldest kept entry |
| RateLimiter.Dispatch | src/middlewares/rate_limiter.py:43-71 | OPTIONS, excluded paths and methods that are not limited are forwarded and leave every bucket unchanged. Otherwise only the request's own bucket changes, exactly as `Admit` says |
| RateLimiter.DispatchKeepsValid | src/middlewares/rate_limiter.py:52-71 | With a positive limit and window and a clock that never goes back, every log stays time-ordered and within the limit. There is no fault. `0 <= remaining < max`, Reset lies within a window of now, and `0 < Retry-After <= window` |
| RateLimiter.AdmitInRange | src/middlewares/rate_limiter.py:55-71 | On one valid log: no fault, remaining and reset within bounds on admission, Retry-After within `(0, window]` on rejection |
| RateLimiter.WindowSlides | src/middlewares/rate_limiter.py:38-41 | Once the bucket's oldest entry is a full window old, the next request is admitted |
| RateLimiter.ThreePerThirty | src/middlewares/rate_limiter.py:52-71 | At 3 per 30 s from an empty bucket: requests at t0, t0+1 and t0+2 are admitted with 2, 1, 0 remaining; t0+3 is rejected with Retry-After 27; t0+30 is admitted again |
| RateLimiter.FullThenExpired | src/middlewares/rate_limiter.py:52-71 | With 3 per 30 s and a full bucket at t0..t0+2, t0+3 is rejected with Retry-After 27 and Reset t0+30, and t0+30 is admitted with 0 remaining |
| RateLimiter.DeployedExample | src/main.py:9-15 | The deployed configuration passes construction, limits `GET /api/v1/books/`, and behaves as `ThreePerThirty` says |
| RateLimiter.ZeroLimitFaults | src/middlewares/rate_limiter.py:55-56 | A limit of 0 passes construction, and the first limited request reads the oldest entry of an empty log |
| RateLimiter.NewChecked | src/middlewares/rate_limiter.py:24-27 | Corrected constructor: succeeds exactly when the original would and both limits are positive, and then yields the original's limiter in the valid state |
| RateLimiter.CheckedNeverFaults | src/middlewares/rate_limiter.py:55-56 | A limiter from the corrected constructor never faults on any request of any run whose request times never go back |
| RateLimiter.RunNeverFaults | src/middlewares/rate_limiter.py:52-71 | From any valid state, no request of a run with non-decreasing times faults |
| Text.Strip | src/services/author_service.py:21 | `str.strip()`: the result has no surrounding whitespace, is what remains after removing a blank prefix and a blank suffix, and is empty exactly for a blank string |
| Text.StripIdempotent | src/services/author_service.py:21 | Stripping twice is stripping once |
| Text.TrimStartPadded | src/schemas/imports.py:38 | Trimming the front of a blank prefix followed by text that starts with a non-space gives that text |
| Text.EscapeLiteral | src/repositories/author_repo.py:14-15 | A pattern with every character escaped by `\` matches its own text and nothing else |
| Text.PrefixPattern | src/repositories/author_repo.py:14-15 | For text without `%`, `_` or `\`, the pattern `q%` matches exactly the strings starting with `q` |
| Text.ContainsPattern | src/repositories/author_repo.py:14-15 | For text without `%`, `_` or `\`, the pattern `%q%` is a plain substring test |
| Text.ContainsIgnoringCase | src/repositories/author_repo.py:14-16 | `ILIKE '%q%'` for such text is a substring test after lower-casing both sides |
| Text.LexLessTotal | src/repositories/author_repo.py:17-19 | Code-point order on names is total; `LexLessIrreflexive` and `LexLessTransitive` complete the strict order |
| Ordering.Least | src/repositories/author_repo.py:21 | The first row of a non-empty set under a strict total order comes before every other row |
| Ordering.ArrangeSorted | src/repositories/author_repo.py:21 | `ORDER BY` lists the rows in strictly increasing order |
| Ordering.ArrangeCovers | src/repositories/author_repo.py:21 | `ORDER BY` lists every row, and as many rows as the set holds |
| Ordering.ArrangeRank | src/repositories/author_repo.py:21 | Each row of the ordering sits at the index equal to the number of rows before it |
| Ordering.Page | src/repositories/book_repo.py:58-63 | `OFFSET`/`LIMIT` keep the entries from `offset` on, at most `limit` of them, clipped to the end |
| Ordering.OnPageIffRank | src/repositories/author_repo.py:21 | A row is on a page exactly when its rank falls within `[offset, offset + limit)` |
| Ordering.NewestFirstDescending | src/repositories/book_repo.py:60 | A page in `id DESC` order has strictly decreasing ids |
| Ordering.First | src/repositories/book_repo.py:137 | `.first()` yields nothing exactly for no match, otherwise a matching row (the least id) |
| Paging.NextOffset | src/api/v1/author/routes.py:25 | `next_offset` is present exactly when `offset + limit < total`, and is then `offset + limit` |
| Paging.WalkShape | src/api/v1/book/routes.py:71 | Following `next_offset` from a start gives adjacent pages, every page after the first starts below the total, and the last page reaches it |
| Paging.PagesApart | src/api/v1/book/routes.py:71 | Pages of the walk never overlap: a later page starts at or after the end of an earlier one |
| Paging.WalkCovers | src/api/v1/book/routes.py:71 | Every position from the start up to the total lies on some page of the walk |
| Paging.PageOf | src/api/v1/book/routes.py:71 | Every position from the start up to the total lies on exactly one page of the walk |
| BookSchema.GenreFromValue | src/schemas/book.py:10-18 | A genre is found exactly for one of the five values, and it has that value |
| BookSchema.GenreRoundTrip | src/schemas/book.py:10-18 | Every genre is found again from its value |
| BookSchema.DropSeparators | src/schemas/book.py:24 | Deleting `[\s-]+` leaves no separator, keeps the rest in order, and gives the empty string exactly for separators-only input |
| BookSchema.NormalizeIsbn | src/schemas/book.py:21-25 | `None` stays `None`; separators-only input becomes `None`; otherwise the result is the input with whitespace and hyphens deleted and letters upper-cased, non-empty with no separator and no lower-case letter |
| BookSchema.NormalizeSeparatorFree | src/schemas/book.py:24-25 | A non-empty value without separators is only upper-cased |
| BookSchema.NormalizeDropsSeparator | src/schemas/book.py:24 | A hyphen or whitespace character anywhere in the value is deleted: the value normalises as it does without it |
| BookSchema.NormalizeIdempotent | src/schemas/book.py:24 | Normalising twice is normalising once |
| BookSchema.ValidateIsbn | src/schemas/book.py:65-79 | An accepted value is the normalised input and is `None`, ISBN-10 shaped or ISBN-13 shaped. A normalised `None` is accepted. An error means a non-empty value of the wrong shape |
| BookSchema.ValidIsbnAccepted | src/schemas/book.py:71-76 | Any input whose normalised form is ISBN-10 or ISBN-13 shaped is accepted as that form |
| BookSchema.ValidateIsbnFixpoint | src/schemas/book.py:65-79 | Validating an accepted value again gives the same result |
| BookSchema.SeparatorIgnored | src/schemas/book.py:24 | Inserting a hyphen or a whitespace character anywhere does not change the verdict |
| BookSchema.LowerXAccepted | src/schemas/book.py:71-73 | Nine digits and a lower-case `x` are accepted as an ISBN-10 ending in `X` |
| BookSchema.ValidateNonBlank | src/schemas/book.py:37-53 | Title and author name: `None` passes, a blank value is refused with the field's message, and anything else is returned unchanged (not stripped) |
| BookSchema.ValidateYear | src/schemas/book.py:55-63 | A year is accepted exactly when it is absent or within `1800..currentYear`; a refusal carries "Published year must be between 1800 and " followed by the current year in decimal |
| Text.NatDigitsValue | src/schemas/book.py:62 | The decimal digits written into the year message read back as the year |
| BookSchema.ValidateGenre | src/schemas/book.py:30 | A genre is accepted exactly when absent or one of the five values, and the accepted genre has the given value |
| BookSchema.YearBoundsInclusive | src/schemas/book.py:61 | 1800 and the current year are accepted; 1799 and the next year are not |
| BookSchema.UpdateErrors | src/schemas/book.py:89-90 | `BookUpdate` refuses a field exactly when it is present and invalid |
| BookSchema.ValidateUpdate | src/schemas/book.py:89-90 | An update is refused exactly when some field is, reporting exactly those fields; an accepted update carries the given values and the normalised ISBN |
| BookSchema.CreateErrors | src/schemas/book.py:82-86 | `BookCreate` also refuses a missing title, author name, genre or year |
| BookSchema.ValidateCreate | src/schemas/book.py:82-86 | A body is refused exactly when some field is refused, and reports exactly those fields; an accepted body carries the given values |
| BookSchema.CreateAccepted | src/schemas/book.py:82-86 | A body with a non-blank title and author, a known genre, a year in range and a valid ISBN is accepted with exactly those values |
| BookSchema.CreateIsUpdate | src/schemas/book.py:82-90 | Every body accepted for creation is accepted as an update with the same values |
| ImportSchema.NormalizeIsbn | src/schemas/imports.py:9-23 | `None` gives `None`; an accepted value is exactly what `_normalize_isbn` of the book schema gives, and is ISBN-10 or ISBN-13 shaped |
| ImportSchema.IsbnAgrees | src/schemas/imports.py:9-23 | The import module's combined normaliser agrees with `validate_isbn` on every input, errors included |
| ImportSchema.NotEmpty | src/schemas/imports.py:35-41 | A row's title or author name is accepted exactly when not blank, and is stored stripped |
| ImportSchema.NotEmptyPadded | src/schemas/imports.py:38 | Whitespace around a value is removed and nothing else |
| ImportSchema.GenreFromStr | src/schemas/imports.py:43-53 | A `Genre` or `None` passes through; text is accepted exactly when its stripped form is one of the values (case-sensitive) |
| ImportSchema.GenrePadded | src/schemas/imports.py:48-50 | A genre value with whitespace around it reads as that genre |
| ImportSchema.YearOk | src/schemas/imports.py:55-61 | A row's year is accepted exactly within `1800..currentYear`; a refusal carries "published_year must be between 1800 and " followed by the current year |
| ImportSchema.ItemErrors | src/schemas/imports.py:26-66 | A row field is refused exactly when it is required and missing, or when it fails its validator |
| ImportSchema.ValidateItem | src/schemas/imports.py:26-66 | A row is refused exactly when some field is; an accepted row has stripped title and author, the genre `_genre_from_str` reads from the given value, a year in range and the ISBN `validate_isbn` would give |
| ImportSchema.ItemIsValidCreate | src/schemas/imports.py:26-31 | A validated row, sent as a create body, passes `BookCreate` unchanged |
| BookRaw.SortColumn | src/services/book_raw.py:4-12 | The column is always one of the four whitelisted ones: the mapped column for a known key, `b.created_at` otherwise |
| BookRaw.IsDescending | src/services/book_raw.py:13 | The direction is descending exactly when `sort_dir` is falsy or is `desc` in any letter case |
| BookRaw.SortExpr | src/services/book_raw.py:11-14 | The clause is one of the whitelisted clauses, starts with the chosen column and ends with the chosen keyword |
| BookRaw.SortExprDistinguishes | src/services/book_raw.py:11-14 | Two requests get the same clause exactly when they choose the same column and direction |
| BookRaw.BuildListing | src/services/book_raw.py:17-21 | `limit`/`offset` are always bound. A truthy `q` adds the one search clause and binds `%q%`; otherwise the `WHERE` is `WHERE 1=1` and no `q` is bound |
| BookRaw.CountIgnoresPaging | src/services/book_raw.py:25-40 | The data and count queries share the `WHERE` text, and the count query depends only on the search text |
| BookRaw.DataSql | src/services/book_raw.py:25-33 | The data query carries the listing's `WHERE` text right after its fixed head |
| BookRaw.CountSql | src/services/book_raw.py:35-40 | The count query carries the same `WHERE` text right after its fixed head |
| BookRaw.SearchMeaning | src/services/book_raw.py:20 | For search text without wildcards or `\`, a row is selected exactly when its title, author name or ISBN contains it, ignoring case |
| BookRepo.MatchingIds | src/repositories/book_repo.py:31-56 | The listed and counted books are exactly those passing every active filter |
| BookRepo.ListBooks | src/repositories/book_repo.py:58-69 | The total counts every match; the page holds at most `limit` matches, exactly as many as remain after `offset` |
| BookRepo.OnPageIffPosition | src/repositories/book_repo.py:58-63 | A matching book is on the page exactly when the number of newer matches falls within the window |
| BookRepo.PageDescending | src/repositories/book_repo.py:60 | The page runs from the highest id down |
| BookRepo.EmptyAuthorNameJoins | src/repositories/book_repo.py:32-56 | An empty author name filters nothing by name, yet the join still drops books without an author row |
| BookRepo.EmptyFilterMatchesAll | src/repositories/book_repo.py:31-56 | With no filter given, every book matches |
| BookRepo.GetByIsbn | src/repositories/book_repo.py:128-137 | Nothing for an empty ISBN; otherwise a book with that exact ISBN other than `exclude_id`, and nothing only when there is none |
| BookRepo.GetByTitleAuthor | src/repositories/book_repo.py:139-154 | A book of that author whose title is equal ignoring case, other than `exclude_id`, and nothing only when there is none |
| BookRepo.UpdateBook | src/repositories/book_repo.py:98-117 | Title, genre, year and author are overwritten; the ISBN changes only when one is given |
| AuthorRepo.MatchingIds | src/repositories/author_repo.py:13-16 | The listed and counted authors are exactly those whose name contains the filter ignoring case, or all of them without a truthy filter |
| AuthorRepo.OrderFor | src/repositories/author_repo.py:17-19 | Sorting is by id only for `id`, by name otherwise, and descending only for `desc` |
| AuthorRepo.OrderTotal | src/repositories/author_repo.py:17-19 | Every listing order is a strict total order on the authors |
| AuthorRepo.ListAuthors | src/repositories/author_repo.py:10-22 | The total counts every match; the page holds at most `limit` matches, exactly as many as remain after `offset` |
| AuthorRepo.OnPageAtRank | src/repositories/author_repo.py:20-21 | A matching author is on the page exactly when its rank in the chosen order falls within the window |
| AuthorRepo.ByNameAscending | src/repositories/author_repo.py:17-19 | Sorting by name ascending lists names in non-decreasing code-point order |
| AuthorRepo.ListedOnce | src/repositories/author_repo.py:10-22 | A client following `next_offset` from 0 sees every matching author on exactly one page |
| AuthorRepo.GetByName | src/repositories/author_repo.py:27-29 | No row gives `None`, one row gives that author, and two or more rows give an error |
| AuthorRepo.SharedNameFails | src/repositories/author_repo.py:29 | With a shared name the lookup fails rather than choosing |
| AuthorRepo.GetByNameNeverFails | src/repositories/author_repo.py:27-29 | While names are unique the lookup never fails |
| AuthorRepo.FindUnique | src/repositories/author_repo.py:27-29 | While names are unique the lookup finds the author holding the name |
| BookService.GetOr404 | src/services/book_service.py:16-19 | `not_found` exactly when no book has the id, otherwise the stored book |
| BookService.AuthorByName | src/services/book_service.py:21-22 | An author whose name is exactly the given one, and nothing only when there is none |
| BookService.NewAuthor | src/services/book_service.py:38-44 | Without a new author name the book keeps its author; with one, the author is the stored author holding the stripped name |
| BookService.LookupsFindClashes | src/services/book_service.py:27-28 | The repository lookups report a clash exactly when some other book holds the ISBN, or has the author and the same title ignoring case |
| BookService.Create | src/services/book_service.py:24-34 | Checks in order: `author_not_found` for an unknown stripped name, then `isbn_conflict` for a taken non-empty ISBN, then `conflict` for a title taken ignoring case. Success adds exactly the new book under the next id |
| BookService.CreateKeepsValid | src/services/book_service.py:24-34 | On a valid database, with no empty ISBN, creation is never refused by the database and keeps it valid |
| BookService.CreateTwiceRefused | src/services/book_service.py:28 | Creating a title and then the same title in another letter case for the same author answers `conflict` |
| BookService.Update | src/services/book_service.py:36-58 | Checks in order: `not_found`, then `bad_author_name` for a blank name, then `author_not_found`, then `isbn_conflict` against other books, then `conflict` only when the title or author changes |
| BookService.UpdateKeepsValid | src/services/book_service.py:36-58 | On a valid database, with no empty ISBN, an update is never refused by the database and keeps it valid |
| BookService.UpdateUnchangedAccepted | src/services/book_service.py:49-51 | Resubmitting a book's own values with no new author or ISBN is accepted |
| BookService.Delete | src/services/book_service.py:60-66 | `not_found` exactly for a missing id; otherwise exactly that book is removed |
| BookService.DeleteKeepsValid | src/services/book_service.py:60-66 | Deleting an existing book from a valid database succeeds, removes exactly that id and keeps the database valid |
| AuthorService.ListName | src/services/author_service.py:11 | A missing or blank name means no filter; otherwise the filter is the stripped name |
| AuthorService.GetOr404 | src/services/author_service.py:14-18 | `not_found` exactly when no author has the id, otherwise the stored author |
| AuthorService.List | src/services/author_service.py:10-12 | The listing with the normalised filter; without one, the total is the number of authors |
| AuthorService.Create | src/services/author_service.py:20-32 | `bad_name` exactly for a blank name; `conflict` exactly when one author holds the stripped name. Success stores the stripped name under the next id |
| AuthorService.CreateKeepsValid | src/services/author_service.py:20-32 | On a valid database, creation is never refused by the database, keeps it valid and keeps names unique |
| AuthorService.CreateThenFind | src/services/author_service.py:24-27 | A created author is found again by its stripped name |
| AuthorService.Update | src/services/author_service.py:34-50 | `not_found` before `bad_name`, then `conflict` only when another author holds the name. Success stores the stripped name and replaces the biography |
| AuthorService.UpdateKeepsValid | src/services/author_service.py:34-50 | On a valid database an update is never refused by the database, keeps it valid and keeps names unique |
| AuthorService.RenameToOwnName | src/services/author_service.py:39-41 | Keeping one's own name is never a conflict |
| AuthorService.Orphan | alembic/versions/0001_uq_books_title_per_author.py:31 | When an author is deleted, its books lose their author reference and keep every other field |
| AuthorService.Delete | src/services/author_service.py:52-60 | `not_found` exactly for a missing id; otherwise the author is removed and its books orphaned |
| AuthorService.DeleteKeepsValid | src/services/author_service.py:52-60 | Deleting an existing author from a valid database succeeds and keeps it valid |
| UserService.GetOr404 | src/services/user_service.py:12-15 | `not_found` exactly when no user has the id |
| UserService.ByUsername | src/repositories/user_repo.py:16-17 | A user with exactly this username, and nothing only when there is none |
| UserService.Register | src/services/user_service.py:17-24 | `conflict` exactly when the username exists; otherwise the user is added under the next id |
| UserService.RegisterKeepsValid | src/services/user_service.py:17-24 | Registration is never refused by the database, keeps it valid and keeps usernames unique |
| UserService.Update | src/services/user_service.py:26-35 | `not_found` first, then `conflict` only when another user holds the username. Success overwrites username and password hash |
| UserService.UpdateConflictMeaning | src/services/user_service.py:28-29 | With unique usernames, `conflict` means exactly that another user holds the username |
| UserService.UpdateKeepsValid | src/services/user_service.py:26-35 | An update is never refused by the database, keeps it valid and keeps usernames unique |
| UserService.Delete | src/services/user_service.py:37-44 | `not_found` exactly for a missing id; otherwise that user is removed and returned |
| UserService.DeleteKeepsValid | src/services/user_service.py:37-44 | Deleting an existing user succeeds and keeps the database valid and usernames unique |
| Store.Commit | src/models/book.py:13-23 | A commit succeeds exactly when ISBNs are unique, titles are unique per author ignoring case, and every author reference exists |
| Store.AddBook | src/repositories/book_repo.py:77-96 | A new book is stored under the next id, which then advances, and no other table changes |
| Store.AddBookKeepsValid | src/models/book.py:13-23 | Adding a book that clashes with no stored book keeps the database valid |
| Store.ReplaceBookKeepsValid | src/models/book.py:13-23 | Rewriting a book so that it clashes with no other book keeps the database valid |
| AuthorRoutes.Page | src/api/v1/author/routes.py:23-26 | The bounds are echoed, at most `limit` items are shown, the total counts every match, and `next_offset` is there exactly when authors remain past this page, starting right after it |
| AuthorRoutes.List | src/api/v1/author/routes.py:14-26 | 422 exactly for a query out of bounds; otherwise the page for the normalised name |
| AuthorRoutes.ListIsServiceList | src/api/v1/author/routes.py:23 | Within bounds the route shows exactly the service's authors and total |
| AuthorRoutes.ListedOnce | src/api/v1/author/routes.py:25 | Following `next_offset` from 0 shows every matching author on exactly one page |
| AuthorRoutes.CreateAnswer | src/api/v1/author/routes.py:37-46 | 201 on success, 409 for `conflict`, 400 for `bad_name`, 500 otherwise; a failure changes nothing |
| AuthorRoutes.CreateOutcome | src/api/v1/author/routes.py:35-46 | With unique names, never 500: 400 exactly for a blank name, 409 exactly when the stripped name is taken |
| AuthorRoutes.UpdateAnswer | src/api/v1/author/routes.py:50-61 | 200, 404 for `not_found`, 409 for `conflict`, 400 for `bad_name`, 500 otherwise; a failure changes nothing |
| AuthorRoutes.UpdateOutcome | src/api/v1/author/routes.py:48-61 | With unique names, never 500: 404 for a missing author, 400 for a blank name, and 409 exactly when another author holds the name |
| Responses.DeleteAnswer | src/api/v1/author/routes.py:69-75 | 204, 404 for the `not_found` `ValueError`, 500 otherwise; a failure changes nothing. `delete_book` (src/api/v1/book/routes.py:176-182) answers the same way and uses it too |
| AuthorRoutes.DeleteOutcome | src/api/v1/author/routes.py:63-75 | On a valid database: 204 exactly when the author exists, else 404 |
| BookRoutes.Page | src/api/v1/book/routes.py:60-72 | Bounds echoed, at most `limit` matching books, the total of every match, and `next_offset` exactly when books remain past this page |
| BookRoutes.ListAsWritten | src/api/v1/book/routes.py:48-59 | As written every listing fails: 422 exactly out of bounds, 500 exactly within bounds |
| BookRoutes.DefaultListingFails | src/api/v1/book/routes.py:34-59 | The request with every parameter at its default is in bounds and answered 500 |
| BookRoutes.List | src/api/v1/book/routes.py:34-72 | Corrected listing: 422 exactly out of bounds, otherwise the repository's page for the query's filters |
| BookRoutes.ListedBookMatches | src/api/v1/book/routes.py:48-56 | Every listed book meets each filter the query gives |
| BookRoutes.ListIgnoresSort | src/api/v1/book/routes.py:44-45 | Among in-bounds queries, the sort parameters do not change the page |
| BookRoutes.Get | src/api/v1/book/routes.py:75-88 | The stored book, or 404 |
| BookRoutes.CreateAnswer | src/api/v1/book/routes.py:113-125 | 201; 404 for `author_not_found`; 409 for `isbn_conflict` or `conflict`; 400 for `bad_author_name`; 500 otherwise; a failure changes nothing |
| BookRoutes.CreateOutcome | src/api/v1/book/routes.py:91-125 | On a valid database an accepted body is never answered 500: 404 exactly for an unknown author, and a new book keeps the database valid |
| BookRoutes.Merge | src/api/v1/book/routes.py:136-143 | Absent title, genre or year fall back to the stored values; the author name and ISBN pass through as given |
| BookRoutes.UpdateAnswer | src/api/v1/book/routes.py:153-167 | 200; 404 for `not_found` or `author_not_found`; 409 for either conflict; 400 for `bad_author_name`; 500 otherwise; a failure changes nothing |
| BookRoutes.EmptyPatchNoOp | src/api/v1/book/routes.py:136-143 | An empty `PATCH` on an existing book answers 200 and leaves the database as it was |
| BookRoutes.PatchKeepsAbsentFields | src/repositories/book_repo.py:108-113 | An accepted `PATCH` changes only the patched book, and only its given fields |
| BookRoutes.UpdateOutcome | src/api/v1/book/routes.py:128-167 | On a valid database an accepted body is never answered 500 or 400: 404 exactly for a missing book or unknown author |
| BookRoutes.DeleteOutcome | src/api/v1/book/routes.py:170-182 | On a valid database: 204 exactly when the book exists, else 404 |
| UserRoutes.ValidateUser | src/schemas/user.py:4-6 | A username of 3 to 50 characters and a password of at least 6 are accepted; anything else is 422 |
| UserRoutes.ValidateEvent | src/api/v1/user/routes.py:77-93 | An event is accepted exactly when its kind is view, like or rate, a given rating lies in 1..5, and `rate` comes with a rating |
| UserRoutes.AcceptedEventChecks | src/models/user_book_event.py:9-10 | Every accepted payload meets both CHECK constraints of the events table |
| UserRoutes.ViewAndLikeRatingOptional | src/api/v1/user/routes.py:89-93 | View and like are accepted with or without a rating; rate only with one |
| UserRoutes.AddEvent | src/api/v1/user/routes.py:95-109 | 401 exactly without a username in the token; 404 exactly when the book lookup yields nothing truthy, that is, no such book or a book whose id is 0; 204 appends the event, which meets the table's CHECK constraints; any failure leaves the log unchanged |
| UserRoutes.AcceptedEventRecorded | src/api/v1/user/routes.py:95-109 | An accepted payload from a signed-in user about an existing book with a non-zero id is recorded |
| UserRoutes.BookZeroNotFound | src/api/v1/user/routes.py:100 | A stored book with id 0 is answered 404, because the lookup returns the falsy id itself |
| UserRoutes.Get | src/api/v1/user/routes.py:27-32 | The stored user, or 404 |
| UserRoutes.RegisterAnswer | src/api/v1/user/routes.py:44-52 | 200; 409 for the `ValueError`; 500 otherwise; a failure changes nothing |
| UserRoutes.RegisterOutcome | src/api/v1/user/routes.py:44-52 | Never 500 on a valid database: 409 exactly when the username is taken |
| UserRoutes.UpdateAnswer | src/api/v1/user/routes.py:54-66 | 200; 404 for `not_found`; 409 for `conflict`; 500 otherwise; a failure changes nothing |
| UserRoutes.UpdateOutcome | src/api/v1/user/routes.py:54-66 | With unique usernames, never 500: 404 exactly for a missing user, 409 exactly when another user holds the name |
| UserRoutes.DeleteAnswer | src/api/v1/user/routes.py:68-75 | 200; 404 for `not_found`; 500 otherwise |
| UserRoutes.DeleteOutcome | src/api/v1/user/routes.py:68-75 | On a valid database: 200 exactly when the user exists, else 404 |
| BookImport.FlushBooks | src/api/v1/book/routes.py:229-237 | Pending books are written in order under consecutive new ids, and nothing else changes |
| BookImport.ResolveAuthor | src/api/v1/book/routes.py:217-221 | A known author is reused; otherwise a new author with exactly that name is created |
| BookImport.ImportCounts | src/api/v1/book/routes.py:215-240 | `created` is the number of books the import adds |
| BookImport.ImportKeepsValid | src/api/v1/book/routes.py:215-240 | With the corrected duplicate test, the import always commits on a valid database and leaves it valid |
| BookImport.StepKeeps | src/api/v1/book/routes.py:216-228 | With the corrected test, one row keeps the database valid and the pending books free of clashes |
| BookImport.RefusedCoversStoredExactly | src/api/v1/book/routes.py:223-227 | Every row that the original test skips, the corrected test skips too |
| BookImport.CaseVariantAsWritten | src/api/v1/book/routes.py:223-227 | As written, a row whose title differs only in letter case from a stored title of the same author makes the whole import fail at commit |
| BookImport.CaseVariantCorrected | src/api/v1/book/routes.py:223-227 | The corrected test skips such a row, and the import changes nothing |
| BookImport.RepeatedRowAsWritten | src/api/v1/book/routes.py:223-238 | As written, a new row listed twice is added twice, and the import fails at commit |
| BookImport.RepeatedRowCorrected | src/api/v1/book/routes.py:223-238 | The corrected test adds such a row once, with `created` 1 |

## Left out

- Text.IsDigit: only ASCII `0`–`9`. The source's `\d` and `str.isdigit()` also accept other Unicode digits. For example, thirteen Arabic-Indic digits are a valid ISBN-13 in the source, but BookSchema.ValidateIsbn and ImportSchema.NormalizeIsbn reject them.
- Text.Upper / Text.Lower: only ASCII letters change case. PostgreSQL `lower()` and Python `upper()` also fold other letters, so "Éclair" and "éclair" clash in the source but not in the model. This affects Store.TitlesApart, BookRepo.GetByTitleAuthor, BookService.Create and the `ILIKE` lemmas.
- Text.Like: a pattern ending in a lone `\` matches nothing here. PostgreSQL raises an error for such a pattern.
- RateLimiter.Dispatch: `time.time()` is a float, but time here is whole seconds, so the rounding up of Retry-After and the truncation of Reset are identities.
- RateLimiter.Dispatch: the locked region is one atomic step, with no interleaving of requests.
- RateLimiter.Dispatch: setting the headers on the downstream response (the `try`/`except` around it) and the downstream call itself are outside the model.
- Ordering.First: SQL `.first()` without `ORDER BY` may return any matching row. The model returns the least id. GetByIsbn, GetByTitleAuthor, BookService.AuthorByName and UserService.ByUsername are stated so that only their "exists / none" answers and the matched row's properties matter.
- AuthorRepo.AuthorLess: names are ordered by code point, with equal names ordered by id. The database orders by its collation and leaves ties unspecified.
- The book listing's `sort_by`/`sort_dir` reach a repository that has no such parameters, so the corrected BookRoutes.List ignores them and keeps the repository's `id DESC` order.
- Password hashing (bcrypt), JWT decoding and login are outside the model. The routes receive the hash, and the token's `sub` as an optional username.
- File I/O and parsing of the import (file saving, CSV/JSON decoding, skipping unparsable CSV rows) are outside the model. The import takes the already validated rows.
- Exports, stats, recommendations and the raw representation route are left out, because their logic lives in SQL aggregates and file writing.
- The user list and `created_at`/`updated_at` timestamps are left out.
- UserRoutes.AddEvent: the events table is a sequence of rows. Its foreign key to the book is stated as the 404 check, which also refuses a stored book with id 0 as the source's truthiness test does.
- The current year is a parameter of the validators, not the wall clock.
- The database is committed as a whole. A refused commit (`IntegrityViolation`) leaves the previous state, which stands for the rollback.

## Findings

| source | as written | input that shows it | evidently intended | confidence | as-written member | corrected member |
|---|---|---|---|---|---|---|
| src/middlewares/rate_limiter.py:24-27, 55-56 | `max_requests` is never checked. With a limit of 0 the full-bucket branch reads `dq[0]` on an empty deque, an `IndexError` that answers 500 | `RateLimiterMiddleware(app, max_requests=0)`, then any limited request | Reject non-positive limits at construction, so that no request can fault | high (proved; not executed) | RateLimiter.ZeroLimitFaults | RateLimiter.NewChecked, RateLimiter.CheckedNeverFaults |
| src/api/v1/book/routes.py:223-227 | The import's duplicate test compares titles exactly and sees only flushed rows (`autoflush=False`, src/db/session.py:27). The unique index compares `lower(title)` per author, so the commit fails and the whole import is lost | A stored book "Dune" by author A, and an import row "dune" by A. Or the same new row listed twice | Skip any row that clashes, ignoring case, with a stored book or with a row already taken from the file | high (proved; not executed) | BookImport.CaseVariantAsWritten, BookImport.RepeatedRowAsWritten | BookImport.ImportKeepsValid, BookImport.CaseVariantCorrected, BookImport.RepeatedRowCorrected |
| src/api/v1/book/routes.py:48-59 | `list_books` passes `sort_by` and `sort_dir` through `BookService.list(**kwargs)` (src/services/book_service.py:13-14) to `BookRepository.list`, which accepts neither (src/repositories/book_repo.py:17-30). Every in-bounds request raises `TypeError` and answers 500 | `GET /api/v1/books/` with no parameters | List the filtered page, sorted or not | high (proved; not executed) | BookRoutes.ListAsWritten, BookRoutes.DefaultListingFails | BookRoutes.List, BookRoutes.ListedBookMatches |

=== FILE: author_repo.dfy ===
/** `AuthorRepository`: the filtered, sorted, paged listing and the lookup
    by exact name. */
module AuthorRepo {
  import opened Results
  import opened Text
  import opened Store
  import Ordering
  import Paging

  /** The name filter: a case-insensitive substring match, active when truthy. */
  predicate NameMatches(a: Author, name: Option<string>) {
    Truthy(name) ==> ILike(a.name, "%" + name.value + "%")
  }

  /** The ids the listing and its count both select. */
  function MatchingIds(db: Db, name: Option<string>): (s: set<int>)
    ensures forall id | id in s :: id in db.authors && NameMatches(db.authors[id], name)
    ensures forall id | id in db.authors && NameMatches(db.authors[id], name) :: id in s
  {
    set id | id in db.authors && NameMatches(db.authors[id], name)
  }

  function NameOf(authors: map<int, Author>, id: int): string {
    if id in authors then authors[id].name else ""
  }

  /** The listing order: by id, or by name in code-point order with equal
      names kept in id order (the database leaves their order open). */
  predicate AuthorLess(authors: map<int, Author>, byId: bool, desc: bool, a: int, b: int) {
    if byId then (if desc then a > b else a < b)
    else
      var na, nb := NameOf(authors, a), NameOf(authors, b);
      if na == nb then a < b
      else if desc then LexLess(nb, na)
      else LexLess(na, nb)
  }

  function Order(authors: map<int, Author>, byId: bool, desc: bool): (int, int) -> bool {
    (a: int, b: int) => AuthorLess(authors, byId, desc, a, b)
  }

  lemma AuthorLessTransitive(authors: map<int, Author>, byId: bool, desc: bool, a: int, b: int, c: int)
    requires AuthorLess(authors, byId, desc, a, b) && AuthorLess(authors, byId, desc, b, c)
    ensures AuthorLess(authors, byId, desc, a, c)
  {
    if !byId {
      var na, nb, nc := NameOf(authors, a), NameOf(authors, b), NameOf(authors, c);
      if na != nb && nb != nc {
        if desc {
          LexLessTransitive(nc, nb, na);
        } else {
          LexLessTransitive(na, nb, nc);
        }
        if na == nc {
          LexLessIrreflexive(na);
        }
      }
    }
  }

  lemma AuthorLessTotal(authors: map<int, Author>, byId: bool, desc: bool, a: int, b: int)
    requires a != b
    ensures !AuthorLess(authors, byId, desc, a, a)
    ensures AuthorLess(authors, byId, desc, a, b) || AuthorLess(authors, byId, desc, b, a)
  {
    LexLessIrreflexive(NameOf(authors, a));
    if NameOf(authors, a) != NameOf(authors, b) {
      LexLessTotal(NameOf(authors, a), NameOf(authors, b));
    }
  }

  /** Each listing order is a strict total order on any set of ids. */
  lemma OrderTotal(authors: map<int, Author>, byId: bool, desc: bool, s: set<int>)
    ensures Ordering.StrictTotalOn(Order(authors, byId, desc), s)
  {
    var less := Order(authors, byId, desc);
    forall x | x in s
      ensures !less(x, x)
    {
      LexLessIrreflexive(NameOf(authors, x));
    }
    forall x, y | x in s && y in s && x != y
      ensures less(x, y) || less(y, x)
    {
      AuthorLessTotal(authors, byId, desc, x, y);
    }
    forall x, y, z | x in s && y in s && z in s && less(x, y) && less(y, z)
      ensures less(x, z)
    {
      AuthorLessTransitive(authors, byId, desc, x, y, z);
    }
  }

  /** `sort_map.get(sort_by, Author.name)` and `sort_dir == "desc"`. */
  function OrderFor(db: Db, sortBy: string, sortDir: string): (less: (int, int) -> bool)
    ensures less == Order(db.authors, sortBy == "id", sortDir == "desc")
  {
    Order(db.authors, sortBy == "id", sortDir == "desc")
  }

  /** `list`: the matching ids in the chosen order, from `offset`, at most
      `limit` of them, and the number of matches. */
  function ListAuthors(db: Db, name: Option<string>, limit: int, offset: int, sortBy: string, sortDir: string)
    : (r: (seq<int>, int))
    requires limit >= 0 && offset >= 0
    ensures r.1 == |MatchingIds(db, name)|
    ensures |r.0| <= limit
    ensures offset <= r.1 ==> |r.0| == if offset + limit <= r.1 then limit else r.1 - offset
    ensures offset >= r.1 ==> r.0 == []
    ensures forall i | 0 <= i < |r.0| :: r.0[i] in db.authors && NameMatches(db.authors[r.0[i]], name)
  {
    var ids := MatchingIds(db, name);
    var less := OrderFor(db, sortBy, sortDir);
    OrderTotal(db.authors, sortBy == "id", sortDir == "desc", ids);
    (Ordering.Page(Ordering.Arrange(less, ids), offset, limit), |ids|)
  }

  /** A matching author is on the page exactly when the number of matching
      authors ordered before it falls in the window. */
  lemma AuthorOnPage(db: Db, name: Option<string>, limit: int, offset: int, sortBy: string, sortDir: string, id: int)
    requires limit >= 0 && offset >= 0
    requires id in db.authors && NameMatches(db.authors[id], name)
    ensures id in ListAuthors(db, name, limit, offset, sortBy, sortDir).0
            <==> offset <= Ordering.Rank(OrderFor(db, sortBy, sortDir), MatchingIds(db, name), id) < offset + limit
  {
    var ids := MatchingIds(db, name);
    OrderTotal(db.authors, sortBy == "id", sortDir == "desc", ids);
    Ordering.OnPageIffRank(OrderFor(db, sortBy, sortDir), ids, offset, limit, id);
  }

  /** A matching author's rank among the matches, in any listing order, is
      a position of the full listing. */
  lemma RankInListing(db: Db, name: Option<string>, sortBy: string, sortDir: string, id: int)
    requires id in MatchingIds(db, name)
    ensures Ordering.Rank(OrderFor(db, sortBy, sortDir), MatchingIds(db, name), id) < |MatchingIds(db, name)|
  {
    OrderTotal(db.authors, sortBy == "id", sortDir == "desc", MatchingIds(db, name));
    Ordering.RankBelow(OrderFor(db, sortBy, sortDir), MatchingIds(db, name), id);
  }

  /** Author `id` is on the listing's page at `offset`. */
  predicate OnPage(db: Db, name: Option<string>, limit: int, offset: int, sortBy: string, sortDir: string, id: int) {
    limit >= 0 && offset >= 0 && id in ListAuthors(db, name, limit, offset, sortBy, sortDir).0
  }

  /** A matching author is on a page exactly when its rank falls in the page's window. */
  lemma OnPageAtRank(db: Db, name: Option<string>, limit: int, offset: int, sortBy: string, sortDir: string, id: int)
    requires limit >= 0 && offset >= 0
    requires id in MatchingIds(db, name)
    ensures OnPage(db, name, limit, offset, sortBy, sortDir, id)
            <==> offset <= Ordering.Rank(OrderFor(db, sortBy, sortDir), MatchingIds(db, name), id) < offset + limit
  {
    AuthorOnPage(db, name, limit, offset, sortBy, sortDir, id);
  }

  /** Paging from offset 0 by `next_offset` lists every matching author on
      exactly one page. */
  lemma ListedOnce(db: Db, name: Option<string>, limit: int, sortBy: string, sortDir: string, id: int)
    requires limit >= 1
    requires id in MatchingIds(db, name)
    ensures var w := Paging.Walk(0, limit, |MatchingIds(db, name)|);
            exists k | 0 <= k < |w| :: OnPage(db, name, limit, w[k], sortBy, sortDir, id)
    ensures var w := Paging.Walk(0, limit, |MatchingIds(db, name)|);
            forall j, k | 0 <= j < k < |w| ::
              !(OnPage(db, name, limit, w[j], sortBy, sortDir, id) && OnPage(db, name, limit, w[k], sortBy, sortDir, id))
  {
    var ids := MatchingIds(db, name);
    var w := Paging.Walk(0, limit, |ids|);
    var rank := Ordering.Rank(OrderFor(db, sortBy, sortDir), ids, id);
    RankInListing(db, name, sortBy, sortDir, id);
    var k := Paging.PageOf(0, limit, |ids|, rank);
    Paging.WalkShape(0, limit, |ids|);
    forall j | 0 <= j < |w|
      ensures OnPage(db, name, limit, w[j], sortBy, sortDir, id) <==> w[j] <= rank < w[j] + limit
    {
      if j > 0 {
        Paging.PagesApart(0, limit, |ids|, 0, j);
      }
      OnPageAtRank(db, name, limit, w[j], sortBy, sortDir, id);
    }
    assert OnPage(db, name, limit, w[k], sortBy, sortDir, id);
  }

  /** Sorting by name ascending lists names in code-point order. */
  lemma ByNameAscending(db: Db, name: Option<string>, limit: int, offset: int, sortBy: string, i: int, j: int)
    requires limit >= 0 && offset >= 0 && sortBy != "id"
    requires var p := ListAuthors(db, name, limit, offset, sortBy, "asc").0; 0 <= i < j < |p|
    ensures var p := ListAuthors(db, name, limit, offset, sortBy, "asc").0;
            LexLess(db.authors[p[i]].name, db.authors[p[j]].name)
            || (db.authors[p[i]].name == db.authors[p[j]].name && p[i] < p[j])
  {
    var ids := MatchingIds(db, name);
    var less := OrderFor(db, sortBy, "asc");
    OrderTotal(db.authors, false, false, ids);
    var xs := Ordering.Arrange(less, ids);
    Ordering.ArrangeSorted(less, ids);
    var p := ListAuthors(db, name, limit, offset, sortBy, "asc").0;
    assert p == Ordering.Page(xs, offset, limit);
    assert p[i] == xs[offset + i] && p[j] == xs[offset + j];
    assert less(xs[offset + i], xs[offset + j]);
  }

  /** The authors with exactly this name. */
  function Named(db: Db, name: string): (s: set<int>)
    ensures forall id | id in s :: id in db.authors && db.authors[id].name == name
    ensures forall id | id in db.authors && db.authors[id].name == name :: id in s
  {
    set id | id in db.authors && db.authors[id].name == name
  }

  /** `get_by_name` with `scalar_one_or_none`: no row, the one row, or an
      error when several authors share the name. */
  function GetByName(db: Db, name: string): (r: Result<Option<int>, Failure>)
    ensures r.Ok? && r.value.None? <==> Named(db, name) == {}
    ensures r.Ok? && r.value.Some? ==> Named(db, name) == {r.value.value}
    ensures r.Err? <==> |Named(db, name)| >= 2
    ensures r.Err? ==> r.error == MultipleResults
  {
    var s := Named(db, name);
    if s == {} then Ok(None)
    else if |s| == 1 then
      var id := Ordering.MinOf(s);
      assert s == {id} by {
        assert |s - {id}| == 0;
      }
      Ok(Some(id))
    else Err(MultipleResults)
  }

  /** No two authors share a name. */
  predicate NamesUnique(authors: map<int, Author>) {
    forall i, j | i in authors && j in authors && i != j :: authors[i].name != authors[j].name
  }

  /** Writing an author whose name no other author holds keeps names unique. */
  lemma PutKeepsNamesUnique(authors: map<int, Author>, id: int, a: Author)
    requires NamesUnique(authors)
    requires forall i | i in authors && i != id :: authors[i].name != a.name
    ensures NamesUnique(authors[id := a])
  {
    var m := authors[id := a];
    forall i, j | i in m && j in m && i != j
      ensures m[i].name != m[j].name
    {
      if i != id && j != id {
        assert m[i] == authors[i] && m[j] == authors[j];
      }
    }
  }

  /** When at most `id` holds the name, no other author does. */
  lemma OnlySelfNamed(db: Db, name: string, id: int)
    requires |Named(db, name)| < 2
    requires Named(db, name) != {} ==> id in Named(db, name)
    ensures forall i | i in db.authors && i != id :: db.authors[i].name != name
  {
    var s := Named(db, name);
    if s != {} {
      assert |s - {id}| == 0;
      assert s == {id};
    }
  }

  /** With unique names the lookup never fails. */
  lemma GetByNameNeverFails(db: Db, name: string)
    requires NamesUnique(db.authors)
    ensures GetByName(db, name).Ok?
  {
    var s := Named(db, name);
    if s != {} {
      var x := Ordering.Pick(s);
      forall y | y in s
        ensures y == x
      {
      }
      assert s == {x};
    }
  }

  /** With unique names the lookup finds the author holding the name. */
  lemma FindUnique(db: Db, name: string, id: int)
    requires NamesUnique(db.authors)
    requires id in db.authors && db.authors[id].name == name
    ensures GetByName(db, name) == Ok(Some(id))
  {
    GetByNameNeverFails(db, name);
    assert id in Named(db, name);
  }

  /** With a shared name the lookup fails rather than choosing. */
  lemma SharedNameFails(db: Db, name: string, i: int, j: int)
    requires i in db.authors && j in db.authors && i != j
    requires db.authors[i].name == name && db.authors[j].name == name
    ensures GetByName(db, name) == Err(MultipleResults)
  {
    var s := Named(db, name);
    assert {i, j} <= s;
    assert |{i, j}| == 2;
    assert |s| >= |{i, j}| by {
      Ordering.SubsetSize({i, j}, s);
    }
  }
}

=== FILE: author_routes.dfy ===
/** The author endpoints: query bounds of the listing, its `next_offset`,
    and the status each service outcome is answered with. A failure leaves
    the database as it was. */
module AuthorRoutes {
  import opened Results
  import opened Text
  import opened Store
  import Responses
  import AuthorRepo
  import AuthorService
  import Paging
  import Ordering

  /** The bounds FastAPI enforces on the listing's query, answering 422 otherwise. */
  predicate QueryOk(limit: int, offset: int, sortBy: string, sortDir: string) {
    && 1 <= limit <= 100
    && offset >= 0
    && sortBy in {"name", "id"}
    && sortDir in {"asc", "desc"}
  }

  /** `PaginatedAuthors`, with the authors as ids. */
  datatype AuthorPage = AuthorPage(items: seq<int>, total: int, limit: int, offset: int, nextOffset: Option<int>)

  /** The page `list_authors` answers within bounds for the normalised name
      filter `filter`: the bounds echoed, at most `limit` authors, the count
      of every matching author, and a next page exactly when authors remain
      past this one, starting right after it. */
  function Page(db: Db, filter: Option<string>, limit: int, offset: int, sortBy: string, sortDir: string)
    : (page: AuthorPage)
    requires limit >= 0 && offset >= 0
    ensures page.limit == limit && page.offset == offset
    ensures |page.items| <= limit
    ensures page.total == |AuthorRepo.MatchingIds(db, filter)|
    ensures page.nextOffset.Some? <==> offset + |page.items| < page.total
    ensures page.nextOffset.Some? ==> page.nextOffset.value == offset + |page.items|
  {
    var p := AuthorRepo.ListAuthors(db, filter, limit, offset, sortBy, sortDir);
    assert offset + limit < p.1 ==> |p.0| == limit;
    assert offset + limit >= p.1 ==> offset + |p.0| >= p.1;
    AuthorPage(p.0, p.1, limit, offset, Paging.NextOffset(offset, limit, p.1))
  }

  /** `list_authors`: 422 exactly for a query out of bounds, otherwise the
      page for the name as the service normalises it. */
  function List(db: Db, name: Option<string>, limit: int, offset: int, sortBy: string, sortDir: string)
    : (r: Result<AuthorPage, int>)
    ensures r.Err? <==> !QueryOk(limit, offset, sortBy, sortDir)
    ensures r.Err? ==> r.error == 422
    ensures r.Ok? ==> r.value == Page(db, AuthorService.ListName(name), limit, offset, sortBy, sortDir)
  {
    if !QueryOk(limit, offset, sortBy, sortDir) then Err(422)
    else Ok(Page(db, AuthorService.ListName(name), limit, offset, sortBy, sortDir))
  }

  /** Within bounds the listing shows exactly the authors and the total the
      service lists. */
  lemma ListIsServiceList(db: Db, name: Option<string>, limit: int, offset: int, sortBy: string, sortDir: string)
    requires QueryOk(limit, offset, sortBy, sortDir)
    ensures List(db, name, limit, offset, sortBy, sortDir).Ok?
    ensures List(db, name, limit, offset, sortBy, sortDir).value.items == AuthorService.List(db, name, limit, offset, sortBy, sortDir).0
    ensures List(db, name, limit, offset, sortBy, sortDir).value.total == AuthorService.List(db, name, limit, offset, sortBy, sortDir).1
  {
  }

  /** Author `id` is on the page answered at `offset` for filter `filter`. */
  predicate Shown(db: Db, filter: Option<string>, limit: int, offset: int, sortBy: string, sortDir: string, id: int) {
    limit >= 0 && offset >= 0 && id in Page(db, filter, limit, offset, sortBy, sortDir).items
  }

  /** A client that starts at offset 0 and follows `next_offset` sees every
      author matching the filter on exactly one page. */
  lemma ListedOnce(db: Db, filter: Option<string>, limit: int, sortBy: string, sortDir: string, id: int)
    requires limit >= 1
    requires id in AuthorRepo.MatchingIds(db, filter)
    ensures var w := Paging.Walk(0, limit, |AuthorRepo.MatchingIds(db, filter)|);
            exists k | 0 <= k < |w| :: Shown(db, filter, limit, w[k], sortBy, sortDir, id)
    ensures var w := Paging.Walk(0, limit, |AuthorRepo.MatchingIds(db, filter)|);
            forall j, k | 0 <= j < k < |w| ::
              !(Shown(db, filter, limit, w[j], sortBy, sortDir, id) && Shown(db, filter, limit, w[k], sortBy, sortDir, id))
  {
    var w := Paging.Walk(0, limit, |AuthorRepo.MatchingIds(db, filter)|);
    AuthorRepo.ListedOnce(db, filter, limit, sortBy, sortDir, id);
    forall j | 0 <= j < |w|
      ensures Shown(db, filter, limit, w[j], sortBy, sortDir, id) <==> AuthorRepo.OnPage(db, filter, limit, w[j], sortBy, sortDir, id)
    {
    }
  }

  /** How `create_author` answers the service's outcome `c`: 201 with the
      new author, 409 for `conflict`, 400 for `bad_name`, 500 for anything
      else; a failure changes nothing. */
  function CreateAnswer(db: Db, c: Result<(Db, int), Failure>): (r: (Db, int))
    ensures r.1 == 201 <==> c.Ok?
    ensures r.1 == 409 <==> c == Err(Conflict)
    ensures r.1 == 400 <==> c == Err(BadName)
    ensures r.1 == 500 <==> c.Err? && c.error !in {Conflict, BadName}
    ensures r.1 == 201 ==> r.0 == c.value.0
    ensures r.1 != 201 ==> r.0 == db
  {
    match c
    case Ok((d, _)) => (d, 201)
    case Err(Conflict) => (db, 409)
    case Err(BadName) => (db, 400)
    case Err(_) => (db, 500)
  }

  /** `create_author`. */
  function Create(db: Db, name: string, biography: Option<string>): (Db, int) {
    CreateAnswer(db, AuthorService.Create(db, name, biography))
  }

  /** With unique author names `create_author` never answers 500, and 409
      means exactly that an author already holds the stripped name. */
  lemma CreateOutcome(db: Db, name: string, biography: Option<string>)
    requires Valid(db) && AuthorRepo.NamesUnique(db.authors)
    ensures Create(db, name, biography).1 in {201, 400, 409}
    ensures Create(db, name, biography).1 == 400 <==> IsBlank(name)
    ensures Create(db, name, biography).1 == 409
            <==> !IsBlank(name) && exists i | i in db.authors :: db.authors[i].name == Strip(name)
    ensures Create(db, name, biography).1 == 201 ==> Valid(Create(db, name, biography).0)
  {
    AuthorService.CreateKeepsValid(db, name, biography);
    AuthorRepo.GetByNameNeverFails(db, Strip(name));
    if exists i | i in db.authors :: db.authors[i].name == Strip(name) {
      var i :| i in db.authors && db.authors[i].name == Strip(name);
      assert i in AuthorRepo.Named(db, Strip(name));
    }
  }

  /** How `update_author` answers the service's outcome `u`: 200 with the
      stored author, 404 for `not_found`, 409 for `conflict`, 400 for
      `bad_name`, 500 for anything else; a failure changes nothing. */
  function UpdateAnswer(db: Db, u: Result<Db, Failure>): (r: (Db, int))
    ensures r.1 == 200 <==> u.Ok?
    ensures r.1 == 404 <==> u == Err(NotFound)
    ensures r.1 == 409 <==> u == Err(Conflict)
    ensures r.1 == 400 <==> u == Err(BadName)
    ensures r.1 == 500 <==> u.Err? && u.error !in {NotFound, Conflict, BadName}
    ensures r.1 == 200 ==> r.0 == u.value
    ensures r.1 != 200 ==> r.0 == db
  {
    match u
    case Ok(d) => (d, 200)
    case Err(NotFound) => (db, 404)
    case Err(Conflict) => (db, 409)
    case Err(BadName) => (db, 400)
    case Err(_) => (db, 500)
  }

  /** `update_author`. */
  function Update(db: Db, id: int, name: string, biography: Option<string>): (Db, int) {
    UpdateAnswer(db, AuthorService.Update(db, id, name, biography))
  }

  /** With unique author names `update_author` never answers 500, and 409
      means exactly that another author holds the stripped name. */
  lemma UpdateOutcome(db: Db, id: int, name: string, biography: Option<string>)
    requires Valid(db) && AuthorRepo.NamesUnique(db.authors)
    ensures Update(db, id, name, biography).1 in {200, 400, 404, 409}
    ensures Update(db, id, name, biography).1 == 404 <==> id !in db.authors
    ensures Update(db, id, name, biography).1 == 400 <==> id in db.authors && IsBlank(name)
    ensures Update(db, id, name, biography).1 == 409
            <==> && id in db.authors && !IsBlank(name)
                 && exists i | i in db.authors :: i != id && db.authors[i].name == Strip(name)
    ensures Update(db, id, name, biography).1 == 200 ==> Valid(Update(db, id, name, biography).0)
  {
    AuthorService.UpdateKeepsValid(db, id, name, biography);
    AuthorRepo.GetByNameNeverFails(db, Strip(name));
    var named := AuthorRepo.Named(db, Strip(name));
    if exists i | i in db.authors :: i != id && db.authors[i].name == Strip(name) {
      var i :| i in db.authors && i != id && db.authors[i].name == Strip(name);
      assert i in named;
      if AuthorRepo.GetByName(db, Strip(name)).value.Some? {
        assert named == {i};
      }
    } else if named != {} {
      var x := Ordering.Pick(named);
      assert x == id;
    }
  }

  /** `delete_author`. */
  function Delete(db: Db, id: int): (Db, int) {
    Responses.DeleteAnswer(db, AuthorService.Delete(db, id))
  }

  /** On a valid database deleting answers 204 exactly when the author exists, and 404 otherwise. */
  lemma DeleteOutcome(db: Db, id: int)
    requires Valid(db)
    ensures Delete(db, id).1 == (if id in db.authors then 204 else 404)
    ensures Valid(Delete(db, id).0)
  {
    if id in db.authors {
      AuthorService.DeleteKeepsValid(db, id);
    }
  }
}

=== FILE: author_service.dfy ===
/** `AuthorService`: name normalisation for the listing, and the name checks
    run before an author is created or renamed. */
module AuthorService {
  import opened Results
  import opened Text
  import opened Store
  import AuthorRepo

  /** `list`'s `(name or "").strip() or None`: no filter for a missing or
      blank name, otherwise the stripped name. */
  function ListName(name: Option<string>): (r: Option<string>)
    ensures r.None? <==> name.None? || IsBlank(name.value)
    ensures r.Some? ==> r.value == Strip(name.value) && !IsBlank(r.value)
  {
    var s := Strip(name.GetOr(""));
    if s == [] then None
    else
      assert !IsSpace(s[0]);
      Some(s)
  }

  /** `list`: the authors' listing with the normalised name filter. */
  function List(db: Db, name: Option<string>, limit: int, offset: int, sortBy: string, sortDir: string)
    : (r: (seq<int>, int))
    requires limit >= 0 && offset >= 0
    ensures r.1 == |AuthorRepo.MatchingIds(db, ListName(name))|
    ensures name.None? || IsBlank(name.value) ==> r.1 == |db.authors|
    ensures offset <= r.1 ==> |r.0| == if offset + limit <= r.1 then limit else r.1 - offset
    ensures offset >= r.1 ==> r.0 == []
    ensures forall i | 0 <= i < |r.0| :: r.0[i] in db.authors
    ensures name.Some? && !IsBlank(name.value) ==>
              forall i | 0 <= i < |r.0| :: ILike(db.authors[r.0[i]].name, "%" + Strip(name.value) + "%")
  {
    var q := ListName(name);
    assert q.None? ==> AuthorRepo.MatchingIds(db, q) == db.authors.Keys;
    assert q.Some? ==> Truthy(q) && q.value == Strip(name.value);
    AuthorRepo.ListAuthors(db, q, limit, offset, sortBy, sortDir)
  }

  /** `get_or_404`. */
  function GetOr404(db: Db, id: int): (r: Result<Author, Failure>)
    ensures r.Err? <==> id !in db.authors
    ensures r.Err? ==> r.error == NotFound
    ensures r.Ok? ==> id in db.authors && r.value == db.authors[id]
  {
    if id in db.authors then Ok(db.authors[id]) else Err(NotFound)
  }

  /** `create`: the name is stripped and must not be empty; an author with
      exactly that name is a conflict (several of them make the lookup
      itself fail); otherwise the author is added with the stripped name. */
  function Create(db: Db, name: string, biography: Option<string>): (r: Result<(Db, int), Failure>)
    ensures r == Err(BadName) <==> IsBlank(name)
    ensures r == Err(Conflict) <==> !IsBlank(name) && |AuthorRepo.Named(db, Strip(name))| == 1
    ensures r == Err(MultipleResults) <==> !IsBlank(name) && |AuthorRepo.Named(db, Strip(name))| >= 2
    ensures r.Ok? ==> && !IsBlank(name) && AuthorRepo.Named(db, Strip(name)) == {}
                      && r.value.1 == db.nextAuthor
                      && r.value.0 == AddAuthor(db, Author(Strip(name), biography)).0
    ensures r.Err? ==> r.error in {BadName, Conflict, MultipleResults, IntegrityViolation}
  {
    var s := Strip(name);
    if s == [] then Err(BadName)
    else
      match AuthorRepo.GetByName(db, s)
      case Err(e) => Err(e)
      case Ok(Some(_)) => Err(Conflict)
      case Ok(None) =>
        var (db', id) := AddAuthor(db, Author(s, biography));
        match Commit(db')
        case Ok(d) => Ok((d, id))
        case Err(e) => Err(e)
  }

  /** On a valid database `create` is never refused by the database, keeps
      it valid, and keeps author names unique. */
  lemma CreateKeepsValid(db: Db, name: string, biography: Option<string>)
    requires Valid(db)
    ensures Create(db, name, biography) != Err(IntegrityViolation)
    ensures Create(db, name, biography).Ok? ==> Valid(Create(db, name, biography).value.0)
    ensures Create(db, name, biography).Ok? && AuthorRepo.NamesUnique(db.authors)
            ==> AuthorRepo.NamesUnique(Create(db, name, biography).value.0.authors)
  {
    if !IsBlank(name) && AuthorRepo.Named(db, Strip(name)) == {} {
      var a := Author(Strip(name), biography);
      var db' := AddAuthor(db, a).0;
      var id := db.nextAuthor;
      AddAuthorKeepsValid(db, a);
      assert Commit(db') == Ok(db');
      assert Create(db, name, biography) == Ok((db', id));
      if AuthorRepo.NamesUnique(db.authors) {
        forall i | i in db.authors && i != id
          ensures db.authors[i].name != a.name
        {
          assert i !in AuthorRepo.Named(db, Strip(name));
        }
        AuthorRepo.PutKeepsNamesUnique(db.authors, id, a);
      }
    } else if !IsBlank(name) {
      var named := AuthorRepo.Named(db, Strip(name));
      assert |named| == 1 || |named| >= 2;
      assert Create(db, name, biography) in {Err(Conflict), Err(MultipleResults)};
    } else {
      assert Create(db, name, biography) == Err(BadName);
    }
  }

  /** A created author is found by its stripped name, when names were unique. */
  lemma CreateThenFind(db: Db, name: string, biography: Option<string>)
    requires Valid(db) && AuthorRepo.NamesUnique(db.authors)
    requires Create(db, name, biography).Ok?
    ensures AuthorRepo.GetByName(Create(db, name, biography).value.0, Strip(name)) == Ok(Some(Create(db, name, biography).value.1))
  {
    CreateKeepsValid(db, name, biography);
    var db' := Create(db, name, biography).value.0;
    var id := Create(db, name, biography).value.1;
    assert db'.authors == db.authors[id := Author(Strip(name), biography)];
    AuthorRepo.FindUnique(db', Strip(name), id);
  }

  /** `update`: the author must exist, then the stripped name must not be
      empty, then a different author holding that exact name is a conflict;
      the stripped name and the biography (possibly `None`) are stored. */
  function Update(db: Db, id: int, name: string, biography: Option<string>): (r: Result<Db, Failure>)
    ensures r == Err(NotFound) <==> id !in db.authors
    ensures r == Err(BadName) <==> id in db.authors && IsBlank(name)
    ensures r == Err(MultipleResults) <==> id in db.authors && !IsBlank(name) && |AuthorRepo.Named(db, Strip(name))| >= 2
    ensures r == Err(Conflict) <==> && id in db.authors && !IsBlank(name)
                                    && |AuthorRepo.Named(db, Strip(name))| == 1 && id !in AuthorRepo.Named(db, Strip(name))
    ensures r.Ok? ==> id in db.authors && r.value == db.(authors := db.authors[id := Author(Strip(name), biography)])
    ensures r.Err? ==> r.error in {NotFound, BadName, Conflict, MultipleResults, IntegrityViolation}
  {
    if id !in db.authors then Err(NotFound)
    else
      var s := Strip(name);
      if s == [] then Err(BadName)
      else
        var found := AuthorRepo.GetByName(db, s);
        if found.Err? then Err(found.error)
        else if found.value.Some? && found.value.value != id then
          assert AuthorRepo.Named(db, s) == {found.value.value};
          Err(Conflict)
        else
          assert AuthorRepo.Named(db, s) == {} || AuthorRepo.Named(db, s) == {id};
          Commit(db.(authors := db.authors[id := Author(s, biography)]))
  }

  /** On a valid database `update` is never refused by the database, keeps
      it valid, and keeps author names unique. */
  lemma UpdateKeepsValid(db: Db, id: int, name: string, biography: Option<string>)
    requires Valid(db)
    ensures Update(db, id, name, biography) != Err(IntegrityViolation)
    ensures Update(db, id, name, biography).Ok? ==> Valid(Update(db, id, name, biography).value)
    ensures Update(db, id, name, biography).Ok? && AuthorRepo.NamesUnique(db.authors)
            ==> AuthorRepo.NamesUnique(Update(db, id, name, biography).value.authors)
  {
    var named := AuthorRepo.Named(db, Strip(name));
    if id in db.authors && !IsBlank(name) && |named| < 2 && !(|named| == 1 && id !in named) {
      var db' := db.(authors := db.authors[id := Author(Strip(name), biography)]);
      ReplaceAuthorKeepsValid(db, id, Author(Strip(name), biography));
      assert Update(db, id, name, biography) == Ok(db');
      AuthorRepo.OnlySelfNamed(db, Strip(name), id);
      if AuthorRepo.NamesUnique(db.authors) {
        AuthorRepo.PutKeepsNamesUnique(db.authors, id, Author(Strip(name), biography));
      }
    }
  }

  /** Keeping one's own name is never a conflict. */
  lemma RenameToOwnName(db: Db, id: int, name: string, biography: Option<string>)
    requires Valid(db) && AuthorRepo.NamesUnique(db.authors)
    requires id in db.authors && !IsBlank(name) && Strip(name) == db.authors[id].name
    ensures Update(db, id, name, biography).Ok?
  {
    UpdateKeepsValid(db, id, name, biography);
    AuthorRepo.GetByNameNeverFails(db, Strip(name));
    assert id in AuthorRepo.Named(db, Strip(name));
  }

  /** A book's author reference once author `id` is gone: `ON DELETE SET NULL`. */
  function Orphan(b: Book, id: int): (r: Book)
    ensures r.authorId == (if b.authorId == Some(id) then None else b.authorId)
    ensures r.title == b.title && r.genre == b.genre && r.year == b.year && r.isbn == b.isbn
  {
    if b.authorId == Some(id) then b.(authorId := None) else b
  }

  /** `delete`: the author must exist; the row is removed and the author's
      books lose their author. */
  function Delete(db: Db, id: int): (r: Result<Db, Failure>)
    ensures r == Err(NotFound) <==> id !in db.authors
    ensures r.Ok? ==> && id in db.authors
                      && r.value.authors == db.authors - {id}
                      && r.value.books.Keys == db.books.Keys
                      && (forall i | i in r.value.books :: r.value.books[i] == Orphan(db.books[i], id))
                      && r.value.users == db.users
  {
    if id !in db.authors then Err(NotFound)
    else
      var books := map i | i in db.books :: Orphan(db.books[i], id);
      Commit(db.(authors := db.authors - {id}, books := books))
  }

  /** Deleting an existing author from a valid database always succeeds and keeps it valid. */
  lemma DeleteKeepsValid(db: Db, id: int)
    requires Valid(db) && id in db.authors
    ensures Delete(db, id).Ok? && Valid(Delete(db, id).value)
  {
    var books := map i | i in db.books :: Orphan(db.books[i], id);
    var db' := db.(authors := db.authors - {id}, books := books);
    forall i, j | i in books && j in books && i != j
      ensures TitlesApart(books[i], books[j])
    {
      if books[i].authorId.Some? && books[i].authorId == books[j].authorId {
        assert db.books[i].authorId == books[i].authorId && db.books[j].authorId == books[j].authorId;
      }
    }
    assert IsbnUnique(books);
    assert AuthorsExist(db');
    assert Constraints(db') && IdsBelow(db');
  }
}

=== FILE: book_import.dfy ===
/** The book import loop (`import_books`): each validated row finds or
    creates its author, is skipped when judged a duplicate, and is otherwise
    added to the session; one commit ends the import. The session does not
    flush on its own, so rows added earlier reach the database only when a
    new author is flushed or at the final commit, and the duplicate lookup
    does not see them before that. */
module BookImport {
  import opened Results
  import opened Text
  import opened Store
  import BookSchema
  import ImportSchema
  import BookService

  /** The session: the flushed database and the books added since the last flush. */
  datatype Session = Session(db: Db, pending: seq<Book>)

  /** Writing the pending books in order, each under the next id. */
  function FlushBooks(db: Db, pending: seq<Book>): (r: Db)
    decreases |pending|
    ensures r.authors == db.authors && r.users == db.users
    ensures r.nextAuthor == db.nextAuthor && r.nextUser == db.nextUser
    ensures r.nextBook == db.nextBook + |pending|
    ensures forall i | i in db.books :: i in r.books
    ensures forall i | i in db.books && i < db.nextBook :: r.books[i] == db.books[i]
    ensures forall i | db.nextBook <= i < db.nextBook + |pending| :: i in r.books && r.books[i] == pending[i - db.nextBook]
    ensures forall i | i in r.books :: i in db.books || db.nextBook <= i < db.nextBook + |pending|
  {
    if pending == [] then db
    else
      var n := |pending| - 1;
      AddBook(FlushBooks(db, pending[..n]), pending[n]).0
  }

  /** The book a row becomes once its author is known. */
  function RowBook(it: ImportSchema.Item, a: int): Book {
    Book(it.title, BookSchema.GenreValue(it.genre), it.year, Some(a), it.isbn)
  }

  /** The row's author: the first flushed author with exactly this name, or a
      new author, whose flush writes the pending books as well. */
  function ResolveAuthor(s: Session, name: string): (r: Result<(Session, int), Failure>)
    ensures r.Ok? ==> r.value.1 in r.value.0.db.authors && r.value.0.db.authors[r.value.1].name == name
    ensures BookService.AuthorByName(s.db, name).Some? ==> r == Ok((s, BookService.AuthorByName(s.db, name).value))
    ensures r.Err? ==> r.error == IntegrityViolation
  {
    match BookService.AuthorByName(s.db, name)
    case Some(a) => Ok((s, a))
    case None =>
      var (db', a) := AddAuthor(s.db, Author(name, None));
      match Commit(FlushBooks(db', s.pending))
      case Ok(d) => Ok((Session(d, []), a))
      case Err(e) => Err(e)
  }

  /** The duplicate test as written: a flushed book of author `a` with exactly this title. */
  predicate StoredExactly(db: Db, title: string, a: int) {
    exists i | i in db.books :: db.books[i].title == title && db.books[i].authorId == Some(a)
  }

  /** Books `x` and `b` break a uniqueness rule together. */
  predicate Clash(x: Book, b: Book) {
    !(Apart(b, x) && Apart(x, b))
  }

  /** The corrected duplicate test: `b` clashes with a flushed or a pending
      book, comparing titles case-insensitively and ISBNs as well. */
  predicate Refused(s: Session, b: Book) {
    || (exists i | i in s.db.books :: Clash(s.db.books[i], b))
    || (exists k | 0 <= k < |s.pending| :: Clash(s.pending[k], b))
  }

  /** One row: the session afterwards and whether a book was added. */
  function Step(s: Session, it: ImportSchema.Item, fixed: bool): Result<(Session, bool), Failure> {
    match ResolveAuthor(s, it.authorName)
    case Err(e) => Err(e)
    case Ok((s1, a)) =>
      var b := RowBook(it, a);
      var duplicate := if fixed then Refused(s1, b) else StoredExactly(s1.db, it.title, a);
      if duplicate then Ok((s1, false))
      else Ok((Session(s1.db, s1.pending + [b]), true))
  }

  /** The loop over the rows: the final session and the `created` count. */
  function Run(s: Session, items: seq<ImportSchema.Item>, fixed: bool): Result<(Session, nat), Failure>
    decreases |items|
  {
    if items == [] then Ok((s, 0))
    else
      match Step(s, items[0], fixed)
      case Err(e) => Err(e)
      case Ok((s1, added)) =>
        match Run(s1, items[1..], fixed)
        case Err(e) => Err(e)
        case Ok((s2, n)) => Ok((s2, n + if added then 1 else 0))
  }

  /** The loop followed by the commit: the new database and `created`. */
  function ImportWith(db: Db, items: seq<ImportSchema.Item>, fixed: bool): Result<(Db, nat), Failure> {
    match Run(Session(db, []), items, fixed)
    case Err(e) => Err(e)
    case Ok((s, n)) =>
      match Commit(FlushBooks(s.db, s.pending))
      case Ok(d) => Ok((d, n))
      case Err(e) => Err(e)
  }

  /** `import_books` as written. */
  function ImportAsWritten(db: Db, items: seq<ImportSchema.Item>): Result<(Db, nat), Failure> {
    ImportWith(db, items, false)
  }

  /** `import_books` with the duplicate test the constraints call for. */
  function Import(db: Db, items: seq<ImportSchema.Item>): Result<(Db, nat), Failure> {
    ImportWith(db, items, true)
  }

  // Counting

  /** The books a session holds once flushed. */
  function Stored(s: Session): nat {
    |s.db.books| + |s.pending|
  }

  /** Flushing writes every pending book as a new row. */
  lemma {:induction false} FlushCount(db: Db, pending: seq<Book>)
    requires forall i | i in db.books :: i < db.nextBook
    ensures |FlushBooks(db, pending).books| == |db.books| + |pending|
    decreases |pending|
  {
    if pending != [] {
      var front := pending[..|pending| - 1];
      var f := FlushBooks(db, front);
      FlushCount(db, front);
      assert f.nextBook !in f.books;
    }
  }

  /** Resolving the author keeps the stored books and the ids in range. */
  lemma ResolveCounts(s: Session, name: string)
    requires IdsBelow(s.db)
    ensures ResolveAuthor(s, name).Ok? ==>
              IdsBelow(ResolveAuthor(s, name).value.0.db) && Stored(ResolveAuthor(s, name).value.0) == Stored(s)
  {
    if BookService.AuthorByName(s.db, name).None? {
      var db' := AddAuthor(s.db, Author(name, None)).0;
      assert IdsBelow(db');
      var f := FlushBooks(db', s.pending);
      FlushCount(db', s.pending);
      assert IdsBelow(f);
      assert ResolveAuthor(s, name).Ok? ==> ResolveAuthor(s, name).value.0 == Session(f, []);
    }
  }

  lemma StepCounts(s: Session, it: ImportSchema.Item, fixed: bool)
    requires IdsBelow(s.db)
    ensures Step(s, it, fixed).Ok? ==>
              && IdsBelow(Step(s, it, fixed).value.0.db)
              && Stored(Step(s, it, fixed).value.0) == Stored(s) + if Step(s, it, fixed).value.1 then 1 else 0
  {
    ResolveCounts(s, it.authorName);
    var r := ResolveAuthor(s, it.authorName);
    if r.Ok? {
      var s1 := r.value.0;
      var b := RowBook(it, r.value.1);
      assert |s1.pending + [b]| == |s1.pending| + 1;
    }
  }

  lemma {:induction false} RunCounts(s: Session, items: seq<ImportSchema.Item>, fixed: bool)
    requires IdsBelow(s.db)
    ensures Run(s, items, fixed).Ok? ==>
              && IdsBelow(Run(s, items, fixed).value.0.db)
              && Stored(Run(s, items, fixed).value.0) == Stored(s) + Run(s, items, fixed).value.1
    decreases |items|
  {
    if items != [] {
      StepCounts(s, items[0], fixed);
      if Step(s, items[0], fixed).Ok? {
        RunCounts(Step(s, items[0], fixed).value.0, items[1..], fixed);
      }
    }
  }

  /** `created` is the number of books the import adds, under either duplicate test. */
  lemma ImportCounts(db: Db, items: seq<ImportSchema.Item>, fixed: bool)
    requires IdsBelow(db)
    ensures ImportWith(db, items, fixed).Ok? ==>
              |ImportWith(db, items, fixed).value.0.books| == |db.books| + ImportWith(db, items, fixed).value.1
  {
    RunCounts(Session(db, []), items, fixed);
    if Run(Session(db, []), items, fixed).Ok? {
      var s := Run(Session(db, []), items, fixed).value.0;
      FlushCount(s.db, s.pending);
    }
  }

  // The corrected import never breaks a constraint

  /** Pending books name existing authors, clash with no flushed book and
      with no other pending book. */
  predicate PendingFits(db: Db, p: seq<Book>) {
    && (forall k | 0 <= k < |p| :: p[k].authorId.Some? ==> p[k].authorId.value in db.authors)
    && (forall k, i | 0 <= k < |p| && i in db.books :: !Clash(db.books[i], p[k]))
    && (forall k, l | 0 <= k < l < |p| :: !Clash(p[k], p[l]))
  }

  /** Flushing books that fit keeps the database valid. */
  lemma {:induction false} FlushKeepsValid(db: Db, pending: seq<Book>)
    requires Valid(db) && PendingFits(db, pending)
    ensures Valid(FlushBooks(db, pending))
    decreases |pending|
  {
    if pending != [] {
      var n := |pending| - 1;
      var front := pending[..n];
      assert PendingFits(db, front);
      FlushKeepsValid(db, front);
      var f := FlushBooks(db, front);
      var b := pending[n];
      assert FitsAmong(f.books, b, f.nextBook) by {
        forall i | i in f.books && i != f.nextBook
          ensures Apart(b, f.books[i]) && Apart(f.books[i], b)
        {
          if i in db.books {
            assert f.books[i] == db.books[i];
            assert !Clash(db.books[i], pending[n]);
          } else {
            var k := i - db.nextBook;
            assert f.books[i] == front[k] == pending[k];
            assert !Clash(pending[k], pending[n]);
          }
        }
      }
      AddBookKeepsValid(f, b);
    }
  }

  /** One row of the corrected loop succeeds and keeps the session fitting. */
  lemma StepKeeps(s: Session, it: ImportSchema.Item)
    requires Valid(s.db) && PendingFits(s.db, s.pending)
    ensures Step(s, it, true).Ok?
    ensures Valid(Step(s, it, true).value.0.db)
    ensures PendingFits(Step(s, it, true).value.0.db, Step(s, it, true).value.0.pending)
  {
    if BookService.AuthorByName(s.db, it.authorName).None? {
      var db' := AddAuthor(s.db, Author(it.authorName, None)).0;
      AddAuthorKeepsValid(s.db, Author(it.authorName, None));
      assert PendingFits(db', s.pending);
      FlushKeepsValid(db', s.pending);
    }
    var r := ResolveAuthor(s, it.authorName);
    assert r.Ok?;
    var s1 := r.value.0;
    var b := RowBook(it, r.value.1);
    if !Refused(s1, b) {
      var p := s1.pending + [b];
      forall k, i | 0 <= k < |p| && i in s1.db.books
        ensures !Clash(s1.db.books[i], p[k])
      {
        if k < |s1.pending| {
          assert p[k] == s1.pending[k];
        }
      }
      forall k, l | 0 <= k < l < |p|
        ensures !Clash(p[k], p[l])
      {
        assert p[k] == s1.pending[k];
        if l < |s1.pending| {
          assert p[l] == s1.pending[l];
        }
      }
      assert PendingFits(s1.db, p);
    }
  }

  lemma {:induction false} RunKeeps(s: Session, items: seq<ImportSchema.Item>)
    requires Valid(s.db) && PendingFits(s.db, s.pending)
    ensures Run(s, items, true).Ok?
    ensures Valid(Run(s, items, true).value.0.db)
    ensures PendingFits(Run(s, items, true).value.0.db, Run(s, items, true).value.0.pending)
    decreases |items|
  {
    if items != [] {
      StepKeeps(s, items[0]);
      RunKeeps(Step(s, items[0], true).value.0, items[1..]);
    }
  }

  /** The corrected import always commits on a valid database and leaves it valid. */
  lemma ImportKeepsValid(db: Db, items: seq<ImportSchema.Item>)
    requires Valid(db)
    ensures Import(db, items).Ok?
    ensures Valid(Import(db, items).value.0)
  {
    RunKeeps(Session(db, []), items);
    var s := Run(Session(db, []), items, true).value.0;
    FlushKeepsValid(s.db, s.pending);
  }

  // How the two duplicate tests compare

  /** Whatever the test as written skips, the corrected test skips as well. */
  lemma RefusedCoversStoredExactly(s: Session, it: ImportSchema.Item, a: int)
    requires StoredExactly(s.db, it.title, a)
    ensures Refused(s, RowBook(it, a))
  {
    var i :| i in s.db.books && s.db.books[i].title == it.title && s.db.books[i].authorId == Some(a);
    assert Clash(s.db.books[i], RowBook(it, a));
  }

  /** A commit that would store two rows breaking the title rule is refused. */
  lemma TitleClashRefused(f: Db, i: int, j: int)
    requires i in f.books && j in f.books && i != j
    requires !TitlesApart(f.books[i], f.books[j])
    ensures Commit(f) == Err(IntegrityViolation)
  {
    assert !TitleAuthorUnique(f.books);
  }

  /** A row of a known author that the test as written does not find is
      added to the pending books. */
  lemma StepAsWrittenAdds(s: Session, it: ImportSchema.Item)
    requires BookService.AuthorByName(s.db, it.authorName).Some?
    requires !StoredExactly(s.db, it.title, BookService.AuthorByName(s.db, it.authorName).value)
    ensures Step(s, it, false)
            == Ok((Session(s.db, s.pending + [RowBook(it, BookService.AuthorByName(s.db, it.authorName).value)]), true))
  {
  }

  /** On a valid database a title differing only in letter case from a
      stored book of author `a` is not stored exactly for `a`. */
  lemma CaseVariantNotStored(db: Db, id: int, title: string, a: int)
    requires Valid(db) && id in db.books
    requires db.books[id].authorId == Some(a)
    requires db.books[id].title != title && Lower(db.books[id].title) == Lower(title)
    ensures !StoredExactly(db, title, a)
  {
    forall j | j in db.books && db.books[j].authorId == Some(a)
      ensures db.books[j].title != title
    {
      if j != id {
        assert TitlesApart(db.books[j], db.books[id]);
      }
    }
  }

  /** A book the corrected test lets through is not stored exactly either. */
  lemma UnrefusedNotStored(s: Session, it: ImportSchema.Item, a: int)
    requires !Refused(s, RowBook(it, a))
    ensures !StoredExactly(s.db, it.title, a)
  {
    forall j | j in s.db.books && s.db.books[j].authorId == Some(a)
      ensures s.db.books[j].title != it.title
    {
      assert !Clash(s.db.books[j], RowBook(it, a));
    }
  }

  /** A row whose title differs from a stored book of the same author only
      in letter case passes the test as written and makes the commit fail. */
  lemma CaseVariantAsWritten(db: Db, id: int, it: ImportSchema.Item)
    requires Valid(db) && id in db.books
    requires BookService.AuthorByName(db, it.authorName).Some?
    requires db.books[id].authorId == BookService.AuthorByName(db, it.authorName)
    requires db.books[id].title != it.title && Lower(db.books[id].title) == Lower(it.title)
    ensures ImportAsWritten(db, [it]) == Err(IntegrityViolation)
  {
    var a := BookService.AuthorByName(db, it.authorName).value;
    var s := Session(db, []);
    var b := RowBook(it, a);
    CaseVariantNotStored(db, id, it.title, a);
    StepAsWrittenAdds(s, it);
    assert s.pending + [b] == [b];
    assert Run(s, [it], false) == Ok((Session(db, [b]), 1));
    var f := FlushBooks(db, [b]);
    assert f.books[db.nextBook] == b && f.books[id] == db.books[id];
    TitleClashRefused(f, db.nextBook, id);
  }

  /** The corrected test skips such a row and the import changes nothing. */
  lemma CaseVariantCorrected(db: Db, id: int, it: ImportSchema.Item)
    requires Valid(db) && id in db.books
    requires BookService.AuthorByName(db, it.authorName).Some?
    requires db.books[id].authorId == BookService.AuthorByName(db, it.authorName)
    requires Lower(db.books[id].title) == Lower(it.title)
    ensures Import(db, [it]) == Ok((db, 0))
  {
    var a := BookService.AuthorByName(db, it.authorName).value;
    var s := Session(db, []);
    var b := RowBook(it, a);
    assert ResolveAuthor(s, it.authorName) == Ok((s, a));
    assert Clash(db.books[id], b);
    assert Step(s, it, true) == Ok((s, false));
    assert Run(s, [it], true) == Ok((s, 0));
  }

  /** A new row listed twice passes the test as written both times, because
      the first copy is not flushed yet, and makes the commit fail. */
  lemma RepeatedRowAsWritten(db: Db, it: ImportSchema.Item)
    requires Valid(db)
    requires BookService.AuthorByName(db, it.authorName).Some?
    requires !Refused(Session(db, []), RowBook(it, BookService.AuthorByName(db, it.authorName).value))
    ensures ImportAsWritten(db, [it, it]) == Err(IntegrityViolation)
  {
    var a := BookService.AuthorByName(db, it.authorName).value;
    var b := RowBook(it, a);
    var s := Session(db, []);
    UnrefusedNotStored(s, it, a);
    StepAsWrittenAdds(s, it);
    assert s.pending + [b] == [b];
    StepAsWrittenAdds(Session(db, [b]), it);
    assert [b] + [b] == [b, b];
    assert [it, it][1..] == [it];
    assert Run(Session(db, [b]), [it], false) == Ok((Session(db, [b, b]), 1));
    assert Run(s, [it, it], false) == Ok((Session(db, [b, b]), 2));
    var f := FlushBooks(db, [b, b]);
    assert f.books[db.nextBook] == b && f.books[db.nextBook + 1] == b;
    TitleClashRefused(f, db.nextBook, db.nextBook + 1);
  }

  /** The corrected test adds a row listed twice once. */
  lemma RepeatedRowCorrected(db: Db, it: ImportSchema.Item)
    requires Valid(db)
    requires BookService.AuthorByName(db, it.authorName).Some?
    requires !Refused(Session(db, []), RowBook(it, BookService.AuthorByName(db, it.authorName).value))
    ensures var b := RowBook(it, BookService.AuthorByName(db, it.authorName).value);
            Import(db, [it, it]) == Ok((AddBook(db, b).0, 1))
  {
    var a := BookService.AuthorByName(db, it.authorName).value;
    var b := RowBook(it, a);
    var s := Session(db, []);
    assert ResolveAuthor(s, it.authorName) == Ok((s, a));
    assert s.pending + [b] == [b];
    assert Step(s, it, true) == Ok((Session(db, [b]), true));
    assert ResolveAuthor(Session(db, [b]), it.authorName) == Ok((Session(db, [b]), a));
    assert Clash(Session(db, [b]).pending[0], b);
    assert Step(Session(db, [b]), it, true) == Ok((Session(db, [b]), false));
    assert [it, it][1..] == [it];
    assert Run(Session(db, [b]), [it], true) == Ok((Session(db, [b]), 0));
    assert Run(s, [it, it], true) == Ok((Session(db, [b]), 1));
    assert FitsAmong(db.books, b, db.nextBook) by {
      forall i | i in db.books && i != db.nextBook
        ensures Apart(b, db.books[i]) && Apart(db.books[i], b)
      {
        assert !Clash(db.books[i], b);
      }
    }
    AddBookKeepsValid(db, b);
    assert [b][..0] == [];
    assert FlushBooks(db, [b]) == AddBook(db, b).0;
  }
}

=== FILE: book_raw.dfy ===
/** The hand-written SQL listing of books (`list_books_raw`): a whitelisted
    `ORDER BY` expression, an optional search clause and the bound
    parameters. The statements are rendered as text; executing them is not
    part of this model. */
module BookRaw {
  import opened Results
  import opened Text

  /** `BOOK_SORT_COLUMNS`: the sort keys a caller may name, and their columns. */
  const SortColumns: map<string, string> :=
    map["title" := "b.title", "created_at" := "b.created_at", "updated_at" := "b.updated_at", "isbn" := "b.isbn"]

  const DefaultColumn := "b.created_at"

  /** Every `ORDER BY` text the builder can produce: a whitelisted column and a direction. */
  const OrderClauses: set<string> :=
    set c, d | c in SortColumns.Values && d in ["ASC", "DESC"] :: c + " " + d

  /** The column half of `_sort_expr`: `sort_by or "created_at"` looked up
      with `b.created_at` as the fallback. */
  function SortColumn(sortBy: Option<string>): (col: string)
    ensures col in SortColumns.Values
    ensures sortBy.Some? && sortBy.value in SortColumns ==> col == SortColumns[sortBy.value]
    ensures sortBy.None? || sortBy.value !in SortColumns ==> col == DefaultColumn
  {
    var key := if Truthy(sortBy) then sortBy.value else "created_at";
    assert SortColumns["created_at"] == DefaultColumn;
    if key in SortColumns then SortColumns[key] else DefaultColumn
  }

  /** The spellings of `desc` in any mix of letter case. */
  predicate DescSpelling(s: string) {
    && |s| == 4
    && (s[0] == 'd' || s[0] == 'D')
    && (s[1] == 'e' || s[1] == 'E')
    && (s[2] == 's' || s[2] == 'S')
    && (s[3] == 'c' || s[3] == 'C')
  }

  /** The direction half of `_sort_expr`: `(sort_dir or "desc").lower() == "desc"`. */
  function IsDescending(sortDir: Option<string>): (desc: bool)
    ensures desc <==> !Truthy(sortDir) || DescSpelling(sortDir.value)
  {
    var d := if Truthy(sortDir) then sortDir.value else "desc";
    var l := Lower(d);
    assert DescSpelling(d) ==> l == "desc";
    assert l == "desc" ==> l[0] == 'd' && l[1] == 'e' && l[2] == 's' && l[3] == 'c';
    l == "desc"
  }

  /** The keyword of a direction. */
  function DirKeyword(desc: bool): string {
    if desc then "DESC" else "ASC"
  }

  /** `_sort_expr`: the text placed after `ORDER BY`. Whatever the caller
      sends, it is one of the eight whitelisted clauses, starting with the
      chosen column and ending with the chosen direction. */
  function SortExpr(sortBy: Option<string>, sortDir: Option<string>): (r: string)
    ensures r in OrderClauses
    ensures |SortColumn(sortBy)| < |r| && r[..|SortColumn(sortBy)|] == SortColumn(sortBy)
    ensures |DirKeyword(IsDescending(sortDir))| < |r|
    ensures r[|r| - |DirKeyword(IsDescending(sortDir))|..] == DirKeyword(IsDescending(sortDir))
  {
    var d := DirKeyword(IsDescending(sortDir));
    assert d in ["ASC", "DESC"];
    SortColumn(sortBy) + " " + d
  }

  /** A clause ends in `DESC` or ` ASC`, and the column is what comes before. */
  lemma ClauseParts(c: string, desc: bool)
    ensures var e := c + " " + DirKeyword(desc);
            && e[|e| - 4..] == (if desc then "DESC" else " ASC")
            && e[..|e| - |DirKeyword(desc)| - 1] == c
  {
  }

  /** Different column or direction choices give different clauses. */
  lemma SortExprDistinguishes(b1: Option<string>, d1: Option<string>, b2: Option<string>, d2: Option<string>)
    ensures SortExpr(b1, d1) == SortExpr(b2, d2) <==> SortColumn(b1) == SortColumn(b2) && IsDescending(d1) == IsDescending(d2)
  {
    var e1, e2 := SortExpr(b1, d1), SortExpr(b2, d2);
    ClauseParts(SortColumn(b1), IsDescending(d1));
    ClauseParts(SortColumn(b2), IsDescending(d2));
    if e1 == e2 {
      assert "DESC" != " ASC";
      assert IsDescending(d1) == IsDescending(d2);
    }
  }

  /** The bound parameters: always `limit` and `offset`, and `q` when searching. */
  datatype Params = Params(limit: int, offset: int, q: Option<string>)

  /** A built listing: the shared `WHERE` text, the `ORDER BY` text and the parameters. */
  datatype Listing = Listing(where: string, order: string, params: Params)

  const BaseWhere := "WHERE 1=1"
  const SearchClause := " AND (b.title ILIKE :q OR COALESCE(a.name,'') ILIKE :q OR COALESCE(b.isbn,'') ILIKE :q)"

  /** The request-dependent part of `list_books_raw`. */
  function BuildListing(q: Option<string>, limit: int, offset: int, sortBy: Option<string>, sortDir: Option<string>)
    : (r: Listing)
    ensures r.params.limit == limit && r.params.offset == offset
    ensures r.where == BaseWhere <==> r.params.q.None?
    ensures r.where == BaseWhere + SearchClause <==> r.params.q.Some?
    ensures r.params.q.Some? <==> Truthy(q)
    ensures r.params.q.Some? ==> r.params.q.value == "%" + q.value + "%"
    ensures r.order in OrderClauses
  {
    var searching := Truthy(q);
    var where := if searching then BaseWhere + SearchClause else BaseWhere;
    var params := Params(limit, offset, if searching then Some("%" + q.value + "%") else None);
    assert BaseWhere != BaseWhere + SearchClause by {
      assert |BaseWhere| < |BaseWhere + SearchClause|;
    }
    Listing(where, SortExpr(sortBy, sortDir), params)
  }

  const DataHead := "SELECT b.id, b.title, b.isbn, b.created_at, b.updated_at, a.id AS author_id, a.name AS author_name FROM books b LEFT JOIN authors a ON a.id = b.author_id "
  const CountHead := "SELECT COUNT(*)::int AS total FROM books b LEFT JOIN authors a ON a.id = b.author_id "

  /** The page query, whitespace collapsed. */
  function DataSql(l: Listing): (sql: string)
    ensures OccursAt(l.where, sql, |DataHead|)
  {
    var sql := DataHead + l.where + " ORDER BY " + l.order + " LIMIT :limit OFFSET :offset";
    assert sql[|DataHead|..|DataHead| + |l.where|] == l.where;
    sql
  }

  /** The count query, whitespace collapsed. */
  function CountSql(l: Listing): (sql: string)
    ensures OccursAt(l.where, sql, |CountHead|)
  {
    var sql := CountHead + l.where;
    assert sql[|CountHead|..] == l.where;
    sql
  }

  /** The count query and its parameter `q` depend on the search text only:
      paging and sorting never change the total. */
  lemma CountIgnoresPaging(q: Option<string>, limit1: int, offset1: int, sortBy1: Option<string>, sortDir1: Option<string>,
                           limit2: int, offset2: int, sortBy2: Option<string>, sortDir2: Option<string>)
    ensures var l1, l2 := BuildListing(q, limit1, offset1, sortBy1, sortDir1), BuildListing(q, limit2, offset2, sortBy2, sortDir2);
            CountSql(l1) == CountSql(l2) && l1.params.q == l2.params.q
  {
  }

  /** What the search clause selects, given the bound `q`: a row whose title,
      author name or ISBN (a missing one read as `''`) is `ILIKE` the pattern. */
  predicate SearchHolds(p: Params, title: string, authorName: Option<string>, isbn: Option<string>) {
    p.q.None? || ILike(title, p.q.value) || ILike(authorName.GetOr(""), p.q.value) || ILike(isbn.GetOr(""), p.q.value)
  }

  /** For search text without wildcards, a row is selected exactly when the
      text occurs, ignoring case, in its title, author name or ISBN; with no
      search text every row is selected. */
  lemma SearchMeaning(q: Option<string>, limit: int, offset: int, sortBy: Option<string>, sortDir: Option<string>,
                      title: string, authorName: Option<string>, isbn: Option<string>)
    requires q.Some? ==> NoWildcards(q.value)
    ensures var p := BuildListing(q, limit, offset, sortBy, sortDir).params;
            SearchHolds(p, title, authorName, isbn)
            <==> !Truthy(q)
                 || IsSubstring(Lower(q.value), Lower(title))
                 || IsSubstring(Lower(q.value), Lower(authorName.GetOr("")))
                 || IsSubstring(Lower(q.value), Lower(isbn.GetOr("")))
  {
    if Truthy(q) {
      ContainsIgnoringCase(title, q.value);
      ContainsIgnoringCase(authorName.GetOr(""), q.value);
      ContainsIgnoringCase(isbn.GetOr(""), q.value);
    }
  }
}

=== FILE: book_repo.dfy ===
/** `BookRepository`: the filtered, id-descending, paged listing and the
    lookups the book service uses for its uniqueness checks. */
module BookRepo {
  import opened Results
  import opened Text
  import opened Store
  import Ordering

  /** The keyword filters of `list`. */
  datatype BookFilter = BookFilter(q: Option<string>, title: Option<string>, genre: Option<string>,
                                   authorId: Option<int>, authorName: Option<string>, isbn: Option<string>,
                                   yearFrom: Option<int>, yearTo: Option<int>)

  /** An author filter is active for any non-zero id. */
  predicate AuthorIdActive(f: BookFilter) {
    f.authorId.Some? && f.authorId.value != 0
  }

  /** Book `id` joined to an existing author row, as the inner join requires. */
  predicate HasAuthorRow(db: Db, id: int)
    requires id in db.books
  {
    db.books[id].authorId.Some? && db.books[id].authorId.value in db.authors
  }

  /** The row passes every active filter: string and id filters are active
      when truthy, year bounds whenever given, and any non-`None` author name
      joins `authors`, which drops books without an author row. */
  predicate Matches(db: Db, f: BookFilter, id: int)
    requires id in db.books
  {
    var b := db.books[id];
    && (Truthy(f.q) ==> ILike(b.title, "%" + f.q.value + "%"))
    && (Truthy(f.title) ==> b.title == f.title.value)
    && (Truthy(f.genre) ==> b.genre == f.genre.value)
    && (AuthorIdActive(f) ==> b.authorId == f.authorId)
    && (f.authorName.Some? ==> HasAuthorRow(db, id))
    && (Truthy(f.authorName) ==> HasAuthorRow(db, id) && db.authors[b.authorId.value].name == f.authorName.value)
    && (Truthy(f.isbn) ==> b.isbn == f.isbn)
    && (f.yearFrom.Some? ==> f.yearFrom.value <= b.year)
    && (f.yearTo.Some? ==> b.year <= f.yearTo.value)
  }

  /** The ids of the matching books; the count query counts exactly these. */
  function MatchingIds(db: Db, f: BookFilter): (s: set<int>)
    ensures forall id | id in s :: id in db.books && Matches(db, f, id)
    ensures forall id | id in db.books && Matches(db, f, id) :: id in s
  {
    set id | id in db.books && Matches(db, f, id)
  }

  /** `list`: the page of matching ids in descending id order, and the total. */
  function ListBooks(db: Db, f: BookFilter, limit: int, offset: int): (r: (seq<int>, int))
    requires limit >= 0 && offset >= 0
    ensures r.1 == |MatchingIds(db, f)|
    ensures |r.0| <= limit
    ensures offset <= r.1 ==> |r.0| == if offset + limit <= r.1 then limit else r.1 - offset
    ensures offset >= r.1 ==> r.0 == []
    ensures forall i | 0 <= i < |r.0| :: r.0[i] in db.books && Matches(db, f, r.0[i])
  {
    var ids := MatchingIds(db, f);
    Ordering.IdOrdersTotal(ids);
    (Ordering.Page(Ordering.Arrange(Ordering.After, ids), offset, limit), |ids|)
  }

  /** A matching book is on the page exactly when the number of newer
      matching books is at least `offset` and below `offset + limit`. */
  lemma OnPageIffPosition(db: Db, f: BookFilter, limit: int, offset: int, id: int)
    requires limit >= 0 && offset >= 0
    requires id in db.books && Matches(db, f, id)
    ensures id in ListBooks(db, f, limit, offset).0 <==> offset <= Ordering.Newer(MatchingIds(db, f), id) < offset + limit
  {
    var ids := MatchingIds(db, f);
    Ordering.NewestFirstPage(ids, offset, limit, id);
  }

  /** The page runs from newest to oldest. */
  lemma PageDescending(db: Db, f: BookFilter, limit: int, offset: int)
    requires limit >= 0 && offset >= 0
    ensures Ordering.Descending(ListBooks(db, f, limit, offset).0)
  {
    Ordering.NewestFirstDescending(MatchingIds(db, f), offset, limit);
  }

  /** With no filter the listing covers every book that has an author row or none. */
  lemma EmptyFilterMatchesAll(db: Db, id: int)
    requires id in db.books
    ensures Matches(db, BookFilter(None, None, None, None, None, None, None, None), id)
  {
  }

  /** A given but empty author name filters nothing by name, yet the join
      still drops books without an author. */
  lemma EmptyAuthorNameJoins(db: Db, id: int)
    requires id in db.books
    ensures Matches(db, BookFilter(None, None, None, None, Some(""), None, None, None), id) <==> HasAuthorRow(db, id)
  {
  }

  /** `get_by_isbn`: `None` for an empty ISBN, otherwise the first book with
      that exact ISBN other than `excludeId`. */
  function GetByIsbn(db: Db, isbn: string, excludeId: Option<int>): (r: Option<int>)
    ensures r.Some? ==> r.value in db.books && db.books[r.value].isbn == Some(isbn) && excludeId != Some(r.value)
    ensures r.Some? ==> isbn != ""
    ensures r.None? ==> isbn == "" || forall i | i in db.books && excludeId != Some(i) :: db.books[i].isbn != Some(isbn)
  {
    var s := set i | i in db.books && db.books[i].isbn == Some(isbn) && excludeId != Some(i);
    assert forall i | i in db.books && excludeId != Some(i) && db.books[i].isbn == Some(isbn) :: i in s;
    if isbn == "" then None else Ordering.First(s)
  }

  /** Same author and titles equal after `lower()`, as the unique index compares them. */
  predicate SameTitleAuthor(b: Book, title: string, authorId: Option<int>) {
    b.authorId == authorId && Lower(b.title) == Lower(title)
  }

  /** `get_by_title_author`: the first book of that author (`None` means no
      author, `IS NULL`) whose lower-cased title equals the lower-cased
      `title`, other than `excludeId`. */
  function GetByTitleAuthor(db: Db, title: string, authorId: Option<int>, excludeId: Option<int>): (r: Option<int>)
    ensures r.Some? ==> r.value in db.books && SameTitleAuthor(db.books[r.value], title, authorId) && excludeId != Some(r.value)
    ensures r.None? ==> forall i | i in db.books && excludeId != Some(i) :: !SameTitleAuthor(db.books[i], title, authorId)
  {
    var s := set i | i in db.books && SameTitleAuthor(db.books[i], title, authorId) && excludeId != Some(i);
    assert forall i | i in db.books && excludeId != Some(i) && SameTitleAuthor(db.books[i], title, authorId) :: i in s;
    Ordering.First(s)
  }

  /** `update`: title, genre, year and author are overwritten; the ISBN only
      when a new one is given. */
  function UpdateBook(b: Book, title: string, genre: string, year: int, authorId: Option<int>, isbn: Option<string>)
    : (r: Book)
    ensures r.title == title && r.genre == genre && r.year == year && r.authorId == authorId
    ensures isbn.None? ==> r.isbn == b.isbn
    ensures isbn.Some? ==> r.isbn == isbn
  {
    Book(title, genre, year, authorId, if isbn.Some? then isbn else b.isbn)
  }
}

=== FILE: book_routes.dfy ===
/** The book endpoints: the listing's query bounds and page, the merge of a
    `PATCH` body with the stored book, and the status each service outcome
    is answered with. A failure leaves the database as it was. */
module BookRoutes {
  import opened Results
  import opened Text
  import opened Store
  import Responses
  import BookSchema
  import BookService
  import BookRepo
  import Paging

  // Listing

  /** The query of `list_books`, with absent parameters at their defaults
      (`limit` 10, `offset` 0, `sort_by` `title`, `sort_dir` `asc`). */
  datatype BookQuery = BookQuery(title: Option<string>, authorName: Option<string>, genre: Option<string>,
                                 yearFrom: Option<int>, yearTo: Option<int>, isbn: Option<string>,
                                 limit: int, offset: int, sortBy: string, sortDir: string)

  const DefaultQuery := BookQuery(None, None, None, None, None, None, 10, 0, "title", "asc")

  /** The sort keys the `sort_by` pattern admits. */
  predicate SortKey(s: string) {
    s == "title" || s == "author" || s == "year" || s == "isbn"
  }

  /** The directions the `sort_dir` pattern admits. */
  predicate SortDirection(s: string) {
    s == "asc" || s == "desc"
  }

  /** The bounds FastAPI enforces on the query, answering 422 otherwise. */
  predicate QueryOk(q: BookQuery) {
    && (q.yearFrom.None? || q.yearFrom.value >= 1800)
    && (q.yearTo.None? || q.yearTo.value >= 1800)
    && 1 <= q.limit <= 100
    && q.offset >= 0
    && SortKey(q.sortBy)
    && SortDirection(q.sortDir)
  }

  /** The repository filters the route passes on: no free-text search and no author id. */
  function Filter(q: BookQuery): BookRepo.BookFilter {
    BookRepo.BookFilter(None, q.title, q.genre, None, q.authorName, q.isbn, q.yearFrom, q.yearTo)
  }

  /** `PaginatedBooks`, with the books as ids. */
  datatype BookPage = BookPage(items: seq<int>, total: int, limit: int, offset: int, nextOffset: Option<int>)

  /** The page the repository's listing yields: the bounds echoed, at most
      `limit` matching books, the count of every matching book, and a next
      page exactly when books remain past this one, starting right after it. */
  function Page(db: Db, f: BookRepo.BookFilter, limit: int, offset: int): (page: BookPage)
    requires limit >= 0 && offset >= 0
    ensures page.limit == limit && page.offset == offset
    ensures |page.items| <= limit
    ensures page.total == |BookRepo.MatchingIds(db, f)|
    ensures forall i | 0 <= i < |page.items| :: page.items[i] in db.books && BookRepo.Matches(db, f, page.items[i])
    ensures page.nextOffset.Some? <==> offset + |page.items| < page.total
    ensures page.nextOffset.Some? ==> page.nextOffset.value == offset + |page.items|
  {
    var p := BookRepo.ListBooks(db, f, limit, offset);
    assert offset + limit < p.1 ==> |p.0| == limit;
    assert offset + limit >= p.1 ==> offset + |p.0| >= p.1;
    BookPage(p.0, p.1, limit, offset, Paging.NextOffset(offset, limit, p.1))
  }

  /** `list_books` as written: a query out of bounds is answered 422, and
      any other query fails with 500, because the service hands `sort_by` and
      `sort_dir` on to a repository listing that takes no such keywords. */
  function ListAsWritten(db: Db, q: BookQuery): (r: Result<BookPage, int>)
    ensures r.Err?
    ensures r.error == 422 <==> !QueryOk(q)
    ensures r.error == 500 <==> QueryOk(q)
  {
    if !QueryOk(q) then Err(422) else Err(500)
  }

  /** The request with every parameter at its default is in bounds, and the
      listing as written still fails it. */
  lemma DefaultListingFails(db: Db)
    ensures QueryOk(DefaultQuery)
    ensures ListAsWritten(db, DefaultQuery) == Err(500)
  {
  }

  /** `list_books` answering an in-bounds query with the repository's page;
      the repository orders by id, newest first, whatever the sort
      parameters say. */
  function List(db: Db, q: BookQuery): (r: Result<BookPage, int>)
    ensures r.Err? <==> !QueryOk(q)
    ensures r.Err? ==> r.error == 422
    ensures r.Ok? ==> r.value == Page(db, Filter(q), q.limit, q.offset)
  {
    if !QueryOk(q) then Err(422)
    else Ok(Page(db, Filter(q), q.limit, q.offset))
  }

  /** Every book the listing shows meets each filter the query gives: exact
      title, genre and ISBN when not empty, an author row whenever an author
      name is given (with that name when it is not empty), and the year bounds. */
  lemma ListedBookMatches(db: Db, q: BookQuery, k: int)
    requires List(db, q).Ok? && 0 <= k < |List(db, q).value.items|
    ensures List(db, q).value.items[k] in db.books
    ensures var b := db.books[List(db, q).value.items[k]];
            && (Truthy(q.title) ==> b.title == q.title.value)
            && (Truthy(q.genre) ==> b.genre == q.genre.value)
            && (Truthy(q.isbn) ==> b.isbn == q.isbn)
            && (q.yearFrom.Some? ==> q.yearFrom.value <= b.year)
            && (q.yearTo.Some? ==> b.year <= q.yearTo.value)
            && (q.authorName.Some? ==> b.authorId.Some? && b.authorId.value in db.authors)
            && (Truthy(q.authorName) ==> db.authors[b.authorId.value].name == q.authorName.value)
  {
    var id := List(db, q).value.items[k];
    assert BookRepo.Matches(db, Filter(q), id);
  }

  /** Among in-bounds queries the sort parameters change nothing in the page. */
  lemma ListIgnoresSort(db: Db, q: BookQuery, sortBy: string, sortDir: string)
    requires QueryOk(q) && SortKey(sortBy) && SortDirection(sortDir)
    ensures List(db, q.(sortBy := sortBy, sortDir := sortDir)) == List(db, q)
  {
    var q' := q.(sortBy := sortBy, sortDir := sortDir);
    assert Filter(q') == Filter(q);
    assert QueryOk(q');
  }

  // Single book

  /** `get_book_by_id`: the stored book, or 404. */
  function Get(db: Db, id: int): (r: Result<Book, int>)
    ensures r.Ok? <==> id in db.books
    ensures r.Ok? ==> r.value == db.books[id]
    ensures r.Err? ==> r.error == 404
  {
    match BookService.GetOr404(db, id)
    case Ok(b) => Ok(b)
    case Err(_) => Err(404)
  }

  // Creation

  /** How `create_book` answers the service's outcome `c`: 201 with the new
      book, 404 for `author_not_found`, 409 for `isbn_conflict` or
      `conflict`, 400 for `bad_author_name`, and 500 for anything else; a
      failure changes nothing. */
  function CreateAnswer(db: Db, c: Result<(Db, int), Failure>): (r: (Db, int))
    ensures r.1 == 201 <==> c.Ok?
    ensures r.1 == 404 <==> c == Err(AuthorNotFound)
    ensures r.1 == 409 <==> c == Err(IsbnConflict) || c == Err(Conflict)
    ensures r.1 == 400 <==> c == Err(BadAuthorName)
    ensures r.1 == 500 <==> c.Err? && c.error !in {AuthorNotFound, IsbnConflict, Conflict, BadAuthorName}
    ensures r.1 == 201 ==> r.0 == c.value.0
    ensures r.1 != 201 ==> r.0 == db
  {
    match c
    case Ok((d, _)) => (d, 201)
    case Err(AuthorNotFound) => (db, 404)
    case Err(IsbnConflict) => (db, 409)
    case Err(Conflict) => (db, 409)
    case Err(BadAuthorName) => (db, 400)
    case Err(_) => (db, 500)
  }

  /** `create_book` on a validated body. */
  function Create(db: Db, p: BookSchema.BookCreate): (Db, int) {
    CreateAnswer(db, BookService.Create(db, p.title, BookSchema.GenreValue(p.genre), p.year, p.authorName, p.isbn))
  }

  /** On a valid database a body the schema accepts is never answered 500:
      404 means exactly that no author has the stripped name, and a new
      book leaves the database valid. */
  lemma CreateOutcome(db: Db, raw: BookSchema.RawBook, currentYear: int)
    requires Valid(db)
    requires BookSchema.ValidateCreate(raw, currentYear).Ok?
    ensures var p := BookSchema.ValidateCreate(raw, currentYear).value;
            Create(db, p).1 in {201, 404, 409}
    ensures var p := BookSchema.ValidateCreate(raw, currentYear).value;
            Create(db, p).1 == 404 <==> BookService.AuthorByName(db, Strip(p.authorName)).None?
    ensures var p := BookSchema.ValidateCreate(raw, currentYear).value;
            Create(db, p).1 == 201 ==> Valid(Create(db, p).0)
  {
    var p := BookSchema.ValidateCreate(raw, currentYear).value;
    BookService.CreateKeepsValid(db, p.title, BookSchema.GenreValue(p.genre), p.year, p.authorName, p.isbn);
  }

  // Update

  /** The arguments `update_book` passes to the service. */
  datatype UpdateCall = UpdateCall(title: string, genre: string, year: int, authorName: Option<string>, isbn: Option<string>)

  /** The `PATCH` body over the stored book: title, genre and year fall back
      to the stored values when absent; the author name and the ISBN are
      passed as given, and the service keeps the stored author and ISBN
      when they are absent. */
  function Merge(stored: Book, u: BookSchema.BookUpdate): (m: UpdateCall)
    ensures m.title == if u.title.Some? then u.title.value else stored.title
    ensures m.genre == if u.genre.Some? then BookSchema.GenreValue(u.genre.value) else stored.genre
    ensures m.year == if u.year.Some? then u.year.value else stored.year
    ensures m.authorName == u.authorName && m.isbn == u.isbn
  {
    UpdateCall(u.title.GetOr(stored.title),
               if u.genre.Some? then BookSchema.GenreValue(u.genre.value) else stored.genre,
               u.year.GetOr(stored.year), u.authorName, u.isbn)
  }

  /** How `update_book` answers the service's outcome `u`: 200 with the
      stored book, 404 for `not_found` or `author_not_found`, 409 for
      `isbn_conflict` or `conflict`, 400 for `bad_author_name`, and 500 for
      anything else; a failure changes nothing. */
  function UpdateAnswer(db: Db, u: Result<Db, Failure>): (r: (Db, int))
    ensures r.1 == 200 <==> u.Ok?
    ensures r.1 == 404 <==> u == Err(NotFound) || u == Err(AuthorNotFound)
    ensures r.1 == 409 <==> u == Err(IsbnConflict) || u == Err(Conflict)
    ensures r.1 == 400 <==> u == Err(BadAuthorName)
    ensures r.1 == 500 <==> u.Err? && u.error !in {NotFound, AuthorNotFound, IsbnConflict, Conflict, BadAuthorName}
    ensures r.1 == 200 ==> r.0 == u.value
    ensures r.1 != 200 ==> r.0 == db
  {
    match u
    case Ok(d) => (d, 200)
    case Err(NotFound) => (db, 404)
    case Err(AuthorNotFound) => (db, 404)
    case Err(IsbnConflict) => (db, 409)
    case Err(Conflict) => (db, 409)
    case Err(BadAuthorName) => (db, 400)
    case Err(_) => (db, 500)
  }

  /** `update_book`: 404 for a missing book, otherwise the merged update. */
  function Update(db: Db, id: int, u: BookSchema.BookUpdate): (Db, int) {
    match BookService.GetOr404(db, id)
    case Err(_) => (db, 404)
    case Ok(stored) =>
      var m := Merge(stored, u);
      UpdateAnswer(db, BookService.Update(db, id, m.title, m.genre, m.year, m.authorName, m.isbn))
  }

  /** On a valid database a `PATCH` with no fields answers 200 for an
      existing book and changes nothing. */
  lemma EmptyPatchNoOp(db: Db, id: int)
    requires Valid(db) && id in db.books
    ensures Update(db, id, BookSchema.BookUpdate(None, None, None, None, None)) == (db, 200)
  {
    BookService.UpdateUnchangedAccepted(db, id);
  }

  /** An accepted `PATCH` rewrites only the patched book: its absent fields
      keep their stored values, and every other row stays as it was. */
  lemma PatchKeepsAbsentFields(db: Db, id: int, u: BookSchema.BookUpdate)
    requires Update(db, id, u).1 == 200
    ensures id in db.books && id in Update(db, id, u).0.books
    ensures Update(db, id, u).0.books.Keys == db.books.Keys
    ensures forall j | j in db.books && j != id :: Update(db, id, u).0.books[j] == db.books[j]
    ensures u.title.None? ==> Update(db, id, u).0.books[id].title == db.books[id].title
    ensures u.genre.None? ==> Update(db, id, u).0.books[id].genre == db.books[id].genre
    ensures u.year.None? ==> Update(db, id, u).0.books[id].year == db.books[id].year
    ensures u.authorName.None? ==> Update(db, id, u).0.books[id].authorId == db.books[id].authorId
    ensures u.isbn.None? ==> Update(db, id, u).0.books[id].isbn == db.books[id].isbn
  {
    var m := Merge(db.books[id], u);
    var s := BookService.Update(db, id, m.title, m.genre, m.year, m.authorName, m.isbn);
    assert s.Ok?;
    assert Update(db, id, u).0 == s.value;
  }

  /** On a valid database a body the schema accepts is never answered 500
      nor 400: 404 means exactly a missing book or an unknown author name,
      and an accepted update leaves the database valid. */
  lemma UpdateOutcome(db: Db, id: int, raw: BookSchema.RawBook, currentYear: int)
    requires Valid(db)
    requires BookSchema.ValidateUpdate(raw, currentYear).Ok?
    ensures var u := BookSchema.ValidateUpdate(raw, currentYear).value;
            Update(db, id, u).1 in {200, 404, 409}
    ensures var u := BookSchema.ValidateUpdate(raw, currentYear).value;
            Update(db, id, u).1 == 404
            <==> id !in db.books || (u.authorName.Some? && BookService.AuthorByName(db, Strip(u.authorName.value)).None?)
    ensures var u := BookSchema.ValidateUpdate(raw, currentYear).value;
            Update(db, id, u).1 == 200 ==> Valid(Update(db, id, u).0)
  {
    var u := BookSchema.ValidateUpdate(raw, currentYear).value;
    if id in db.books {
      var m := Merge(db.books[id], u);
      BookService.UpdateKeepsValid(db, id, m.title, m.genre, m.year, m.authorName, m.isbn);
    }
  }

  // Deletion

  /** `delete_book`. */
  function Delete(db: Db, id: int): (Db, int) {
    Responses.DeleteAnswer(db, BookService.Delete(db, id))
  }

  /** On a valid database deleting answers 204 exactly when the book exists,
      and 404 otherwise; the database stays valid. */
  lemma DeleteOutcome(db: Db, id: int)
    requires Valid(db)
    ensures Delete(db, id).1 == (if id in db.books then 204 else 404)
    ensures Valid(Delete(db, id).0)
  {
    if id in db.books {
      BookService.DeleteKeepsValid(db, id);
    }
  }
}

=== FILE: book_schema.dfy ===
/** Request-body validation for books: the `Genre` enumeration, ISBN
    normalisation and shape check, and the title, author and year field
    validators, combined into the create and update payloads. */
module BookSchema {
  import opened Results
  import opened Text

  datatype Genre = Fiction | NonFiction | Science | History | Programming

  /** The enumeration value stored and sent over the wire. */
  function GenreValue(g: Genre): (s: string)
    ensures s in GenreValues
  {
    match g
    case Fiction => "Fiction"
    case NonFiction => "Non-Fiction"
    case Science => "Science"
    case History => "History"
    case Programming => "Programming"
  }

  /** The five accepted genre strings. */
  const GenreValues: set<string> := {"Fiction", "Non-Fiction", "Science", "History", "Programming"}

  /** `Genre(s)`: lookup by exact (case-sensitive) value. */
  function GenreFromValue(s: string): (r: Option<Genre>)
    ensures r.Some? <==> s in GenreValues
    ensures r.Some? ==> GenreValue(r.value) == s
  {
    if s == "Fiction" then Some(Fiction)
    else if s == "Non-Fiction" then Some(NonFiction)
    else if s == "Science" then Some(Science)
    else if s == "History" then Some(History)
    else if s == "Programming" then Some(Programming)
    else None
  }

  /** Every genre is found again from its value, so distinct genres have distinct values. */
  lemma GenreRoundTrip(g: Genre)
    ensures GenreFromValue(GenreValue(g)) == Some(g)
  {
  }

  /** Characters the ISBN normaliser deletes: whitespace and hyphens. */
  predicate IsSeparator(c: char) {
    IsSpace(c) || c == '-'
  }

  /** `re.sub(r"[\s-]+", "", s)`: every separator removed, the rest kept in order. */
  function DropSeparators(s: string): (r: string)
    ensures |r| <= |s|
    ensures forall i | 0 <= i < |r| :: !IsSeparator(r[i])
    ensures r == [] <==> forall i | 0 <= i < |s| :: IsSeparator(s[i])
  {
    if s == [] then []
    else if IsSeparator(s[0]) then DropSeparators(s[1..])
    else [s[0]] + DropSeparators(s[1..])
  }

  /** Deleting separators distributes over concatenation. */
  lemma {:induction false} DropSeparatorsAppend(a: string, b: string)
    ensures DropSeparators(a + b) == DropSeparators(a) + DropSeparators(b)
  {
    if a == [] {
      assert a + b == b;
    } else {
      assert (a + b)[0] == a[0];
      assert (a + b)[1..] == a[1..] + b;
      DropSeparatorsAppend(a[1..], b);
    }
  }

  /** A separator-free string is left alone. */
  lemma {:induction false} DropSeparatorsKeeps(s: string)
    requires forall i | 0 <= i < |s| :: !IsSeparator(s[i])
    ensures DropSeparators(s) == s
  {
    if s != [] {
      DropSeparatorsKeeps(s[1..]);
      assert s == [s[0]] + s[1..];
    }
  }

  /** Normal form of a stored ISBN: no separators and no lower-case letters. */
  predicate IsbnNormal(w: string) {
    forall i | 0 <= i < |w| :: !IsSeparator(w[i]) && !IsLowerAscii(w[i])
  }

  lemma UpperKeepsNonSeparator(c: char)
    requires !IsSeparator(c)
    ensures !IsSeparator(UpperChar(c))
  {
  }

  /** `_normalize_isbn`: `None` stays `None`; otherwise separators are deleted,
      letters upper-cased, and an empty result becomes `None`. */
  function NormalizeIsbn(v: Option<string>): (r: Option<string>)
    ensures v.None? ==> r.None?
    ensures v.Some? ==> (r.None? <==> forall i | 0 <= i < |v.value| :: IsSeparator(v.value[i]))
    ensures r.Some? ==> r.value != [] && IsbnNormal(r.value)
    ensures r.Some? ==> r.value == Upper(DropSeparators(v.value))
  {
    match v
    case None => None
    case Some(s) =>
      var d := DropSeparators(s);
      var w := Upper(d);
      forall i | 0 <= i < |w|
        ensures !IsSeparator(w[i])
      {
        UpperKeepsNonSeparator(d[i]);
      }
      if w == [] then None else Some(w)
  }

  /** A non-empty value without separators is only upper-cased. */
  lemma NormalizeSeparatorFree(s: string)
    requires s != [] && forall i | 0 <= i < |s| :: !IsSeparator(s[i])
    ensures NormalizeIsbn(Some(s)) == Some(Upper(s))
  {
    DropSeparatorsKeeps(s);
  }

  /** Separators anywhere in the value are deleted before upper-casing:
      `a` and `b` around one separator normalise as `a + b` does. */
  lemma NormalizeDropsSeparator(a: string, c: char, b: string)
    requires IsSeparator(c)
    ensures NormalizeIsbn(Some(a + [c] + b)) == NormalizeIsbn(Some(a + b))
  {
    DropSeparatorsAppend(a + [c], b);
    DropSeparatorsAppend(a, [c]);
    DropSeparatorsAppend(a, b);
    assert DropSeparators([c]) == [];
    assert DropSeparators(a + [c]) == DropSeparators(a);
  }

  /** Normalising twice is normalising once. */
  lemma NormalizeIdempotent(v: Option<string>)
    ensures NormalizeIsbn(NormalizeIsbn(v)) == NormalizeIsbn(v)
  {
    var n := NormalizeIsbn(v);
    if n.Some? {
      var w := n.value;
      DropSeparatorsKeeps(w);
      assert Upper(w) == w;
    }
  }

  /** `\d{9}[\dX]`: nine digits then a digit or an upper-case X. */
  predicate IsIsbn10(w: string) {
    && |w| == 10
    && (forall i | 0 <= i < 9 :: IsDigit(w[i]))
    && (IsDigit(w[9]) || w[9] == 'X')
  }

  predicate IsIsbn13(w: string) {
    |w| == 13 && AllDigits(w)
  }

  const Isbn10Message := "ISBN-10 must be 10 chars: 0-9 or last X"
  const Isbn13Message := "ISBN-13 must be 13 digits"
  const IsbnLengthMessage := "ISBN must be 10 or 13 characters long (ignoring dashes/spaces)"

  /** `BookBase.validate_isbn`: normalise, then check the shape by length. */
  function ValidateIsbn(v: Option<string>): (r: Result<Option<string>, string>)
    ensures r.Ok? ==> r.value == NormalizeIsbn(v)
    ensures r.Ok? ==> r.value.None? || IsIsbn10(r.value.value) || IsIsbn13(r.value.value)
    ensures NormalizeIsbn(v).None? ==> r == Ok(None)
    ensures r.Err? ==> (&& NormalizeIsbn(v).Some?
                        && var n := |NormalizeIsbn(v).value|;
                           r.error == (if n == 10 then Isbn10Message else if n == 13 then Isbn13Message else IsbnLengthMessage))
  {
    var n := NormalizeIsbn(v);
    if n.None? then Ok(None)
    else
      var w := n.value;
      if |w| == 10 then
        if IsIsbn10(w) then Ok(Some(w)) else Err(Isbn10Message)
      else if |w| == 13 then
        if AllDigits(w) then Ok(Some(w)) else Err(Isbn13Message)
      else Err(IsbnLengthMessage)
  }

  /** Whatever the input, a normalised value of either shape is accepted. */
  lemma ValidIsbnAccepted(v: Option<string>)
    requires NormalizeIsbn(v).Some?
    requires IsIsbn10(NormalizeIsbn(v).value) || IsIsbn13(NormalizeIsbn(v).value)
    ensures ValidateIsbn(v) == Ok(NormalizeIsbn(v))
  {
  }

  /** An accepted ISBN is accepted again unchanged: validation is idempotent. */
  lemma ValidateIsbnFixpoint(v: Option<string>)
    requires ValidateIsbn(v).Ok?
    ensures ValidateIsbn(ValidateIsbn(v).value) == ValidateIsbn(v)
  {
    NormalizeIdempotent(v);
  }

  /** A hyphen or whitespace character anywhere in the input makes no difference. */
  lemma SeparatorIgnored(a: string, c: char, b: string)
    requires IsSeparator(c)
    ensures ValidateIsbn(Some(a + [c] + b)) == ValidateIsbn(Some(a + b))
  {
    NormalizeDropsSeparator(a, c, b);
  }

  /** Nine digits and a lower-case `x` pass as an ISBN-10 ending in `X`. */
  lemma LowerXAccepted(d: string)
    requires |d| == 9 && AllDigits(d)
    ensures ValidateIsbn(Some(d + "x")) == Ok(Some(d + "X"))
  {
    DropSeparatorsKeeps(d + "x");
    var u := Upper(d + "x");
    assert u == d + "X" by {
      forall i | 0 <= i < 10
        ensures u[i] == (d + "X")[i]
      {
        if i < 9 {
          assert (d + "x")[i] == d[i];
        }
      }
    }
  }

  /** `validate_title` / `validate_author`: `None` passes, a value whose
      `strip()` is empty is refused, anything else is returned as given
      (not stripped). */
  function ValidateNonBlank(v: Option<string>, message: string): (r: Result<Option<string>, string>)
    ensures r.Err? <==> v.Some? && IsBlank(v.value)
    ensures r.Ok? ==> r.value == v
    ensures r.Err? ==> r.error == message
  {
    match v
    case None => Ok(None)
    case Some(s) => if Strip(s) == [] then Err(message) else Ok(v)
  }

  const TitleMessage := "Title must be a non-empty string"
  const AuthorMessage := "Author name must be a non-empty string"

  /** `validate_year`: `None` passes, otherwise `1800 <= y <= currentYear`,
      both bounds inclusive; the current year is a parameter. */
  function ValidateYear(v: Option<int>, currentYear: int): (r: Result<Option<int>, string>)
    ensures r.Ok? <==> v.None? || 1800 <= v.value <= currentYear
    ensures r.Ok? ==> r.value == v
    ensures r.Err? ==> r.error == "Published year must be between 1800 and " + Decimal(currentYear)
  {
    match v
    case None => Ok(None)
    case Some(y) =>
      if y < 1800 || y > currentYear then Err("Published year must be between 1800 and " + Decimal(currentYear))
      else Ok(v)
  }

  /** The year bounds themselves are accepted and the years just outside are not. */
  lemma YearBoundsInclusive(currentYear: int)
    requires currentYear >= 1800
    ensures ValidateYear(Some(1800), currentYear).Ok? && ValidateYear(Some(currentYear), currentYear).Ok?
    ensures ValidateYear(Some(1799), currentYear).Err? && ValidateYear(Some(currentYear + 1), currentYear).Err?
  {
  }

  /** The fields of a book payload, for error reports. */
  datatype Field = TitleField | GenreField | YearField | AuthorField | IsbnField

  /** A book payload as received: any field may be absent (`None`). */
  datatype RawBook = RawBook(title: Option<string>, genre: Option<string>, year: Option<int>,
                             authorName: Option<string>, isbn: Option<string>)

  datatype BookCreate = BookCreate(title: string, genre: Genre, year: int, authorName: string, isbn: Option<string>)

  datatype BookUpdate = BookUpdate(title: Option<string>, genre: Option<Genre>, year: Option<int>,
                                   authorName: Option<string>, isbn: Option<string>)

  /** A genre field: absent passes, otherwise it must be one of the values. */
  function ValidateGenre(v: Option<string>): (r: Result<Option<Genre>, string>)
    ensures r.Ok? <==> v.None? || v.value in GenreValues
    ensures r.Ok? && v.Some? ==> r.value.Some? && GenreValue(r.value.value) == v.value
    ensures v.None? ==> r == Ok(None)
  {
    match v
    case None => Ok(None)
    case Some(s) =>
      match GenreFromValue(s)
      case Some(g) => Ok(Some(g))
      case None => Err("Input should be one of the genre values")
  }

  const AllFields: set<Field> := {TitleField, GenreField, YearField, AuthorField, IsbnField}

  /** Whether the validator of field `f` refuses its value, present or not. */
  predicate UpdateRefuses(raw: RawBook, currentYear: int, f: Field) {
    match f
    case TitleField => ValidateNonBlank(raw.title, TitleMessage).Err?
    case GenreField => ValidateGenre(raw.genre).Err?
    case YearField => ValidateYear(raw.year, currentYear).Err?
    case AuthorField => ValidateNonBlank(raw.authorName, AuthorMessage).Err?
    case IsbnField => ValidateIsbn(raw.isbn).Err?
  }

  /** The fields a `BookUpdate` payload is refused for (every optional field
      is checked by its own validator; pydantic reports all of them). */
  function UpdateErrors(raw: RawBook, currentYear: int): (errs: set<Field>)
    ensures TitleField in errs <==> raw.title.Some? && IsBlank(raw.title.value)
    ensures AuthorField in errs <==> raw.authorName.Some? && IsBlank(raw.authorName.value)
    ensures GenreField in errs <==> raw.genre.Some? && raw.genre.value !in GenreValues
    ensures YearField in errs <==> raw.year.Some? && !(1800 <= raw.year.value <= currentYear)
    ensures IsbnField in errs <==> ValidateIsbn(raw.isbn).Err?
  {
    set f | f in AllFields && UpdateRefuses(raw, currentYear, f)
  }

  /** `BookUpdate`: every field optional, each checked when present. */
  function ValidateUpdate(raw: RawBook, currentYear: int): (r: Result<BookUpdate, set<Field>>)
    ensures r.Err? <==> UpdateErrors(raw, currentYear) != {}
    ensures r.Err? ==> r.error == UpdateErrors(raw, currentYear)
    ensures r.Ok? ==> && r.value.title == raw.title && r.value.authorName == raw.authorName
                      && r.value.year == raw.year
                      && r.value.isbn == NormalizeIsbn(raw.isbn)
                      && (r.value.genre.Some? <==> raw.genre.Some?)
                      && (r.value.genre.Some? ==> GenreValue(r.value.genre.value) == raw.genre.value)
  {
    var errs := UpdateErrors(raw, currentYear);
    if errs != {} then Err(errs)
    else
      Ok(BookUpdate(raw.title, ValidateGenre(raw.genre).value, raw.year, raw.authorName,
                    ValidateIsbn(raw.isbn).value))
  }

  /** Whether field `f` is required and absent. */
  predicate Missing(raw: RawBook, f: Field) {
    match f
    case TitleField => raw.title.None?
    case GenreField => raw.genre.None?
    case YearField => raw.year.None?
    case AuthorField => raw.authorName.None?
    case IsbnField => false
  }

  /** The fields a `BookCreate` payload is refused for: as for an update, and
      title, author name, genre and year are also required. */
  function CreateErrors(raw: RawBook, currentYear: int): (errs: set<Field>)
    ensures TitleField in errs <==> raw.title.None? || IsBlank(raw.title.value)
    ensures AuthorField in errs <==> raw.authorName.None? || IsBlank(raw.authorName.value)
    ensures GenreField in errs <==> raw.genre.None? || raw.genre.value !in GenreValues
    ensures YearField in errs <==> raw.year.None? || !(1800 <= raw.year.value <= currentYear)
    ensures IsbnField in errs <==> ValidateIsbn(raw.isbn).Err?
  {
    set f | f in AllFields && (Missing(raw, f) || UpdateRefuses(raw, currentYear, f))
  }

  /** `BookCreate`: title and author name present and not blank (which also
      meets `min_length=1`), a known genre, a year in range, and an optional ISBN. */
  function ValidateCreate(raw: RawBook, currentYear: int): (r: Result<BookCreate, set<Field>>)
    ensures r.Err? <==> CreateErrors(raw, currentYear) != {}
    ensures r.Err? ==> r.error == CreateErrors(raw, currentYear)
    ensures r.Ok? ==> && raw.title == Some(r.value.title) && raw.authorName == Some(r.value.authorName)
                      && raw.genre == Some(GenreValue(r.value.genre))
                      && raw.year == Some(r.value.year) && 1800 <= r.value.year <= currentYear
                      && r.value.isbn == NormalizeIsbn(raw.isbn)
                      && !IsBlank(r.value.title) && !IsBlank(r.value.authorName)
  {
    var errs := CreateErrors(raw, currentYear);
    if errs != {} then Err(errs)
    else
      Ok(BookCreate(raw.title.value, GenreFromValue(raw.genre.value).value, raw.year.value,
                    raw.authorName.value, ValidateIsbn(raw.isbn).value))
  }

  /** Conversely, a payload whose every field is valid is accepted for creation. */
  lemma CreateAccepted(raw: RawBook, currentYear: int)
    requires raw.title.Some? && !IsBlank(raw.title.value)
    requires raw.authorName.Some? && !IsBlank(raw.authorName.value)
    requires raw.genre.Some? && raw.genre.value in GenreValues
    requires raw.year.Some? && 1800 <= raw.year.value <= currentYear
    requires ValidateIsbn(raw.isbn).Ok?
    ensures ValidateCreate(raw, currentYear)
            == Ok(BookCreate(raw.title.value, GenreFromValue(raw.genre.value).value, raw.year.value,
                             raw.authorName.value, NormalizeIsbn(raw.isbn)))
  {
    var errs := CreateErrors(raw, currentYear);
    assert TitleField !in errs && GenreField !in errs && YearField !in errs;
    assert AuthorField !in errs && IsbnField !in errs;
    assert errs == {};
  }

  /** Every payload accepted for creation is also accepted as an update, with the same values. */
  lemma CreateIsUpdate(raw: RawBook, currentYear: int)
    requires ValidateCreate(raw, currentYear).Ok?
    ensures var c := ValidateCreate(raw, currentYear).value;
            ValidateUpdate(raw, currentYear) == Ok(BookUpdate(Some(c.title), Some(c.genre), Some(c.year),
                                                              Some(c.authorName), c.isbn))
  {
    var c := ValidateCreate(raw, currentYear).value;
    GenreRoundTrip(c.genre);
  }
}

=== FILE: book_service.dfy ===
/** `BookService`: the existence and uniqueness checks run before a book is
    written, in the order the service runs them, and the write itself. */
module BookService {
  import opened Results
  import opened Text
  import opened Store
  import BookRepo
  import Ordering

  /** `get_or_404`. */
  function GetOr404(db: Db, id: int): (r: Result<Book, Failure>)
    ensures r.Err? <==> id !in db.books
    ensures r.Err? ==> r.error == NotFound
    ensures r.Ok? ==> id in db.books && r.value == db.books[id]
  {
    if id in db.books then Ok(db.books[id]) else Err(NotFound)
  }

  /** `_author_by_name`: an author whose name is exactly `name`, the least id
      when several share it. */
  function AuthorByName(db: Db, name: string): (r: Option<int>)
    ensures r.Some? ==> r.value in db.authors && db.authors[r.value].name == name
    ensures r.None? <==> forall i | i in db.authors :: db.authors[i].name != name
  {
    var s := set i | i in db.authors && db.authors[i].name == name;
    assert forall i | i in db.authors && db.authors[i].name == name :: i in s;
    Ordering.First(s)
  }

  /** Some book other than `exclude` already has this ISBN. */
  predicate IsbnTaken(db: Db, isbn: string, exclude: Option<int>) {
    exists i | i in db.books :: exclude != Some(i) && db.books[i].isbn == Some(isbn)
  }

  /** Some book other than `exclude` has this author and the same title ignoring case. */
  predicate TitleTaken(db: Db, title: string, authorId: Option<int>, exclude: Option<int>) {
    exists i | i in db.books :: exclude != Some(i) && BookRepo.SameTitleAuthor(db.books[i], title, authorId)
  }

  /** The repository lookups find a clash exactly when one exists. */
  lemma LookupsFindClashes(db: Db, isbn: string, title: string, authorId: Option<int>, exclude: Option<int>)
    ensures BookRepo.GetByIsbn(db, isbn, exclude).Some? <==> isbn != "" && IsbnTaken(db, isbn, exclude)
    ensures BookRepo.GetByTitleAuthor(db, title, authorId, exclude).Some? <==> TitleTaken(db, title, authorId, exclude)
  {
    if BookRepo.GetByIsbn(db, isbn, exclude).Some? {
      var i := BookRepo.GetByIsbn(db, isbn, exclude).value;
      assert exclude != Some(i) && db.books[i].isbn == Some(isbn);
    }
    if BookRepo.GetByTitleAuthor(db, title, authorId, exclude).Some? {
      var i := BookRepo.GetByTitleAuthor(db, title, authorId, exclude).value;
      assert exclude != Some(i) && BookRepo.SameTitleAuthor(db.books[i], title, authorId);
    }
  }

  /** `create`: the author is looked up by the stripped name, then a truthy
      ISBN must be free, then the author must not already have the title;
      the new row is then written and committed. */
  function Create(db: Db, title: string, genre: string, year: int, authorName: string, isbn: Option<string>)
    : (r: Result<(Db, int), Failure>)
    ensures r == Err(AuthorNotFound) <==> AuthorByName(db, Strip(authorName)).None?
    ensures r == Err(IsbnConflict) <==> AuthorByName(db, Strip(authorName)).Some? && Truthy(isbn) && IsbnTaken(db, isbn.value, None)
    ensures r == Err(Conflict) <==> && AuthorByName(db, Strip(authorName)).Some?
                                    && !(Truthy(isbn) && IsbnTaken(db, isbn.value, None))
                                    && TitleTaken(db, title, AuthorByName(db, Strip(authorName)), None)
    ensures r.Ok? ==> && r.value.1 == db.nextBook
                      && r.value.0 == AddBook(db, Book(title, genre, year, AuthorByName(db, Strip(authorName)), isbn)).0
    ensures r.Err? ==> r.error in {AuthorNotFound, IsbnConflict, Conflict, IntegrityViolation}
  {
    var author := AuthorByName(db, Strip(authorName));
    if author.None? then Err(AuthorNotFound)
    else
      LookupsFindClashes(db, if isbn.Some? then isbn.value else "", title, author, None);
      if Truthy(isbn) && BookRepo.GetByIsbn(db, isbn.value, None).Some? then Err(IsbnConflict)
      else if BookRepo.GetByTitleAuthor(db, title, author, None).Some? then Err(Conflict)
      else
        var (db', id) := AddBook(db, Book(title, genre, year, author, isbn));
        match Commit(db')
        case Ok(d) => Ok((d, id))
        case Err(e) => Err(e)
  }

  /** On a valid database, with an ISBN that is absent or not empty (as the
      payload validation guarantees), `create` is never refused by the
      database and leaves it valid. */
  lemma CreateKeepsValid(db: Db, title: string, genre: string, year: int, authorName: string, isbn: Option<string>)
    requires Valid(db)
    requires isbn.None? || isbn.value != ""
    ensures Create(db, title, genre, year, authorName, isbn) != Err(IntegrityViolation)
    ensures Create(db, title, genre, year, authorName, isbn).Ok? ==> Valid(Create(db, title, genre, year, authorName, isbn).value.0)
  {
    var author := AuthorByName(db, Strip(authorName));
    if author.Some? && !(Truthy(isbn) && IsbnTaken(db, isbn.value, None)) && !TitleTaken(db, title, author, None) {
      var b := Book(title, genre, year, author, isbn);
      FreshBookFits(db, title, author, isbn, b);
      AddBookKeepsValid(db, b);
    }
  }

  /** A book that passed the `create` checks clashes with no stored book. */
  lemma FreshBookFits(db: Db, title: string, author: Option<int>, isbn: Option<string>, b: Book)
    requires Valid(db)
    requires b.title == title && b.authorId == author && b.isbn == isbn
    requires isbn.None? || !IsbnTaken(db, isbn.value, None)
    requires author.Some? ==> author.value in db.authors
    requires !TitleTaken(db, title, author, None)
    ensures FitsAmong(db.books, b, db.nextBook)
  {
    forall i | i in db.books && i != db.nextBook
      ensures Apart(b, db.books[i]) && Apart(db.books[i], b)
    {
      assert !BookRepo.SameTitleAuthor(db.books[i], title, author);
    }
  }

  /** Creating a book and then the same title, in any letter case, for the
      same author is refused. */
  lemma CreateTwiceRefused(db: Db, title: string, title2: string, genre: string, year: int, authorName: string,
                           isbn: Option<string>, isbn2: Option<string>)
    requires Create(db, title, genre, year, authorName, isbn).Ok?
    requires Lower(title2) == Lower(title)
    ensures var db' := Create(db, title, genre, year, authorName, isbn).value.0;
            Create(db', title2, genre, year, authorName, isbn2) in {Err(IsbnConflict), Err(Conflict)}
  {
    var (db', id) := Create(db, title, genre, year, authorName, isbn).value;
    var author := AuthorByName(db, Strip(authorName));
    assert db'.authors == db.authors;
    assert AuthorByName(db', Strip(authorName)) == author;
    assert id in db'.books && BookRepo.SameTitleAuthor(db'.books[id], title2, author);
    assert TitleTaken(db', title2, author, None);
  }

  /** Whether `update` resolves the author: no name keeps the current one,
      a given name must be non-blank and name an existing author. */
  predicate AuthorResolves(db: Db, authorName: Option<string>) {
    authorName.None? || (!IsBlank(authorName.value) && AuthorByName(db, Strip(authorName.value)).Some?)
  }

  /** The author an update assigns. */
  function NewAuthor(db: Db, id: int, authorName: Option<string>): (a: Option<int>)
    requires id in db.books && AuthorResolves(db, authorName)
    ensures authorName.None? ==> a == db.books[id].authorId
    ensures authorName.Some? ==> a.Some? && a.value in db.authors && db.authors[a.value].name == Strip(authorName.value)
  {
    if authorName.None? then db.books[id].authorId else AuthorByName(db, Strip(authorName.value))
  }

  /** Whether a given ISBN clashes with another book (`None` or `""` skips the check). */
  predicate UpdateIsbnClash(db: Db, id: int, isbn: Option<string>) {
    isbn.Some? && isbn.value != "" && IsbnTaken(db, isbn.value, Some(id))
  }

  /** `update`: the book must exist; a given author name must be non-blank
      and known; a non-empty ISBN must be free among the other books; and
      only a change of title or author triggers the title check, which
      excludes the book itself. */
  function Update(db: Db, id: int, title: string, genre: string, year: int, authorName: Option<string>, isbn: Option<string>)
    : (r: Result<Db, Failure>)
    ensures r == Err(NotFound) <==> id !in db.books
    ensures r == Err(BadAuthorName) <==> id in db.books && authorName.Some? && IsBlank(authorName.value)
    ensures r == Err(AuthorNotFound) <==> && id in db.books && authorName.Some? && !IsBlank(authorName.value)
                                          && AuthorByName(db, Strip(authorName.value)).None?
    ensures r == Err(IsbnConflict) <==> id in db.books && AuthorResolves(db, authorName) && UpdateIsbnClash(db, id, isbn)
    ensures r == Err(Conflict) <==> && id in db.books && AuthorResolves(db, authorName) && !UpdateIsbnClash(db, id, isbn)
                                    && (title != db.books[id].title || NewAuthor(db, id, authorName) != db.books[id].authorId)
                                    && TitleTaken(db, title, NewAuthor(db, id, authorName), Some(id))
    ensures r.Ok? ==> && id in db.books && AuthorResolves(db, authorName)
                      && r.value == db.(books := db.books[id := BookRepo.UpdateBook(db.books[id], title, genre, year,
                                                                                     NewAuthor(db, id, authorName), isbn)])
  {
    if id !in db.books then Err(NotFound)
    else
      var obj := db.books[id];
      if authorName.Some? && Strip(authorName.value) == [] then Err(BadAuthorName)
      else if authorName.Some? && AuthorByName(db, Strip(authorName.value)).None? then Err(AuthorNotFound)
      else
        var newAuthor := NewAuthor(db, id, authorName);
        LookupsFindClashes(db, if isbn.Some? then isbn.value else "", title, newAuthor, Some(id));
        if isbn.Some? && isbn.value != "" && BookRepo.GetByIsbn(db, isbn.value, Some(id)).Some? then Err(IsbnConflict)
        else if (title != obj.title || newAuthor != obj.authorId)
                && BookRepo.GetByTitleAuthor(db, title, newAuthor, Some(id)).Some? then Err(Conflict)
        else
          Commit(db.(books := db.books[id := BookRepo.UpdateBook(obj, title, genre, year, newAuthor, isbn)]))
  }

  /** On a valid database, with an ISBN that is absent or not empty, `update`
      is never refused by the database and leaves it valid. */
  lemma UpdateKeepsValid(db: Db, id: int, title: string, genre: string, year: int, authorName: Option<string>, isbn: Option<string>)
    requires Valid(db)
    requires isbn.None? || isbn.value != ""
    ensures Update(db, id, title, genre, year, authorName, isbn) != Err(IntegrityViolation)
    ensures Update(db, id, title, genre, year, authorName, isbn).Ok? ==> Valid(Update(db, id, title, genre, year, authorName, isbn).value)
  {
    if id in db.books && AuthorResolves(db, authorName) && !UpdateIsbnClash(db, id, isbn) {
      var obj := db.books[id];
      var a := NewAuthor(db, id, authorName);
      var changes := title != obj.title || a != obj.authorId;
      if !(changes && TitleTaken(db, title, a, Some(id))) {
        var b := BookRepo.UpdateBook(obj, title, genre, year, a, isbn);
        forall i | i in db.books && i != id
          ensures Apart(b, db.books[i]) && Apart(db.books[i], b)
        {
          assert Apart(obj, db.books[i]) && Apart(db.books[i], obj);
          if changes {
            assert !BookRepo.SameTitleAuthor(db.books[i], title, a);
          }
        }
        ReplaceBookKeepsValid(db, id, b);
      }
    }
  }

  /** An update that names no new author and no new ISBN and repeats the
      stored title, genre and year leaves the database as it was. */
  lemma UpdateUnchangedAccepted(db: Db, id: int)
    requires Valid(db) && id in db.books
    ensures var b := db.books[id];
            Update(db, id, b.title, b.genre, b.year, None, None) == Ok(db)
  {
    var b := db.books[id];
    UpdateKeepsValid(db, id, b.title, b.genre, b.year, None, None);
    assert BookRepo.UpdateBook(b, b.title, b.genre, b.year, b.authorId, None) == b;
    assert db.books[id := b] == db.books;
  }

  /** `delete`: the book must exist; exactly that row is removed. */
  function Delete(db: Db, id: int): (r: Result<Db, Failure>)
    ensures r == Err(NotFound) <==> id !in db.books
    ensures r.Ok? ==> id in db.books && r.value == db.(books := db.books - {id})
  {
    if id !in db.books then Err(NotFound)
    else Commit(db.(books := db.books - {id}))
  }

  /** Deleting an existing book from a valid database always succeeds and keeps it valid. */
  lemma DeleteKeepsValid(db: Db, id: int)
    requires Valid(db) && id in db.books
    ensures Delete(db, id).Ok? && Valid(Delete(db, id).value)
    ensures id !in Delete(db, id).value.books && Delete(db, id).value.books.Keys == db.books.Keys - {id}
  {
  }
}

=== FILE: import_schema.dfy ===
/** Validation of one row of a book import file (`BookImportItem`): its own
    ISBN normaliser, stripped non-blank title and author name, a genre given
    as text, and the year range. */
module ImportSchema {
  import opened Results
  import opened Text
  import BookSchema

  /** The import module's `_normalize_isbn`: normalisation and shape check in one step. */
  function NormalizeIsbn(v: Option<string>): (r: Result<Option<string>, string>)
    ensures v.None? ==> r == Ok(None)
    ensures r.Ok? && r.value.Some? ==> BookSchema.IsIsbn10(r.value.value) || BookSchema.IsIsbn13(r.value.value)
    ensures r.Ok? ==> r.value == BookSchema.NormalizeIsbn(v)
  {
    match v
    case None => Ok(None)
    case Some(s) =>
      var w := Upper(BookSchema.DropSeparators(s));
      if w == [] then Ok(None)
      else if |w| == 10 then
        if BookSchema.IsIsbn10(w) then Ok(Some(w)) else Err(BookSchema.Isbn10Message)
      else if |w| == 13 then
        if AllDigits(w) then Ok(Some(w)) else Err(BookSchema.Isbn13Message)
      else Err(BookSchema.IsbnLengthMessage)
  }

  /** The two ISBN implementations agree on every input, errors included. */
  lemma IsbnAgrees(v: Option<string>)
    ensures NormalizeIsbn(v) == BookSchema.ValidateIsbn(v)
  {
  }

  const TooShortMessage := "String should have at least 1 character"
  const EmptyMessage := "must not be empty"

  /** `_not_empty` after the `min_length=1` constraint: the stripped value, or
      an error when nothing but whitespace is left. */
  function NotEmpty(v: string): (r: Result<string, string>)
    ensures r.Ok? <==> !IsBlank(v)
    ensures r.Ok? ==> r.value == Strip(v)
  {
    if |v| < 1 then Err(TooShortMessage)
    else
      var s := Strip(v);
      if s == [] then Err(EmptyMessage) else Ok(s)
  }

  /** Surrounding whitespace is removed and nothing else. */
  lemma NotEmptyPadded(p: string, x: string, q: string)
    requires IsBlank(p) && IsBlank(q)
    requires x != [] && !IsSpace(x[0]) && !IsSpace(x[|x| - 1])
    ensures NotEmpty(p + x + q) == Ok(x)
  {
    var s := p + x + q;
    assert s[|p|..|p| + |x|] == x;
    assert s[..|p|] == p;
    assert s[|p| + |x|..] == q;
    StripUnique(s, x, |p|);
  }

  /** What the genre field can hold before validation: a `Genre`, `None`
      (or a missing field), or any other value, which the validator reads
      through `str()`. */
  datatype GenreInput = GenreIn(genre: BookSchema.Genre) | NullIn | TextIn(text: string)

  /** `_genre_from_str`: a `Genre` or `None` passes through; text is stripped
      and must then equal one of the values exactly, case included. */
  function GenreFromStr(v: GenreInput): (r: Result<Option<BookSchema.Genre>, string>)
    ensures v.GenreIn? ==> r == Ok(Some(v.genre))
    ensures v.NullIn? ==> r == Ok(None)
    ensures v.TextIn? ==> (r.Ok? <==> Strip(v.text) in BookSchema.GenreValues)
    ensures v.TextIn? && r.Ok? ==> r.value.Some? && BookSchema.GenreValue(r.value.value) == Strip(v.text)
  {
    match v
    case GenreIn(g) => Ok(Some(g))
    case NullIn => Ok(None)
    case TextIn(s) =>
      match BookSchema.GenreFromValue(Strip(s))
      case Some(g) => Ok(Some(g))
      case None => Err("genre must be one of: Fiction, Non-Fiction, Science, History, Programming")
  }

  /** A genre value with whitespace around it is read as that genre. */
  lemma GenrePadded(p: string, g: BookSchema.Genre, q: string)
    requires IsBlank(p) && IsBlank(q)
    ensures GenreFromStr(TextIn(p + BookSchema.GenreValue(g) + q)) == Ok(Some(g))
  {
    var x := BookSchema.GenreValue(g);
    var s := p + x + q;
    assert x != [] && !IsSpace(x[0]) && !IsSpace(x[|x| - 1]);
    assert s[|p|..|p| + |x|] == x;
    assert s[..|p|] == p;
    assert s[|p| + |x|..] == q;
    StripUnique(s, x, |p|);
    BookSchema.GenreRoundTrip(g);
  }

  /** `_year_ok`: `1800 <= y <= currentYear`; the current year is a parameter. */
  function YearOk(v: int, currentYear: int): (r: Result<int, string>)
    ensures r.Ok? <==> 1800 <= v <= currentYear
    ensures r.Ok? ==> r.value == v
    ensures r.Err? ==> r.error == "published_year must be between 1800 and " + Decimal(currentYear)
  {
    if v < 1800 || v > currentYear then Err("published_year must be between 1800 and " + Decimal(currentYear)) else Ok(v)
  }

  /** One import row as parsed: text fields may be missing. */
  datatype RawItem = RawItem(title: Option<string>, authorName: Option<string>, genre: GenreInput,
                             year: Option<int>, isbn: Option<string>)

  /** A validated import row. */
  datatype Item = Item(title: string, authorName: string, genre: BookSchema.Genre, year: int, isbn: Option<string>)

  /** Whether field `f` of the row is refused (a required field that is missing counts). */
  predicate Refuses(raw: RawItem, currentYear: int, f: BookSchema.Field) {
    match f
    case TitleField => raw.title.None? || IsBlank(raw.title.value)
    case AuthorField => raw.authorName.None? || IsBlank(raw.authorName.value)
    case GenreField => raw.genre.NullIn? || (raw.genre.TextIn? && Strip(raw.genre.text) !in BookSchema.GenreValues)
    case YearField => raw.year.None? || !(1800 <= raw.year.value <= currentYear)
    case IsbnField => BookSchema.ValidateIsbn(raw.isbn).Err?
  }

  /** The fields a row is refused for. */
  function ItemErrors(raw: RawItem, currentYear: int): (errs: set<BookSchema.Field>)
    ensures BookSchema.TitleField in errs <==> raw.title.None? || IsBlank(raw.title.value)
    ensures BookSchema.AuthorField in errs <==> raw.authorName.None? || IsBlank(raw.authorName.value)
    ensures BookSchema.GenreField in errs <==> raw.genre.NullIn? || (raw.genre.TextIn? && Strip(raw.genre.text) !in BookSchema.GenreValues)
    ensures BookSchema.YearField in errs <==> raw.year.None? || !(1800 <= raw.year.value <= currentYear)
    ensures BookSchema.IsbnField in errs <==> BookSchema.ValidateIsbn(raw.isbn).Err?
  {
    set f | f in BookSchema.AllFields && Refuses(raw, currentYear, f)
  }

  /** `BookImportItem` validation. */
  function ValidateItem(raw: RawItem, currentYear: int): (r: Result<Item, set<BookSchema.Field>>)
    ensures r.Err? <==> ItemErrors(raw, currentYear) != {}
    ensures r.Err? ==> r.error == ItemErrors(raw, currentYear)
    ensures r.Ok? ==> && raw.title.Some? && raw.authorName.Some? && raw.year == Some(r.value.year)
                      && r.value.title == Strip(raw.title.value)
                      && r.value.authorName == Strip(raw.authorName.value)
                      && 1800 <= r.value.year <= currentYear
                      && Ok(r.value.isbn) == BookSchema.ValidateIsbn(raw.isbn)
                      && GenreFromStr(raw.genre) == Ok(Some(r.value.genre))
  {
    var errs := ItemErrors(raw, currentYear);
    if errs != {} then Err(errs)
    else
      IsbnAgrees(raw.isbn);
      Ok(Item(NotEmpty(raw.title.value).value, NotEmpty(raw.authorName.value).value,
              GenreFromStr(raw.genre).value.value, raw.year.value, NormalizeIsbn(raw.isbn).value))
  }

  /** A validated row, sent as a create payload, passes `BookCreate` unchanged. */
  lemma ItemIsValidCreate(raw: RawItem, currentYear: int)
    requires ValidateItem(raw, currentYear).Ok?
    ensures var it := ValidateItem(raw, currentYear).value;
            BookSchema.ValidateCreate(BookSchema.RawBook(Some(it.title), Some(BookSchema.GenreValue(it.genre)),
                                                         Some(it.year), Some(it.authorName), it.isbn), currentYear)
            == Ok(BookSchema.BookCreate(it.title, it.genre, it.year, it.authorName, it.isbn))
  {
    var it := ValidateItem(raw, currentYear).value;
    BookSchema.ValidateIsbnFixpoint(raw.isbn);
    BookSchema.GenreRoundTrip(it.genre);
    assert !IsBlank(it.title) by {
      assert !IsSpace(it.title[0]);
    }
    assert !IsBlank(it.authorName) by {
      assert !IsSpace(it.authorName[0]);
    }
    BookSchema.CreateAccepted(BookSchema.RawBook(Some(it.title), Some(BookSchema.GenreValue(it.genre)),
                                                 Some(it.year), Some(it.authorName), it.isbn), currentYear);
  }
}

=== FILE: ordering.dfy ===
/** `ORDER BY ... OFFSET ... LIMIT ...` over a finite set of row ids: the rows
    are arranged by a strict total order and a window of the arrangement is
    returned. A row's position is its rank, the number of rows ordered before it. */
module Ordering {
  import opened Results

  /** `less` is a strict total order on the ids in `s`. */
  ghost predicate StrictTotalOn(less: (int, int) -> bool, s: set<int>) {
    && (forall x | x in s :: !less(x, x))
    && (forall x, y | x in s && y in s && x != y :: less(x, y) || less(y, x))
    && (forall x, y, z | x in s && y in s && z in s && less(x, y) && less(y, z) :: less(x, z))
  }

  lemma StrictTotalSubset(less: (int, int) -> bool, s: set<int>, t: set<int>)
    requires StrictTotalOn(less, s) && t <= s
    ensures StrictTotalOn(less, t)
  {
  }

  ghost predicate IsLeast(less: (int, int) -> bool, s: set<int>, m: int) {
    m in s && forall y | y in s && y != m :: less(m, y)
  }

  /** Adding `x` to a set whose least row is `m` leaves `x` or `m` least. */
  lemma ExtendLeast(less: (int, int) -> bool, s: set<int>, x: int, m: int)
    requires StrictTotalOn(less, s) && x in s
    requires IsLeast(less, s - {x}, m)
    ensures IsLeast(less, s, x) || IsLeast(less, s, m)
  {
    if less(x, m) {
      forall y | y in s && y != x
        ensures less(x, y)
      {
        if y != m {
          assert less(m, y);
        }
      }
    }
  }

  /** A non-empty set has an element. */
  lemma Pick(s: set<int>) returns (x: int)
    requires s != {}
    ensures x in s
  {
    if forall y :: y !in s {
      assert false;
    }
    x :| x in s;
  }

  lemma {:induction false} LeastExists(less: (int, int) -> bool, s: set<int>)
    requires s != {} && StrictTotalOn(less, s)
    ensures exists m :: IsLeast(less, s, m)
    decreases |s|
  {
    var x := Pick(s);
    if s == {x} {
      assert IsLeast(less, s, x);
    } else {
      var rest := s - {x};
      StrictTotalSubset(less, s, rest);
      LeastExists(less, rest);
      var m :| IsLeast(less, rest, m);
      ExtendLeast(less, s, x, m);
    }
  }

  /** The first row of `s` under `less`. */
  function Least(less: (int, int) -> bool, s: set<int>): (m: int)
    requires s != {} && StrictTotalOn(less, s)
    ensures m in s
    ensures forall y | y in s && y != m :: less(m, y)
  {
    LeastExists(less, s);
    var m :| m in s && forall y | y in s && y != m :: less(m, y);
    m
  }

  /** Ascending id order. */
  predicate Before(a: int, b: int) {
    a < b
  }

  /** Descending id order. */
  predicate After(a: int, b: int) {
    a > b
  }

  lemma IdOrdersTotal(s: set<int>)
    ensures StrictTotalOn(Before, s) && StrictTotalOn(After, s)
  {
  }

  /** The smallest id of a non-empty set. */
  function MinOf(s: set<int>): (m: int)
    requires s != {}
    ensures m in s && forall x | x in s :: m <= x
  {
    IdOrdersTotal(s);
    Least(Before, s)
  }

  /** SQL `.first()` on a statement without `ORDER BY`: any matching row may
      come back; this model returns the one with the smallest id. */
  function First(s: set<int>): (r: Option<int>)
    ensures r.None? <==> s == {}
    ensures r.Some? ==> r.value in s && forall x | x in s :: r.value <= x
  {
    if s == {} then None else Some(MinOf(s))
  }

  /** The rows of `s` in `less` order. */
  function Arrange(less: (int, int) -> bool, s: set<int>): (r: seq<int>)
    requires StrictTotalOn(less, s)
    ensures |r| == |s|
    ensures forall i | 0 <= i < |r| :: r[i] in s
    decreases |s|
  {
    if s == {} then []
    else
      var m := Least(less, s);
      StrictTotalSubset(less, s, s - {m});
      var rest := Arrange(less, s - {m});
      [m] + rest
  }

  /** Every row of `s` appears in the arrangement. */
  lemma {:induction false} ArrangeCovers(less: (int, int) -> bool, s: set<int>, x: int)
    requires StrictTotalOn(less, s) && x in s
    ensures x in Arrange(less, s)
    decreases |s|
  {
    var m := Least(less, s);
    ArrangeUnfold(less, s);
    if x != m {
      ArrangeCovers(less, s - {m}, x);
    }
  }

  /** The arrangement is in `less` order. */
  lemma {:induction false} ArrangeSorted(less: (int, int) -> bool, s: set<int>)
    requires StrictTotalOn(less, s)
    ensures forall i, j | 0 <= i < j < |s| :: less(Arrange(less, s)[i], Arrange(less, s)[j])
    decreases |s|
  {
    if s != {} {
      var m := Least(less, s);
      ArrangeUnfold(less, s);
      ArrangeSorted(less, s - {m});
    }
  }

  /** The arrangement starts with the least row, followed by the rest arranged. */
  lemma ArrangeUnfold(less: (int, int) -> bool, s: set<int>)
    requires StrictTotalOn(less, s) && s != {}
    ensures StrictTotalOn(less, s - {Least(less, s)})
    ensures Arrange(less, s) == [Least(less, s)] + Arrange(less, s - {Least(less, s)})
  {
    StrictTotalSubset(less, s, s - {Least(less, s)});
  }

  /** How many rows of `s` come before `x`. */
  function Rank(less: (int, int) -> bool, s: set<int>, x: int): nat {
    |set y | y in s && less(y, x)|
  }

  /** A subset is no larger than the set it is taken from. */
  lemma {:induction false} SubsetSize(a: set<int>, b: set<int>)
    requires a <= b
    ensures |a| <= |b|
    decreases |a|
  {
    if a != {} {
      var x := Pick(a);
      SubsetSize(a - {x}, b - {x});
    }
  }

  /** A row's rank is below the number of rows. */
  lemma RankBelow(less: (int, int) -> bool, s: set<int>, x: int)
    requires StrictTotalOn(less, s) && x in s
    ensures Rank(less, s, x) < |s|
  {
    var before := set y | y in s && less(y, x);
    assert before <= s - {x};
    SubsetSize(before, s - {x});
  }

  /** The least row has no row before it. */
  lemma RankOfLeast(less: (int, int) -> bool, s: set<int>, m: int)
    requires StrictTotalOn(less, s) && IsLeast(less, s, m)
    ensures Rank(less, s, m) == 0
  {
    forall y | y in s
      ensures !less(y, m)
    {
      if y != m {
        assert less(m, y);
      }
    }
    assert (set y | y in s && less(y, m)) == {};
  }

  /** Removing the least row lowers every other row's rank by one. */
  lemma RankAfterLeast(less: (int, int) -> bool, s: set<int>, m: int, x: int)
    requires StrictTotalOn(less, s) && IsLeast(less, s, m)
    requires x in s && x != m
    ensures Rank(less, s, x) == Rank(less, s - {m}, x) + 1
  {
    var before := set y | y in s && less(y, x);
    var beforeRest := set y | y in s - {m} && less(y, x);
    assert less(m, x);
    assert before == beforeRest + {m};
  }

  /** Each row of the arrangement sits at the index given by its rank. */
  lemma {:induction false} ArrangeRank(less: (int, int) -> bool, s: set<int>, i: int)
    requires StrictTotalOn(less, s)
    requires 0 <= i < |s|
    ensures Rank(less, s, Arrange(less, s)[i]) == i
    decreases |s|
  {
    var m := Least(less, s);
    var rest := s - {m};
    ArrangeUnfold(less, s);
    if i == 0 {
      RankOfLeast(less, s, m);
    } else {
      var x := Arrange(less, rest)[i - 1];
      assert Arrange(less, s)[i] == x;
      ArrangeRank(less, rest, i - 1);
      RankAfterLeast(less, s, m, x);
    }
  }

  /** The window `[offset, offset + limit)` of `xs`, clipped to its length. */
  function Page(xs: seq<int>, offset: int, limit: int): (r: seq<int>)
    requires offset >= 0 && limit >= 0
    ensures |r| <= limit
    ensures offset <= |xs| ==> |r| == if offset + limit <= |xs| then limit else |xs| - offset
    ensures offset >= |xs| ==> r == []
    ensures forall i | 0 <= i < |r| :: r[i] == xs[offset + i]
  {
    var lo := if offset < |xs| then offset else |xs|;
    var hi := if offset + limit < |xs| then offset + limit else |xs|;
    xs[lo..hi]
  }

  /** An entry that occurs once in `xs` is on the page exactly when its index
      falls in the page's window. */
  lemma PageHolds(xs: seq<int>, offset: int, limit: int, i: int)
    requires offset >= 0 && limit >= 0
    requires 0 <= i < |xs|
    requires forall j | 0 <= j < |xs| && xs[j] == xs[i] :: j == i
    ensures xs[i] in Page(xs, offset, limit) <==> offset <= i < offset + limit
  {
    var p := Page(xs, offset, limit);
    if xs[i] in p {
      var j :| 0 <= j < |p| && p[j] == xs[i];
      assert xs[offset + j] == xs[i];
    }
    if offset <= i < offset + limit {
      assert p[i - offset] == xs[i];
    }
  }

  /** A row is on the page exactly when its rank falls in the page's window. */
  lemma OnPageIffRank(less: (int, int) -> bool, s: set<int>, offset: int, limit: int, x: int)
    requires StrictTotalOn(less, s)
    requires offset >= 0 && limit >= 0
    requires x in s
    ensures x in Page(Arrange(less, s), offset, limit) <==> offset <= Rank(less, s, x) < offset + limit
  {
    var r := Arrange(less, s);
    ArrangeCovers(less, s, x);
    var i :| 0 <= i < |r| && r[i] == x;
    ArrangeRank(less, s, i);
    forall j | 0 <= j < |r| && r[j] == r[i]
      ensures j == i
    {
      ArrangeRank(less, s, j);
    }
    PageHolds(r, offset, limit, i);
  }

  /** Strictly decreasing ids. */
  predicate Descending(xs: seq<int>) {
    forall i, j | 0 <= i < j < |xs| :: xs[i] > xs[j]
  }

  /** The rows with a larger id than `x`: its position in a newest-first listing. */
  function Newer(s: set<int>, x: int): nat {
    |set y | y in s && y > x|
  }

  /** Under descending id order, the rows before `x` are the larger ids. */
  lemma RankAfter(s: set<int>, x: int)
    ensures Rank(After, s, x) == Newer(s, x)
  {
    var less: (int, int) -> bool := After;
    var before := set y | y in s && less(y, x);
    assert Rank(less, s, x) == |before|;
    assert before == set y | y in s && y > x;
  }

  /** In a newest-first page, a row is present exactly when its position falls in the window. */
  lemma NewestFirstPage(s: set<int>, offset: int, limit: int, x: int)
    requires offset >= 0 && limit >= 0 && x in s
    ensures StrictTotalOn(After, s)
    ensures x in Page(Arrange(After, s), offset, limit) <==> offset <= Newer(s, x) < offset + limit
  {
    IdOrdersTotal(s);
    OnPageIffRank(After, s, offset, limit, x);
    RankAfter(s, x);
  }

  /** A newest-first page has strictly decreasing ids. */
  lemma NewestFirstDescending(s: set<int>, offset: int, limit: int)
    requires offset >= 0 && limit >= 0
    ensures StrictTotalOn(After, s)
    ensures Descending(Page(Arrange(After, s), offset, limit))
  {
    IdOrdersTotal(s);
    var xs := Arrange(After, s);
    ArrangeSorted(After, s);
    forall i, j | 0 <= i < j < |xs|
      ensures xs[i] > xs[j]
    {
      assert After(xs[i], xs[j]);
    }
    DescendingPage(xs, offset, limit);
  }

  /** A window of a strictly decreasing sequence is strictly decreasing. */
  lemma DescendingPage(xs: seq<int>, offset: int, limit: int)
    requires offset >= 0 && limit >= 0
    requires Descending(xs)
    ensures Descending(Page(xs, offset, limit))
  {
    var p := Page(xs, offset, limit);
    forall i, j | 0 <= i < j < |p|
      ensures p[i] > p[j]
    {
      assert p[i] == xs[offset + i] && p[j] == xs[offset + j];
    }
  }
}

=== FILE: paging.dfy ===
/** The `next_offset` the listing routes return, and the pages a client
    visits by following it. */
module Paging {
  import opened Results

  /** `next_offset`: where the next page starts while rows remain past this one. */
  function NextOffset(offset: int, limit: int, total: int): (r: Option<int>)
    ensures r.Some? <==> offset + limit < total
    ensures r.Some? ==> r.value == offset + limit
  {
    if offset + limit < total then Some(offset + limit) else None
  }

  /** The offsets requested by a client that starts at `offset` and follows
      `next_offset` until it is absent. */
  function Walk(offset: int, limit: int, total: int): (r: seq<int>)
    requires limit >= 1
    decreases total - offset
    ensures |r| >= 1 && r[0] == offset
  {
    match NextOffset(offset, limit, total)
    case None => [offset]
    case Some(next) => [offset] + Walk(next, limit, total)
  }

  /** Consecutive pages are adjacent, every page after the first starts
      before the end, and the last page reaches the end. */
  lemma {:induction false} WalkShape(offset: int, limit: int, total: int)
    requires limit >= 1
    ensures var w := Walk(offset, limit, total);
            && (forall k | 0 <= k < |w| - 1 :: w[k + 1] == w[k] + limit)
            && (forall k | 1 <= k < |w| :: w[k] < total)
            && w[|w| - 1] + limit >= total
    decreases total - offset
  {
    var w := Walk(offset, limit, total);
    if offset + limit < total {
      var rest := Walk(offset + limit, limit, total);
      WalkShape(offset + limit, limit, total);
      assert w == [offset] + rest;
      forall k | 0 <= k < |w| - 1
        ensures w[k + 1] == w[k] + limit
      {
        if k > 0 {
          assert w[k] == rest[k - 1] && w[k + 1] == rest[k];
        }
      }
      forall k | 1 <= k < |w|
        ensures w[k] < total
      {
        assert w[k] == rest[k - 1];
      }
    }
  }

  /** The pages of a walk do not overlap. */
  lemma PagesApart(offset: int, limit: int, total: int, j: int, k: int)
    requires limit >= 1
    requires 0 <= j < k < |Walk(offset, limit, total)|
    ensures Walk(offset, limit, total)[j] + limit <= Walk(offset, limit, total)[k]
  {
    var w := Walk(offset, limit, total);
    WalkShape(offset, limit, total);
    Increasing(w, limit, j, k);
  }

  lemma {:induction false} Increasing(w: seq<int>, limit: int, j: int, k: int)
    requires limit >= 1
    requires forall i | 0 <= i < |w| - 1 :: w[i + 1] == w[i] + limit
    requires 0 <= j < k < |w|
    ensures w[j] + limit <= w[k]
    decreases k - j
  {
    if k > j + 1 {
      Increasing(w, limit, j, k - 1);
    }
  }

  /** Every position from the starting offset up to the total falls in one
      page of the walk. */
  lemma {:induction false} WalkCovers(offset: int, limit: int, total: int, x: int)
    requires limit >= 1
    requires offset <= x < total
    ensures exists k | 0 <= k < |Walk(offset, limit, total)| ::
              Walk(offset, limit, total)[k] <= x < Walk(offset, limit, total)[k] + limit
    decreases total - offset
  {
    var w := Walk(offset, limit, total);
    if x >= offset + limit {
      var rest := Walk(offset + limit, limit, total);
      WalkCovers(offset + limit, limit, total, x);
      var k :| 0 <= k < |rest| && rest[k] <= x < rest[k] + limit;
      assert w[k + 1] == rest[k];
    } else {
      assert w[0] <= x < w[0] + limit;
    }
  }

  /** The page of the walk holding position `x`: exactly one page does. */
  lemma PageOf(offset: int, limit: int, total: int, x: int) returns (k: int)
    requires limit >= 1
    requires offset <= x < total
    ensures 0 <= k < |Walk(offset, limit, total)|
    ensures Walk(offset, limit, total)[k] <= x < Walk(offset, limit, total)[k] + limit
    ensures forall j | 0 <= j < |Walk(offset, limit, total)| && j != k ::
              !(Walk(offset, limit, total)[j] <= x < Walk(offset, limit, total)[j] + limit)
  {
    var w := Walk(offset, limit, total);
    WalkCovers(offset, limit, total, x);
    k :| 0 <= k < |w| && w[k] <= x < w[k] + limit;
    forall j | 0 <= j < |w| && j != k
      ensures !(w[j] <= x < w[j] + limit)
    {
      if j < k {
        PagesApart(offset, limit, total, j, k);
      } else {
        PagesApart(offset, limit, total, k, j);
      }
    }
  }
}

=== FILE: rate_limiter.dfy ===
/** The in-memory sliding-window rate limiter middleware.

    Each identifier owns a log of admission times, oldest first. A request
    that is not exempt first drops the log's expired front, then is rejected
    with 429 when the log already holds `maxRequests` entries, and is
    otherwise admitted and recorded. The locked region of the middleware is
    one atomic step (`Dispatch`); time is whole seconds, so rounding up the
    retry delay and truncating the reset stamp change nothing. */
module RateLimiter {
  import opened Results

  datatype IdentifyBy = ByIp | ByIpAndPath

  datatype Config = Config(
    maxRequests: int,
    windowSeconds: int,
    identifyBy: IdentifyBy,
    excludePaths: set<string>,
    includeMethods: set<string>)

  /** What the limiter reads from a request; `clientHost` is `None` when the
      connection carries no client address. */
  datatype Request = Request(httpMethod: string, path: string, clientHost: Option<string>)

  /** The middleware: its configuration and the per-identifier logs. A
      missing key stands for an empty log. */
  datatype Limiter = Limiter(config: Config, buckets: map<string, seq<int>>)

  datatype ConfigError = BadIdentifyBy | NonPositiveLimit

  /** The result of one dispatch, with the header values the middleware sets. */
  datatype Outcome =
    | Forwarded                                         // exempt: no accounting, no headers
    | Admitted(limit: int, remaining: int, reset: int)  // passed downstream with X-RateLimit-* headers
    | Rejected(retryAfter: int, limit: int, reset: int) // 429 with Retry-After, Remaining "0"
    | IndexFault                                        // reading the oldest entry of an empty log

  const TooManyRequests := 429

  const DefaultExcludePaths: set<string> := {"/docs", "/openapi.json", "/redoc", "/health", "/healthz"}
  const DefaultIncludeMethods: set<string> := {"GET", "POST", "PUT", "PATCH", "DELETE", "HEAD"}

  /** Python's `given or default` for an optional collection. */
  function OrDefault(given: Option<set<string>>, default: set<string>): set<string> {
    if given.None? || given.value == {} then default else given.value
  }

  /** The constructor as written: only `identify_by` is checked. */
  function New(maxRequests: int, windowSeconds: int, identifyBy: string,
               excludePaths: Option<set<string>>, includeMethods: Option<set<string>>): (r: Result<Limiter, ConfigError>)
    ensures r.Err? <==> identifyBy != "ip" && identifyBy != "ip_path"
    ensures r.Err? ==> r.error == BadIdentifyBy
    ensures r.Ok? ==> r.value.buckets == map[]
    ensures r.Ok? ==> r.value.config.maxRequests == maxRequests && r.value.config.windowSeconds == windowSeconds
    ensures r.Ok? ==> (r.value.config.identifyBy == ByIp <==> identifyBy == "ip")
    ensures r.Ok? && (excludePaths == None || excludePaths == Some({})) ==> r.value.config.excludePaths == DefaultExcludePaths
    ensures r.Ok? && excludePaths.Some? && excludePaths.value != {} ==> r.value.config.excludePaths == excludePaths.value
    ensures r.Ok? && (includeMethods == None || includeMethods == Some({})) ==> r.value.config.includeMethods == DefaultIncludeMethods
    ensures r.Ok? && includeMethods.Some? && includeMethods.value != {} ==> r.value.config.includeMethods == includeMethods.value
  {
    if identifyBy != "ip" && identifyBy != "ip_path" then Err(BadIdentifyBy)
    else
      var mode := if identifyBy == "ip" then ByIp else ByIpAndPath;
      Ok(Limiter(Config(maxRequests, windowSeconds, mode,
                        OrDefault(excludePaths, DefaultExcludePaths),
                        OrDefault(includeMethods, DefaultIncludeMethods)), map[]))
  }

  /** The constructor with the limits checked as well: a non-positive
      `maxRequests` or `windowSeconds` is refused. */
  function NewChecked(maxRequests: int, windowSeconds: int, identifyBy: string,
                      excludePaths: Option<set<string>>, includeMethods: Option<set<string>>): (r: Result<Limiter, ConfigError>)
    ensures r.Ok? <==> New(maxRequests, windowSeconds, identifyBy, excludePaths, includeMethods).Ok?
                       && maxRequests >= 1 && windowSeconds >= 1
    ensures r.Ok? ==> r == New(maxRequests, windowSeconds, identifyBy, excludePaths, includeMethods)
    ensures r.Ok? ==> Valid(r.value, 0)
  {
    if maxRequests < 1 || windowSeconds < 1 then Err(NonPositiveLimit)
    else New(maxRequests, windowSeconds, identifyBy, excludePaths, includeMethods)
  }

  /** The bucket key: the client host, or host and path joined by `:`. */
  function Identifier(config: Config, req: Request): (key: string)
    ensures config.identifyBy == ByIp ==> key == req.clientHost.GetOr("unknown")
    ensures config.identifyBy == ByIpAndPath ==> key == req.clientHost.GetOr("unknown") + ":" + req.path
  {
    var ip := if req.clientHost.Some? then req.clientHost.value else "unknown";
    if config.identifyBy == ByIp then ip else ip + ":" + req.path
  }

  predicate NoSlash(s: string) {
    forall i :: 0 <= i < |s| ==> s[i] != '/'
  }

  /** With per-path keys, a host without `/` and a path starting with `/` can
      be read back from the key: distinct (host, path) pairs never share a bucket. */
  lemma {:induction false} IdentifierInjective(config: Config, a: Request, b: Request)
    requires config.identifyBy == ByIpAndPath
    requires a.clientHost.Some? ==> NoSlash(a.clientHost.value)
    requires b.clientHost.Some? ==> NoSlash(b.clientHost.value)
    requires |a.path| > 0 && a.path[0] == '/' && |b.path| > 0 && b.path[0] == '/'
    requires Identifier(config, a) == Identifier(config, b)
    ensures a.clientHost.GetOr("unknown") == b.clientHost.GetOr("unknown")
    ensures a.path == b.path
  {
    var ha := a.clientHost.GetOr("unknown");
    var hb := b.clientHost.GetOr("unknown");
    var k := Identifier(config, a);
    assert NoSlash("unknown");
    assert k == ha + ":" + a.path == hb + ":" + b.path;
    assert k[|ha| + 1] == '/' && k[|hb| + 1] == '/';
    assert forall i :: 0 <= i <= |ha| ==> k[i] != '/';
    assert forall i :: 0 <= i <= |hb| ==> k[i] != '/';
    assert |ha| == |hb|;
    assert ha == k[..|ha|] == hb;
    assert a.path == k[|ha| + 1..] == b.path;
  }

  /** The exempt requests: OPTIONS, excluded paths, methods not limited. */
  predicate Bypassed(config: Config, req: Request) {
    req.httpMethod == "OPTIONS" || req.path in config.excludePaths || req.httpMethod !in config.includeMethods
  }

  function BucketOf(buckets: map<string, seq<int>>, key: string): seq<int> {
    if key in buckets then buckets[key] else []
  }

  /** Pops entries from the front of the log while they are at least
      `window` seconds old. */
  function Cleanup(log: seq<int>, now: int, window: int): (r: seq<int>)
    ensures |r| <= |log| && r == log[|log| - |r|..]
    ensures forall i :: 0 <= i < |log| - |r| ==> now - log[i] >= window
    ensures r != [] ==> now - r[0] < window
  {
    if log != [] && now - log[0] >= window then Cleanup(log[1..], now, window) else log
  }

  predicate NonDecreasing(log: seq<int>) {
    forall i, j :: 0 <= i < j < |log| ==> log[i] <= log[j]
  }

  /** On a time-ordered log, everything cleanup keeps is younger than the window. */
  lemma {:induction false} CleanupLeavesFresh(log: seq<int>, now: int, window: int)
    requires NonDecreasing(log)
    ensures NonDecreasing(Cleanup(log, now, window))
    ensures forall i | 0 <= i < |Cleanup(log, now, window)| :: now - Cleanup(log, now, window)[i] < window
  {
    var r := Cleanup(log, now, window);
    SuffixNonDecreasing(log, |log| - |r|);
    FreshFromFirst(r, now, window);
  }

  lemma SuffixNonDecreasing(log: seq<int>, k: int)
    requires NonDecreasing(log) && 0 <= k <= |log|
    ensures NonDecreasing(log[k..])
  {
  }

  lemma FreshFromFirst(log: seq<int>, now: int, window: int)
    requires NonDecreasing(log)
    requires log != [] ==> now - log[0] < window
    ensures forall i | 0 <= i < |log| :: now - log[i] < window
  {
  }

  function Max0(x: int): int {
    if x < 0 then 0 else x
  }

  /** The locked region for one identifier: drop the expired front of its
      log, then reject when the log is full and otherwise record `now`.
      Returns the new log and the outcome. */
  function Admit(cfg: Config, log: seq<int>, now: int): (r: (seq<int>, Outcome))
    ensures r.1 != Forwarded
    ensures r.1.Admitted? <==> |Cleanup(log, now, cfg.windowSeconds)| < cfg.maxRequests
    ensures r.1.IndexFault? <==> Cleanup(log, now, cfg.windowSeconds) == [] && cfg.maxRequests <= 0
    ensures r.1.Admitted? ==>
              var kept := Cleanup(log, now, cfg.windowSeconds);
              && r.0 == kept + [now]
              && r.1.limit == cfg.maxRequests
              && r.1.remaining == cfg.maxRequests - |kept| - 1 >= 0
              && r.1.reset >= now
    ensures r.1.Rejected? ==>
              var kept := Cleanup(log, now, cfg.windowSeconds);
              && kept != []
              && r.0 == kept
              && r.1.limit == cfg.maxRequests
              && r.1.retryAfter >= 0
              && r.1.reset == now + r.1.retryAfter
  {
    var kept := Cleanup(log, now, cfg.windowSeconds);
    if |kept| >= cfg.maxRequests then
      if kept == [] then (kept, IndexFault)
      else
        var retryAfter := Max0(cfg.windowSeconds - (now - kept[0]));
        (kept, Rejected(retryAfter, cfg.maxRequests, now + retryAfter))
    else
      var log := kept + [now];
      var resetIn := Max0(cfg.windowSeconds - (now - log[0]));
      (log, Admitted(cfg.maxRequests, cfg.maxRequests - |log|, now + resetIn))
  }

  /** One pass through the middleware's dispatch. Returns the new limiter and
      what the client sees; only the request's own bucket changes. */
  function Dispatch(lim: Limiter, req: Request, now: int): (r: (Limiter, Outcome))
    ensures r.0.config == lim.config
    ensures Bypassed(lim.config, req) ==> r == (lim, Forwarded)
    ensures !Bypassed(lim.config, req) ==>
              var key := Identifier(lim.config, req);
              var step := Admit(lim.config, BucketOf(lim.buckets, key), now);
              && r.0.buckets == lim.buckets[key := step.0]
              && r.1 == step.1
  {
    var cfg := lim.config;
    if Bypassed(cfg, req) then (lim, Forwarded)
    else
      var key := Identifier(cfg, req);
      var step := Admit(cfg, BucketOf(lim.buckets, key), now);
      (lim.(buckets := lim.buckets[key := step.0]), step.1)
  }

  /** The state invariant at clock reading `now`: a positive limit and window,
      and every log time-ordered, no longer than the limit, and not in the future. */
  ghost predicate Valid(lim: Limiter, now: int) {
    && lim.config.maxRequests >= 1
    && lim.config.windowSeconds >= 1
    && forall k | k in lim.buckets :: LogOk(lim.buckets[k], lim.config.maxRequests, now)
  }

  /** One log of a valid limiter: time-ordered, within the limit, not in the future. */
  ghost predicate LogOk(log: seq<int>, max: int, now: int) {
    && NonDecreasing(log)
    && |log| <= max
    && forall i | 0 <= i < |log| :: log[i] <= now
  }

  /** What cleanup keeps of a valid log is a valid, fresh log. */
  lemma {:induction false} KeptLogOk(log: seq<int>, max: int, before: int, now: int, window: int)
    requires LogOk(log, max, before) && before <= now
    ensures LogOk(Cleanup(log, now, window), max, now)
    ensures forall i | 0 <= i < |Cleanup(log, now, window)| :: now - Cleanup(log, now, window)[i] < window
  {
    var kept := Cleanup(log, now, window);
    CleanupLeavesFresh(log, now, window);
    SuffixLogOk(log, |log| - |kept|, max, before, now);
  }

  lemma SuffixLogOk(log: seq<int>, k: int, max: int, before: int, now: int)
    requires LogOk(log, max, before) && before <= now && 0 <= k <= |log|
    ensures LogOk(log[k..], max, now)
  {
    SuffixNonDecreasing(log, k);
  }

  /** Appending the current time to a valid log with room keeps it valid. */
  lemma {:induction false} AppendLogOk(kept: seq<int>, max: int, now: int)
    requires LogOk(kept, max, now) && |kept| < max
    ensures LogOk(kept + [now], max, now)
  {
  }

  /** For a positive limit, admitting on a valid log leaves a valid log. */
  lemma {:induction false} AdmitKeepsLogOk(cfg: Config, log: seq<int>, before: int, now: int)
    requires cfg.maxRequests >= 1
    requires LogOk(log, cfg.maxRequests, before) && before <= now
    ensures LogOk(Admit(cfg, log, now).0, cfg.maxRequests, now)
  {
    var max := cfg.maxRequests;
    var kept := Cleanup(log, now, cfg.windowSeconds);
    KeptLogOk(log, max, before, now, cfg.windowSeconds);
    if |kept| < max {
      AppendLogOk(kept, max, now);
      assert Admit(cfg, log, now).0 == kept + [now];
    } else {
      assert Admit(cfg, log, now).0 == kept;
    }
  }

  /** For a positive limit and window, admitting on a valid log never faults
      and keeps the header values in range. */
  lemma {:induction false} AdmitInRange(cfg: Config, log: seq<int>, before: int, now: int)
    requires cfg.maxRequests >= 1 && cfg.windowSeconds >= 1
    requires LogOk(log, cfg.maxRequests, before) && before <= now
    ensures !Admit(cfg, log, now).1.IndexFault?
    ensures Admit(cfg, log, now).1.Admitted? ==>
              var o := Admit(cfg, log, now).1;
              0 <= o.remaining < cfg.maxRequests && now <= o.reset <= now + cfg.windowSeconds
    ensures Admit(cfg, log, now).1.Rejected? ==>
              var o := Admit(cfg, log, now).1;
              0 < o.retryAfter <= cfg.windowSeconds && o.reset == now + o.retryAfter
  {
    var max := cfg.maxRequests;
    var window := cfg.windowSeconds;
    var kept := Cleanup(log, now, window);
    KeptLogOk(log, max, before, now, window);
    var first := if kept == [] then now else kept[0];
    FirstInWindow(kept, max, now, window);
    if |kept| < max {
      assert (kept + [now])[0] == first;
      assert Admit(cfg, log, now).1 == Admitted(max, max - |kept| - 1, now + Max0(window - (now - first)));
    } else {
      assert Admit(cfg, log, now).1 == Rejected(Max0(window - (now - first)), max, now + Max0(window - (now - first)));
    }
  }

  lemma FirstInWindow(kept: seq<int>, max: int, now: int, window: int)
    requires LogOk(kept, max, now) && window >= 1
    requires forall i | 0 <= i < |kept| :: now - kept[i] < window
    ensures var first := if kept == [] then now else kept[0];
            0 <= now - first < window
  {
  }

  /** With a positive limit and window and a clock that never goes back,
      dispatch keeps the invariant, never faults, and its header values stay
      in range. */
  lemma {:induction false} DispatchKeepsValid(lim: Limiter, req: Request, before: int, now: int)
    requires Valid(lim, before) && before <= now
    ensures Valid(Dispatch(lim, req, now).0, now)
    ensures !Dispatch(lim, req, now).1.IndexFault?
    ensures Dispatch(lim, req, now).1.Admitted? ==>
              var o := Dispatch(lim, req, now).1;
              0 <= o.remaining < lim.config.maxRequests && now <= o.reset <= now + lim.config.windowSeconds
    ensures Dispatch(lim, req, now).1.Rejected? ==>
              var o := Dispatch(lim, req, now).1;
              0 < o.retryAfter <= lim.config.windowSeconds && o.reset == now + o.retryAfter
  {
    var cfg := lim.config;
    var max := cfg.maxRequests;
    var r := Dispatch(lim, req, now);
    forall k | k in lim.buckets
      ensures LogOk(lim.buckets[k], max, now)
    {
      assert LogOk(lim.buckets[k], max, before);
    }
    if !Bypassed(cfg, req) {
      var key := Identifier(cfg, req);
      var log := BucketOf(lim.buckets, key);
      assert LogOk(log, max, before);
      AdmitKeepsLogOk(cfg, log, before, now);
      AdmitInRange(cfg, log, before, now);
    }
  }

  /** Once the oldest entry is a full window old, the next request is admitted. */
  lemma {:induction false} WindowSlides(lim: Limiter, req: Request, before: int, now: int)
    requires Valid(lim, before) && before <= now
    requires !Bypassed(lim.config, req)
    requires var log := BucketOf(lim.buckets, Identifier(lim.config, req));
             log == [] || now - log[0] >= lim.config.windowSeconds
    ensures Dispatch(lim, req, now).1.Admitted?
  {
  }

  /** What a request at time `t` sees when the log holds `n` entries, all
      within one window of the oldest one, `oldest`. */
  function InWindowOutcome(cfg: Config, n: int, t: int, oldest: int): Outcome {
    if n < cfg.maxRequests
    then Admitted(cfg.maxRequests, cfg.maxRequests - n - 1, oldest + cfg.windowSeconds)
    else Rejected(oldest + cfg.windowSeconds - t, cfg.maxRequests, oldest + cfg.windowSeconds)
  }

  /** Cleanup keeps a log whose oldest entry is still inside the window. */
  lemma CleanupNoneExpired(log: seq<int>, now: int, window: int)
    requires log == [] || now - log[0] < window
    ensures Cleanup(log, now, window) == log
  {
  }

  /** Cleanup drops exactly the front entry when only it has expired. */
  lemma CleanupDropsFront(log: seq<int>, now: int, window: int)
    requires |log| >= 2 && now - log[0] >= window && now - log[1] < window
    ensures Cleanup(log, now, window) == log[1..]
  {
    assert log[1..][0] == log[1];
  }

  /** One request at time `t` on a log that starts at `oldest` (or is empty,
      with `t == oldest`) and lies within one window of `oldest`: nothing
      expires, and the reset stamp is `oldest` plus the window. */
  lemma AdmitInWindow(cfg: Config, log: seq<int>, t: int, oldest: int)
    requires if log == [] then t == oldest else log[0] == oldest
    requires oldest <= t < oldest + cfg.windowSeconds
    ensures Admit(cfg, log, t).0 == if |log| < cfg.maxRequests then log + [t] else log
    ensures log != [] || cfg.maxRequests >= 1 ==> Admit(cfg, log, t).1 == InWindowOutcome(cfg, |log|, t, oldest)
  {
    CleanupNoneExpired(log, t, cfg.windowSeconds);
    if |log| < cfg.maxRequests {
      assert (log + [t])[0] == oldest;
    }
  }

  /** Admission depends on the log only through what cleanup keeps. */
  lemma AdmitSeesKept(cfg: Config, log: seq<int>, now: int)
    ensures Admit(cfg, log, now) == Admit(cfg, Cleanup(log, now, cfg.windowSeconds), now)
  {
    CleanupNoneExpired(Cleanup(log, now, cfg.windowSeconds), now, cfg.windowSeconds);
  }

  /** `AdmitInWindow` seen through the middleware, for a request that is limited. */
  lemma DispatchInWindow(lim: Limiter, req: Request, t: int, oldest: int)
    requires !Bypassed(lim.config, req)
    requires var kept := Cleanup(BucketOf(lim.buckets, Identifier(lim.config, req)), t, lim.config.windowSeconds);
             (if kept == [] then t == oldest else kept[0] == oldest) && (kept != [] || lim.config.maxRequests >= 1)
    requires oldest <= t < oldest + lim.config.windowSeconds
    ensures var key := Identifier(lim.config, req);
            var kept := Cleanup(BucketOf(lim.buckets, key), t, lim.config.windowSeconds);
            var s := Dispatch(lim, req, t);
            && s.0.config == lim.config
            && BucketOf(s.0.buckets, key) == (if |kept| < lim.config.maxRequests then kept + [t] else kept)
            && s.1 == InWindowOutcome(lim.config, |kept|, t, oldest)
  {
    var log := BucketOf(lim.buckets, Identifier(lim.config, req));
    AdmitSeesKept(lim.config, log, t);
    AdmitInWindow(lim.config, Cleanup(log, t, lim.config.windowSeconds), t, oldest);
  }

  /** The first three requests, at t0, t0 + 1 and t0 + 2, on an empty bucket
      under a limit of 3 per 30 seconds: admitted with 2, 1, 0 remaining. */
  lemma ThreeAdmitted(lim: Limiter, req: Request, t0: int)
    requires lim.config.maxRequests == 3 && lim.config.windowSeconds == 30
    requires !Bypassed(lim.config, req)
    requires BucketOf(lim.buckets, Identifier(lim.config, req)) == []
    ensures var s1 := Dispatch(lim, req, t0);
            var s2 := Dispatch(s1.0, req, t0 + 1);
            var s3 := Dispatch(s2.0, req, t0 + 2);
            && s1.1 == Admitted(3, 2, t0 + 30)
            && s2.1 == Admitted(3, 1, t0 + 30)
            && s3.1 == Admitted(3, 0, t0 + 30)
            && s3.0.config == lim.config
            && BucketOf(s3.0.buckets, Identifier(lim.config, req)) == [t0, t0 + 1, t0 + 2]
  {
    var key := Identifier(lim.config, req);
    CleanupNoneExpired([], t0, 30);
    DispatchInWindow(lim, req, t0, t0);
    var s1 := Dispatch(lim, req, t0);
    var b1 := BucketOf(s1.0.buckets, key);
    assert b1 == [t0];
    CleanupNoneExpired(b1, t0 + 1, 30);
    DispatchInWindow(s1.0, req, t0 + 1, t0);
    var s2 := Dispatch(s1.0, req, t0 + 1);
    var b2 := BucketOf(s2.0.buckets, key);
    assert b2 == [t0, t0 + 1];
    CleanupNoneExpired(b2, t0 + 2, 30);
    DispatchInWindow(s2.0, req, t0 + 2, t0);
  }

  /** With the bucket holding t0, t0 + 1, t0 + 2 under a limit of 3 per 30
      seconds: a request at t0 + 3 is rejected with Retry-After 27, and one at
      t0 + 30, when the entry from t0 has expired, is admitted with its reset
      stamp set by the entry from t0 + 1. */
  lemma FullThenExpired(lim: Limiter, req: Request, t0: int)
    requires lim.config.maxRequests == 3 && lim.config.windowSeconds == 30
    requires !Bypassed(lim.config, req)
    requires BucketOf(lim.buckets, Identifier(lim.config, req)) == [t0, t0 + 1, t0 + 2]
    ensures var s4 := Dispatch(lim, req, t0 + 3);
            var s5 := Dispatch(s4.0, req, t0 + 30);
            && s4.1 == Rejected(27, 3, t0 + 30)
            && s5.1 == Admitted(3, 0, t0 + 31)
  {
    var key := Identifier(lim.config, req);
    var b3 := BucketOf(lim.buckets, key);
    CleanupNoneExpired(b3, t0 + 3, 30);
    DispatchInWindow(lim, req, t0 + 3, t0);
    var s4 := Dispatch(lim, req, t0 + 3);
    var b4 := BucketOf(s4.0.buckets, key);
    assert b4 == b3;
    assert s4.1 == Rejected(27, 3, t0 + 30);
    CleanupDropsFront(b4, t0 + 30, 30);
    var kept := Cleanup(b4, t0 + 30, 30);
    assert |kept| == 2 && kept[0] == t0 + 1;
    DispatchInWindow(s4.0, req, t0 + 30, t0 + 1);
    assert Dispatch(s4.0, req, t0 + 30).1 == InWindowOutcome(lim.config, 2, t0 + 30, t0 + 1);
  }

  /** Under a limit of 3 requests per 30 seconds, starting from an empty
      bucket at any time t0: requests at t0, t0 + 1, t0 + 2 are admitted with
      2, 1, 0 remaining and the one at t0 + 3 is rejected with Retry-After 27,
      every reset stamp being t0 + 30; at t0 + 30 the first entry has expired
      and a request is admitted again, its reset stamp now set by the second. */
  lemma ThreePerThirty(lim: Limiter, req: Request, t0: int)
    requires lim.config.maxRequests == 3 && lim.config.windowSeconds == 30
    requires !Bypassed(lim.config, req)
    requires BucketOf(lim.buckets, Identifier(lim.config, req)) == []
    ensures var s1 := Dispatch(lim, req, t0);
            var s2 := Dispatch(s1.0, req, t0 + 1);
            var s3 := Dispatch(s2.0, req, t0 + 2);
            var s4 := Dispatch(s3.0, req, t0 + 3);
            var s5 := Dispatch(s4.0, req, t0 + 30);
            && s1.1 == Admitted(3, 2, t0 + 30)
            && s2.1 == Admitted(3, 1, t0 + 30)
            && s3.1 == Admitted(3, 0, t0 + 30)
            && s4.1 == Rejected(27, 3, t0 + 30)
            && s5.1 == Admitted(3, 0, t0 + 31)
  {
    ThreeAdmitted(lim, req, t0);
    var s3 := Dispatch(Dispatch(Dispatch(lim, req, t0).0, req, t0 + 1).0, req, t0 + 2);
    FullThenExpired(s3.0, req, t0);
  }

  /** The deployed middleware (3 requests per 30 seconds, per host and path)
      for one client requesting the book list from a fresh start at t0
      behaves as `ThreePerThirty` says. */
  lemma DeployedExample(t0: int)
    ensures var lim := New(3, 30, "ip_path", Some({"/docs", "/openapi.json", "/redoc"}), None);
            var req := Request("GET", "/api/v1/books/", Some("10.0.0.7"));
            && lim.Ok?
            && lim.value.config.identifyBy == ByIpAndPath
            && !Bypassed(lim.value.config, req)
            && var s1 := Dispatch(lim.value, req, t0);
               var s2 := Dispatch(s1.0, req, t0 + 1);
               var s3 := Dispatch(s2.0, req, t0 + 2);
               var s4 := Dispatch(s3.0, req, t0 + 3);
               var s5 := Dispatch(s4.0, req, t0 + 30);
               && s1.1 == Admitted(3, 2, t0 + 30)
               && s2.1 == Admitted(3, 1, t0 + 30)
               && s3.1 == Admitted(3, 0, t0 + 30)
               && s4.1 == Rejected(27, 3, t0 + 30)
               && s5.1 == Admitted(3, 0, t0 + 31)
  {
    var lim := New(3, 30, "ip_path", Some({"/docs", "/openapi.json", "/redoc"}), None).value;
    var req := Request("GET", "/api/v1/books/", Some("10.0.0.7"));
    assert !Bypassed(lim.config, req);
    ThreePerThirty(lim, req, t0);
  }

  /** As written, a limit of 0 passes construction and the first limited
      request reads the oldest entry of an empty log. */
  lemma ZeroLimitFaults(now: int)
    ensures var lim := New(0, 60, "ip", None, None);
            && lim.Ok?
            && Dispatch(lim.value, Request("GET", "/api/v1/books/", Some("10.0.0.7")), now).1 == IndexFault
  {
    var lim := New(0, 60, "ip", None, None).value;
    var req := Request("GET", "/api/v1/books/", Some("10.0.0.7"));
    assert !Bypassed(lim.config, req);
    assert BucketOf(lim.buckets, Identifier(lim.config, req)) == [];
  }

  /** Request times that never go back. */
  predicate TimesInOrder(reqs: seq<(Request, int)>) {
    forall i, j | 0 <= i < j < |reqs| :: reqs[i].1 <= reqs[j].1
  }

  /** The middleware over a sequence of requests, each with its arrival
      time: the limiter afterwards and the outcome of every request. */
  function Run(lim: Limiter, reqs: seq<(Request, int)>): (r: (Limiter, seq<Outcome>))
    ensures |r.1| == |reqs|
    ensures reqs != [] ==> r.1[0] == Dispatch(lim, reqs[0].0, reqs[0].1).1
    decreases |reqs|
  {
    if reqs == [] then (lim, [])
    else
      var s := Dispatch(lim, reqs[0].0, reqs[0].1);
      var rest := Run(s.0, reqs[1..]);
      (rest.0, [s.1] + rest.1)
  }

  /** A run is its first dispatch followed by the run of the rest. */
  lemma RunUnfolds(lim: Limiter, reqs: seq<(Request, int)>)
    requires reqs != []
    ensures var s := Dispatch(lim, reqs[0].0, reqs[0].1);
            Run(lim, reqs).1 == [s.1] + Run(s.0, reqs[1..]).1
  {
  }

  /** Dropping the first request keeps the times in order. */
  lemma TailInOrder(reqs: seq<(Request, int)>)
    requires reqs != [] && TimesInOrder(reqs)
    ensures TimesInOrder(reqs[1..])
    ensures |reqs| >= 2 ==> reqs[0].1 <= reqs[1..][0].1
  {
    var tail := reqs[1..];
    forall i, j | 0 <= i < j < |tail|
      ensures tail[i].1 <= tail[j].1
    {
      assert tail[i] == reqs[i + 1] && tail[j] == reqs[j + 1];
    }
    if |reqs| >= 2 {
      assert tail[0] == reqs[1];
    }
  }

  /** No outcome in `outs` is a fault. */
  predicate NoFault(outs: seq<Outcome>) {
    forall i | 0 <= i < |outs| :: !outs[i].IndexFault?
  }

  lemma NoFaultCons(o: Outcome, rest: seq<Outcome>)
    requires !o.IndexFault? && NoFault(rest)
    ensures NoFault([o] + rest)
  {
    forall i | 0 <= i < |[o] + rest|
      ensures !([o] + rest)[i].IndexFault?
    {
      if i > 0 {
        assert ([o] + rest)[i] == rest[i - 1];
      }
    }
  }

  /** One dispatch from a valid state: valid afterwards, and no fault. */
  lemma StepNoFault(lim: Limiter, req: Request, before: int, now: int)
    requires Valid(lim, before) && before <= now
    ensures Valid(Dispatch(lim, req, now).0, now) && !Dispatch(lim, req, now).1.IndexFault?
  {
    DispatchKeepsValid(lim, req, before, now);
  }

  /** From a valid state, no request of an in-order run faults. */
  lemma {:induction false} RunNeverFaults(lim: Limiter, before: int, reqs: seq<(Request, int)>)
    requires Valid(lim, before)
    requires TimesInOrder(reqs)
    requires reqs != [] ==> before <= reqs[0].1
    ensures NoFault(Run(lim, reqs).1)
    decreases |reqs|
  {
    if reqs != [] {
      var t := reqs[0].1;
      var s := Dispatch(lim, reqs[0].0, t);
      StepNoFault(lim, reqs[0].0, before, t);
      TailInOrder(reqs);
      RunNeverFaults(s.0, t, reqs[1..]);
      RunUnfolds(lim, reqs);
      NoFaultCons(s.1, Run(s.0, reqs[1..]).1);
    }
  }

  /** A limiter from the checked constructor never faults, whatever the
      requests and however many, as long as their times never go back. */
  lemma CheckedNeverFaults(maxRequests: int, windowSeconds: int, identifyBy: string,
                           excludePaths: Option<set<string>>, includeMethods: Option<set<string>>,
                           reqs: seq<(Request, int)>)
    requires NewChecked(maxRequests, windowSeconds, identifyBy, excludePaths, includeMethods).Ok?
    requires TimesInOrder(reqs)
    ensures var lim := NewChecked(maxRequests, windowSeconds, identifyBy, excludePaths, includeMethods).value;
            forall i | 0 <= i < |reqs| :: !Run(lim, reqs).1[i].IndexFault?
  {
    var lim := NewChecked(maxRequests, windowSeconds, identifyBy, excludePaths, includeMethods).value;
    var start := if reqs == [] then 0 else reqs[0].1;
    assert lim.buckets == map[];
    assert Valid(lim, start);
    RunNeverFaults(lim, start, reqs);
  }
}

=== FILE: responses.dfy ===
/** Status mappings shared by several endpoints. */
module Responses {
  import opened Results
  import opened Store

  /** How `delete_author` and `delete_book` answer the service's outcome
      `d`: 204, 404 for the `not_found` `ValueError`, and 500 for anything
      else; a failure changes nothing. */
  function DeleteAnswer(db: Db, d: Result<Db, Failure>): (r: (Db, int))
    ensures r.1 == 204 <==> d.Ok?
    ensures r.1 == 404 <==> d == Err(NotFound)
    ensures r.1 == 500 <==> d.Err? && d.error != NotFound
    ensures r.1 == 204 ==> r.0 == d.value
    ensures r.1 != 204 ==> r.0 == db
  {
    match d
    case Ok(after) => (after, 204)
    case Err(NotFound) => (db, 404)
    case Err(_) => (db, 500)
  }
}

=== FILE: results.dfy ===
/** Optional values and success/failure results, standing in for Python's
    `None` and for the exceptions the modelled code raises. */
module Results {

  datatype Option<+T> = None | Some(value: T) {
    /** The wrapped value, or `default` for `None`. */
    function GetOr(default: T): T {
      match this
      case Some(v) => v
      case None => default
    }
  }

  datatype Result<+T, +E> = Ok(value: T) | Err(error: E)
}

=== FILE: store.dfy ===
/** The database behind the repositories, as immutable tables keyed by id.
    Ids come from per-table sequences. The schema's constraints are checked
    when a change is committed, as PostgreSQL checks them when the session
    flushes its writes: a breach refuses the whole change. */
module Store {
  import opened Results
  import opened Text

  /** A `books` row: genre is stored as its text value. */
  datatype Book = Book(title: string, genre: string, year: int, authorId: Option<int>, isbn: Option<string>)

  /** An `authors` row. */
  datatype Author = Author(name: string, biography: Option<string>)

  /** A `users` row: the password is stored hashed. */
  datatype User = User(username: string, passwordHash: string)

  datatype Db = Db(books: map<int, Book>, authors: map<int, Author>, users: map<int, User>,
                   nextBook: int, nextAuthor: int, nextUser: int)

  /** The failures the services signal (the `ValueError` codes), plus the
      database's refusal of a change. */
  datatype Failure =
    | NotFound | AuthorNotFound | IsbnConflict | Conflict | BadAuthorName | BadName
    | MultipleResults
    | IntegrityViolation

  /** Every stored id is below the next id its sequence hands out. */
  predicate IdsBelow(db: Db) {
    && (forall i | i in db.books :: i < db.nextBook)
    && (forall i | i in db.authors :: i < db.nextAuthor)
    && (forall i | i in db.users :: i < db.nextUser)
  }

  /** Two rows the `UNIQUE` constraint on `isbn` lets coexist; NULLs never clash. */
  predicate IsbnsApart(x: Book, y: Book) {
    x.isbn.None? || x.isbn != y.isbn
  }

  /** Two rows the unique index on `(lower(title), author_id)` lets coexist;
      a NULL author never clashes. */
  predicate TitlesApart(x: Book, y: Book) {
    x.authorId.None? || x.authorId != y.authorId || Lower(x.title) != Lower(y.title)
  }

  /** Two rows both uniqueness rules let coexist. */
  predicate Apart(x: Book, y: Book) {
    IsbnsApart(x, y) && TitlesApart(x, y)
  }

  predicate IsbnUnique(books: map<int, Book>) {
    forall i, j | i in books && j in books && i != j :: IsbnsApart(books[i], books[j])
  }

  predicate TitleAuthorUnique(books: map<int, Book>) {
    forall i, j | i in books && j in books && i != j :: TitlesApart(books[i], books[j])
  }

  /** Book `b` clashes with no row of `books` other than `except`. */
  predicate FitsAmong(books: map<int, Book>, b: Book, except: int) {
    forall i | i in books && i != except :: Apart(b, books[i]) && Apart(books[i], b)
  }

  /** The foreign key from `books.author_id` to `authors.id`. */
  predicate AuthorsExist(db: Db) {
    forall i | i in db.books && db.books[i].authorId.Some? :: db.books[i].authorId.value in db.authors
  }

  /** The constraints the database enforces. */
  predicate Constraints(db: Db) {
    IsbnUnique(db.books) && TitleAuthorUnique(db.books) && AuthorsExist(db)
  }

  /** A reachable database state. */
  predicate Valid(db: Db) {
    Constraints(db) && IdsBelow(db)
  }

  /** `session.commit()`: the new state if it meets the constraints, otherwise
      the change is refused. */
  function Commit(db: Db): (r: Result<Db, Failure>)
    ensures r.Ok? <==> Constraints(db)
    ensures r.Ok? ==> r.value == db
    ensures r.Err? ==> r.error == IntegrityViolation
  {
    if Constraints(db) then Ok(db) else Err(IntegrityViolation)
  }

  /** A new book takes the next id. */
  function AddBook(db: Db, b: Book): (r: (Db, int))
    ensures r.1 == db.nextBook && r.0.books == db.books[r.1 := b]
    ensures r.0.nextBook == r.1 + 1
    ensures r.0.authors == db.authors && r.0.users == db.users
    ensures r.0.nextAuthor == db.nextAuthor && r.0.nextUser == db.nextUser
  {
    (db.(books := db.books[db.nextBook := b], nextBook := db.nextBook + 1), db.nextBook)
  }

  /** A new author takes the next id. */
  function AddAuthor(db: Db, a: Author): (r: (Db, int))
    ensures r.1 == db.nextAuthor && r.0.authors == db.authors[r.1 := a]
    ensures r.0.nextAuthor == r.1 + 1
    ensures r.0.books == db.books && r.0.users == db.users
    ensures r.0.nextBook == db.nextBook && r.0.nextUser == db.nextUser
  {
    (db.(authors := db.authors[db.nextAuthor := a], nextAuthor := db.nextAuthor + 1), db.nextAuthor)
  }

  /** A new user takes the next id. */
  function AddUser(db: Db, u: User): (r: (Db, int))
    ensures r.1 == db.nextUser && r.0.users == db.users[r.1 := u]
    ensures r.0.nextUser == r.1 + 1
    ensures r.0.books == db.books && r.0.authors == db.authors
    ensures r.0.nextBook == db.nextBook && r.0.nextAuthor == db.nextAuthor
  {
    (db.(users := db.users[db.nextUser := u], nextUser := db.nextUser + 1), db.nextUser)
  }

  /** Writing book `b` under `id` keeps the constraints when `b` clashes with
      no other row and names an existing author, if any. */
  lemma PutBookKeepsConstraints(db: Db, id: int, b: Book)
    requires Constraints(db)
    requires FitsAmong(db.books, b, id)
    requires b.authorId.Some? ==> b.authorId.value in db.authors
    ensures Constraints(db.(books := db.books[id := b]))
  {
    var books := db.books[id := b];
    forall i, j | i in books && j in books && i != j
      ensures Apart(books[i], books[j])
    {
      if i != id && j != id {
        assert books[i] == db.books[i] && books[j] == db.books[j];
      }
    }
  }

  /** Adding a book that clashes with no stored book keeps the database valid. */
  lemma AddBookKeepsValid(db: Db, b: Book)
    requires Valid(db)
    requires FitsAmong(db.books, b, db.nextBook)
    requires b.authorId.Some? ==> b.authorId.value in db.authors
    ensures Valid(AddBook(db, b).0)
  {
    PutBookKeepsConstraints(db, db.nextBook, b);
  }

  /** Rewriting a stored book so that it clashes with no other book keeps the database valid. */
  lemma ReplaceBookKeepsValid(db: Db, id: int, b: Book)
    requires Valid(db) && id in db.books
    requires FitsAmong(db.books, b, id)
    requires b.authorId.Some? ==> b.authorId.value in db.authors
    ensures Valid(db.(books := db.books[id := b]))
  {
    PutBookKeepsConstraints(db, id, b);
  }

  /** Adding an author keeps the database valid. */
  lemma AddAuthorKeepsValid(db: Db, a: Author)
    requires Valid(db)
    ensures Valid(AddAuthor(db, a).0)
  {
    var db' := AddAuthor(db, a).0;
    assert AuthorsExist(db') by {
      forall i | i in db'.books && db'.books[i].authorId.Some?
        ensures db'.books[i].authorId.value in db'.authors
      {
        assert db'.books[i] == db.books[i];
      }
    }
  }

  /** Rewriting a stored author keeps the database valid. */
  lemma ReplaceAuthorKeepsValid(db: Db, id: int, a: Author)
    requires Valid(db) && id in db.authors
    ensures Valid(db.(authors := db.authors[id := a]))
  {
    var db' := db.(authors := db.authors[id := a]);
    assert AuthorsExist(db') by {
      forall i | i in db'.books && db'.books[i].authorId.Some?
        ensures db'.books[i].authorId.value in db'.authors
      {
        assert db'.books[i] == db.books[i];
      }
    }
  }
}

=== FILE: text.dfy ===
/** String helpers shared by the validators, repositories and the SQL builder:
    Python's whitespace class, ASCII case mapping, `str.strip`, SQL `LIKE`
    matching and code-point lexicographic order. */
module Text {
  import opened Results

  /** Python's `str.isspace` (and the `\s` class of `re` on `str` patterns). */
  predicate IsSpace(c: char) {
    || c == ' ' || c == '\t' || c == '\n' || c == '\r'
    || c == '\U{B}' || c == '\U{C}'
    || ('\U{1C}' <= c <= '\U{1F}')
    || c == '\U{85}' || c == '\U{A0}' || c == '\U{1680}'
    || ('\U{2000}' <= c <= '\U{200A}')
    || c == '\U{2028}' || c == '\U{2029}' || c == '\U{202F}' || c == '\U{205F}' || c == '\U{3000}'
  }

  /** ASCII decimal digit; non-ASCII digits are out of scope. */
  predicate IsDigit(c: char) {
    '0' <= c <= '9'
  }

  predicate IsLowerAscii(c: char) {
    'a' <= c <= 'z'
  }

  predicate IsUpperAscii(c: char) {
    'A' <= c <= 'Z'
  }

  /** True when every character is whitespace: Python's `not s.strip()`. */
  predicate IsBlank(s: string) {
    forall i :: 0 <= i < |s| ==> IsSpace(s[i])
  }

  /** Python truthiness of an optional string: `None` and `""` are false. */
  predicate Truthy(v: Option<string>) {
    v.Some? && v.value != ""
  }

  predicate AllDigits(s: string) {
    forall i :: 0 <= i < |s| ==> IsDigit(s[i])
  }

  /** The decimal digit for `d`. */
  function DigitChar(d: int): (c: char)
    requires 0 <= d < 10
    ensures IsDigit(c) && c as int - '0' as int == d
  {
    ('0' as int + d) as char
  }

  /** The decimal digits of `n`, most significant first, with no leading zero. */
  function NatDigits(n: nat): (r: string)
    ensures r != [] && AllDigits(r)
    ensures |r| > 1 ==> r[0] != '0'
    decreases n
  {
    if n < 10 then [DigitChar(n)] else NatDigits(n / 10) + [DigitChar(n % 10)]
  }

  /** Python's `str()` of an integer: a `-` for negatives, then the digits. */
  function Decimal(n: int): (r: string)
    ensures n >= 0 ==> r == NatDigits(n)
    ensures n < 0 ==> r == "-" + NatDigits(-n)
  {
    if n < 0 then "-" + NatDigits(-n) else NatDigits(n)
  }

  /** The value a string of decimal digits denotes. */
  function DigitsValue(s: string): (v: nat)
    requires AllDigits(s)
  {
    if s == [] then 0 else DigitsValue(s[..|s| - 1]) * 10 + (s[|s| - 1] as int - '0' as int)
  }

  /** Reading the digits back gives the number. */
  lemma {:induction false} NatDigitsValue(n: nat)
    ensures DigitsValue(NatDigits(n)) == n
    decreases n
  {
    if n >= 10 {
      var r := NatDigits(n);
      assert r[..|r| - 1] == NatDigits(n / 10);
      NatDigitsValue(n / 10);
    }
  }

  function UpperChar(c: char): (u: char)
    ensures !IsLowerAscii(u)
    ensures IsLowerAscii(c) ==> IsUpperAscii(u)
    ensures !IsLowerAscii(c) ==> u == c
  {
    if IsLowerAscii(c) then (c as int - 32) as char else c
  }

  function LowerChar(c: char): (l: char)
    ensures !IsUpperAscii(l)
    ensures IsUpperAscii(c) ==> IsLowerAscii(l)
    ensures !IsUpperAscii(c) ==> l == c
  {
    if IsUpperAscii(c) then (c as int + 32) as char else c
  }

  /** `str.upper()` restricted to ASCII letters. */
  function Upper(s: string): (r: string)
    ensures |r| == |s|
    ensures forall i :: 0 <= i < |s| ==> r[i] == UpperChar(s[i])
  {
    seq(|s|, i requires 0 <= i < |s| => UpperChar(s[i]))
  }

  /** `str.lower()` / SQL `lower()` restricted to ASCII letters. */
  function Lower(s: string): (r: string)
    ensures |r| == |s|
    ensures forall i :: 0 <= i < |s| ==> r[i] == LowerChar(s[i])
  {
    seq(|s|, i requires 0 <= i < |s| => LowerChar(s[i]))
  }

  /** Drops leading whitespace. */
  function TrimStart(s: string): (r: string)
    ensures |r| <= |s| && r == s[|s| - |r|..]
    ensures IsBlank(s[..|s| - |r|])
    ensures r == [] || !IsSpace(r[0])
  {
    if s == [] || !IsSpace(s[0]) then s
    else
      var r := TrimStart(s[1..]);
      assert s[1..][..|s| - 1 - |r|] == s[1..|s| - |r|];
      r
  }

  /** Drops trailing whitespace. */
  function TrimEnd(s: string): (r: string)
    ensures |r| <= |s| && r == s[..|r|]
    ensures IsBlank(s[|r|..])
    ensures r == [] || !IsSpace(r[|r| - 1])
  {
    if s == [] || !IsSpace(s[|s| - 1]) then s
    else
      var r := TrimEnd(s[..|s| - 1]);
      assert s[..|s| - 1][|r|..] == s[|r|..|s| - 1];
      r
  }

  /** Python's `str.strip()` with no argument. */
  function Strip(s: string): (r: string)
    ensures r == [] || (!IsSpace(r[0]) && !IsSpace(r[|r| - 1]))
    ensures r == [] <==> IsBlank(s)
    ensures exists k :: StrippedAt(s, r, k)
  {
    var a := TrimStart(s);
    var r := TrimEnd(a);
    TrimBoth(s, a, r);
    BlankAround(s, r, |s| - |a|);
    r
  }

  /** `r` sits in `s` at offset `k` with only whitespace around it. */
  predicate StrippedAt(s: string, r: string, k: int) {
    && 0 <= k && k + |r| <= |s|
    && s[k..k + |r|] == r
    && IsBlank(s[..k])
    && IsBlank(s[k + |r|..])
  }

  /** A prefix of a suffix of `s`, each cut off at whitespace only, is stripped. */
  lemma TrimBoth(s: string, a: string, r: string)
    requires |a| <= |s| && a == s[|s| - |a|..] && IsBlank(s[..|s| - |a|])
    requires |r| <= |a| && r == a[..|r|] && IsBlank(a[|r|..])
    ensures StrippedAt(s, r, |s| - |a|)
  {
    var k := |s| - |a|;
    assert s[k..k + |r|] == a[..|r|];
    assert s[k + |r|..] == a[|r|..];
  }

  /** A stripped part is empty exactly when the whole string is whitespace. */
  lemma BlankAround(s: string, r: string, k: int)
    requires StrippedAt(s, r, k)
    requires r == [] || !IsSpace(r[0])
    ensures r == [] <==> IsBlank(s)
  {
    if r == [] {
      forall i | 0 <= i < |s|
        ensures IsSpace(s[i])
      {
        if i < k {
          assert s[..k][i] == s[i];
        } else {
          assert s[k..][i - k] == s[i];
        }
      }
    } else {
      assert s[k..k + |r|][0] == s[k];
    }
  }

  /** Leading whitespace in front of a non-whitespace start is all `TrimStart` drops. */
  lemma {:induction false} TrimStartPadded(p: string, y: string)
    requires IsBlank(p)
    requires y == [] || !IsSpace(y[0])
    ensures TrimStart(p + y) == y
  {
    if p == [] {
      assert p + y == y;
    } else {
      assert (p + y)[0] == p[0];
      assert (p + y)[1..] == p[1..] + y;
      TrimStartPadded(p[1..], y);
    }
  }

  /** Trailing whitespace after a non-whitespace end is all `TrimEnd` drops. */
  lemma {:induction false} TrimEndPadded(y: string, q: string)
    requires IsBlank(q)
    requires y == [] || !IsSpace(y[|y| - 1])
    ensures TrimEnd(y + q) == y
    decreases |q|
  {
    if q == [] {
      assert y + q == y;
    } else {
      var n := |y + q|;
      assert (y + q)[n - 1] == q[|q| - 1];
      assert (y + q)[..n - 1] == y + q[..|q| - 1];
      TrimEndPadded(y, q[..|q| - 1]);
    }
  }

  /** A part with non-whitespace ends, surrounded only by whitespace, is what
      `strip()` returns. */
  lemma StripUnique(s: string, r: string, k: int)
    requires StrippedAt(s, r, k)
    requires r != [] && !IsSpace(r[0]) && !IsSpace(r[|r| - 1])
    ensures Strip(s) == r
  {
    var p, q := s[..k], s[k + |r|..];
    assert s == p + (r + q);
    TrimStartPadded(p, r + q);
    TrimEndPadded(r, q);
  }

  /** Stripping twice is stripping once. */
  lemma StripIdempotent(s: string)
    ensures Strip(Strip(s)) == Strip(s)
  {
    var r := Strip(s);
    assert TrimStart(r) == r;
    assert TrimEnd(r) == r;
  }

  /** `ch` does not occur in `s`. */
  predicate Lacks(s: string, ch: char) {
    forall i :: 0 <= i < |s| ==> s[i] != ch
  }

  /** Text `LIKE` reads literally: neither `%`, `_` nor the escape `\` occurs. */
  predicate NoWildcards(s: string) {
    Lacks(s, '%') && Lacks(s, '_') && Lacks(s, '\\')
  }

  /** SQL `LIKE`: `%` matches any run of characters, `_` exactly one, `\`
      followed by a character matches that character, and every other
      pattern character matches itself. A trailing lone `\` matches nothing. */
  predicate Like(s: string, p: string)
    decreases |p|, |s|
  {
    if p == [] then s == []
    else if p[0] == '%' then Like(s, p[1..]) || (s != [] && Like(s[1..], p))
    else if p[0] == '\\' then |p| >= 2 && s != [] && p[1] == s[0] && Like(s[1..], p[2..])
    else s != [] && (p[0] == '_' || p[0] == s[0]) && Like(s[1..], p[1..])
  }

  /** `q` with every character escaped. */
  function Escape(q: string): (r: string)
    ensures |r| == 2 * |q|
  {
    if q == [] then []
    else ['\\', q[0]] + Escape(q[1..])
  }

  /** An escaped pattern matches its text and nothing else, wildcards included. */
  lemma {:induction false} EscapeLiteral(t: string, q: string)
    ensures Like(t, Escape(q)) <==> t == q
  {
    if q != [] {
      var p := Escape(q);
      assert p[0] == '\\' && p[1] == q[0] && p[2..] == Escape(q[1..]);
      if t != [] {
        EscapeLiteral(t[1..], q[1..]);
        assert t == [t[0]] + t[1..] && q == [q[0]] + q[1..];
      }
    }
  }

  /** PostgreSQL `ILIKE`: `LIKE` after case folding both sides. */
  predicate ILike(s: string, p: string) {
    Like(Lower(s), Lower(p))
  }

  /** `q` occurs in `s` starting at offset `k`. */
  predicate OccursAt(q: string, s: string, k: int) {
    0 <= k && k + |q| <= |s| && s[k..k + |q|] == q
  }

  predicate IsSubstring(q: string, s: string) {
    exists k | 0 <= k <= |s| :: OccursAt(q, s, k)
  }

  /** The pattern `%` matches every string. */
  lemma {:induction false} PercentMatchesAll(s: string)
    ensures Like(s, "%")
  {
    if s != [] {
      PercentMatchesAll(s[1..]);
    }
  }

  /** For wildcard-free `q`, `q%` matches exactly the strings that start with `q`. */
  lemma {:induction false} PrefixPattern(q: string, t: string)
    requires NoWildcards(q)
    ensures Like(t, q + "%") <==> (|q| <= |t| && t[..|q|] == q)
  {
    if q == [] {
      PercentMatchesAll(t);
      assert q + "%" == "%";
    } else {
      assert (q + "%")[0] == q[0];
      assert (q + "%")[1..] == q[1..] + "%";
      assert q[0] != '%' && q[0] != '_' && q[0] != '\\';
      if t != [] {
        PrefixPattern(q[1..], t[1..]);
        if |q| <= |t| && t[..|q|] == q {
          assert t[1..][..|q| - 1] == q[1..];
        }
        if |q| <= |t| && t[0] == q[0] && t[1..][..|q| - 1] == q[1..] {
          assert t[..|q|] == [t[0]] + t[1..][..|q| - 1];
        }
      }
    }
  }

  /** `s` has a suffix starting at `k` that matches `p`. */
  predicate SuffixMatches(s: string, p: string, k: int) {
    0 <= k <= |s| && Like(s[k..], p)
  }

  /** A leading `%` lets the rest of the pattern match any suffix. */
  lemma {:induction false} LeadingPercent(s: string, p: string)
    ensures Like(s, "%" + p) <==> exists k :: SuffixMatches(s, p, k)
  {
    var pp := "%" + p;
    assert pp[0] == '%' && pp[1..] == p;
    if s == [] {
      if exists k :: SuffixMatches(s, p, k) {
        var k :| SuffixMatches(s, p, k);
        assert k == 0 && s[k..] == s;
      }
      assert SuffixMatches(s, p, 0) <== Like(s, p);
    } else {
      LeadingPercent(s[1..], p);
      assert s[0..] == s;
      if Like(s, pp) {
        if Like(s, p) {
          assert SuffixMatches(s, p, 0);
        } else {
          var k :| SuffixMatches(s[1..], p, k);
          assert s[1..][k..] == s[k + 1..];
          assert SuffixMatches(s, p, k + 1);
        }
      }
      if exists k :: SuffixMatches(s, p, k) {
        var k :| SuffixMatches(s, p, k);
        if k > 0 {
          assert s[1..][k - 1..] == s[k..];
          assert SuffixMatches(s[1..], p, k - 1);
        }
      }
    }
  }

  /** For wildcard-free `q`, `%q%` is a plain substring test. */
  lemma ContainsPattern(s: string, q: string)
    requires NoWildcards(q)
    ensures Like(s, "%" + q + "%") <==> IsSubstring(q, s)
  {
    assert "%" + q + "%" == "%" + (q + "%");
    LeadingPercent(s, q + "%");
    if IsSubstring(q, s) {
      var k :| 0 <= k <= |s| && OccursAt(q, s, k);
      PrefixPattern(q, s[k..]);
      assert s[k..][..|q|] == s[k..k + |q|];
      assert SuffixMatches(s, q + "%", k);
    }
    if exists k :: SuffixMatches(s, q + "%", k) {
      var k :| SuffixMatches(s, q + "%", k);
      PrefixPattern(q, s[k..]);
      assert s[k..][..|q|] == s[k..k + |q|];
      assert OccursAt(q, s, k);
    }
  }

  /** Case-insensitive substring test: what `ILIKE '%q%'` means for wildcard-free `q`. */
  lemma ContainsIgnoringCase(s: string, q: string)
    requires NoWildcards(q)
    ensures ILike(s, "%" + q + "%") <==> IsSubstring(Lower(q), Lower(s))
  {
    var lq := Lower(q);
    assert Lower("%" + q + "%") == "%" + lq + "%";
    assert NoWildcards(lq) by {
      forall i | 0 <= i < |lq| ensures lq[i] != '%' && lq[i] != '_' && lq[i] != '\\' {
        assert lq[i] == LowerChar(q[i]);
      }
    }
    ContainsPattern(Lower(s), lq);
  }

  /** Code-point lexicographic order (SQL `ORDER BY` under the C collation). */
  predicate LexLess(a: string, b: string)
    decreases |a|
  {
    if a == [] then b != []
    else if b == [] then false
    else a[0] < b[0] || (a[0] == b[0] && LexLess(a[1..], b[1..]))
  }

  lemma {:induction false} LexLessIrreflexive(a: string)
    ensures !LexLess(a, a)
  {
    if a != [] {
      LexLessIrreflexive(a[1..]);
    }
  }

  lemma {:induction false} LexLessTransitive(a: string, b: string, c: string)
    requires LexLess(a, b) && LexLess(b, c)
    ensures LexLess(a, c)
  {
    if a != [] && b != [] && c != [] && a[0] == b[0] && b[0] == c[0] {
      LexLessTransitive(a[1..], b[1..], c[1..]);
    }
  }

  lemma {:induction false} LexLessTotal(a: string, b: string)
    requires a != b
    ensures LexLess(a, b) || LexLess(b, a)
  {
    if a != [] && b != [] && a[0] == b[0] {
      assert a == [a[0]] + a[1..] && b == [b[0]] + b[1..];
      LexLessTotal(a[1..], b[1..]);
    }
  }
}

=== FILE: user_routes.dfy ===
/** The user endpoints: the `UserCreate` and `UserEventIn` payload checks,
    the recording of a reading event, and the status each service outcome is
    answered with. Password hashing happens outside the model: the routes
    receive the hash. A failure leaves the database as it was. */
module UserRoutes {
  import opened Results
  import opened Text
  import opened Store
  import UserService

  // Payloads

  /** `UserCreate`: a username of 3 to 50 characters and a password of at
      least 6; anything else is answered 422. */
  function ValidateUser(username: string, password: string): (r: Result<(string, string), int>)
    ensures r.Ok? <==> 3 <= |username| <= 50 && |password| >= 6
    ensures r.Ok? ==> r.value == (username, password)
    ensures r.Err? ==> r.error == 422
  {
    if 3 <= |username| <= 50 && 6 <= |password| then Ok((username, password)) else Err(422)
  }

  /** The event kinds `_event_ok` allows. */
  predicate EventKind(e: string) {
    e == "view" || e == "like" || e == "rate"
  }

  /** A stored `UserBookEvent` row. */
  datatype Event = Event(username: string, bookId: int, event: string, rating: Option<int>)

  /** The two CHECK constraints of `user_book_events`. */
  predicate ChecksHold(e: Event) {
    && EventKind(e.event)
    && (e.rating.None? || 1 <= e.rating.value <= 5)
  }

  /** `UserEventIn`: the rating, when given, lies in 1..5, the event is one
      of the allowed kinds, and `rate` comes with a rating; otherwise 422. */
  function ValidateEvent(bookId: int, event: string, rating: Option<int>): (r: Result<(int, string, Option<int>), int>)
    ensures r.Ok? <==> && EventKind(event)
                       && (rating.None? || 1 <= rating.value <= 5)
                       && (event == "rate" ==> rating.Some?)
    ensures r.Ok? ==> r.value == (bookId, event, rating)
    ensures r.Err? ==> r.error == 422
  {
    if rating.Some? && !(1 <= rating.value <= 5) then Err(422)
    else if !EventKind(event) then Err(422)
    else if event == "rate" && rating.None? then Err(422)
    else Ok((bookId, event, rating))
  }

  /** An accepted payload always meets the table's CHECK constraints. */
  lemma AcceptedEventChecks(username: string, bookId: int, event: string, rating: Option<int>)
    requires ValidateEvent(bookId, event, rating).Ok?
    ensures ChecksHold(Event(username, bookId, event, rating))
  {
  }

  /** Views and likes are accepted with or without a valid rating, and a
      rating alone never makes an unknown event kind acceptable. */
  lemma ViewAndLikeRatingOptional(bookId: int, rating: Option<int>)
    requires rating.None? || 1 <= rating.value <= 5
    ensures ValidateEvent(bookId, "view", rating).Ok?
    ensures ValidateEvent(bookId, "like", rating).Ok?
    ensures ValidateEvent(bookId, "rate", rating).Ok? <==> rating.Some?
  {
  }

  /** `add_user_event` on an accepted payload: 401 without a username in
      the token, 404 when the id lookup finds nothing truthy (no such book,
      or a stored book whose id is 0, since `.scalar()` returns the id
      itself), 500 if the database refuses the row, and otherwise 204 with
      the event recorded. */
  function AddEvent(db: Db, events: seq<Event>, sub: Option<string>, bookId: int, event: string, rating: Option<int>)
    : (r: (seq<Event>, int))
    ensures r.1 in {204, 401, 404, 500}
    ensures r.1 == 401 <==> !Truthy(sub)
    ensures r.1 == 404 <==> Truthy(sub) && (bookId == 0 || bookId !in db.books)
    ensures r.1 == 204 ==> r.0 == events + [Event(sub.value, bookId, event, rating)] && ChecksHold(r.0[|events|])
    ensures r.1 != 204 ==> r.0 == events
  {
    if !Truthy(sub) then (events, 401)
    else if bookId == 0 || bookId !in db.books then (events, 404)
    else
      var e := Event(sub.value, bookId, event, rating);
      if !ChecksHold(e) then (events, 500)
      else (events + [e], 204)
  }

  /** A payload the schema accepts, from a signed-in user, about an existing
      book with a non-zero id is always recorded. */
  lemma AcceptedEventRecorded(db: Db, events: seq<Event>, sub: Option<string>, bookId: int, event: string, rating: Option<int>)
    requires ValidateEvent(bookId, event, rating).Ok?
    requires Truthy(sub) && bookId in db.books && bookId != 0
    ensures AddEvent(db, events, sub, bookId, event, rating).1 == 204
  {
    AcceptedEventChecks(sub.value, bookId, event, rating);
  }

  /** A stored book with id 0 is answered 404 all the same: the lookup
      returns the id, and 0 is falsy. */
  lemma BookZeroNotFound(db: Db, events: seq<Event>, sub: Option<string>, event: string, rating: Option<int>)
    requires Truthy(sub) && 0 in db.books
    ensures AddEvent(db, events, sub, 0, event, rating) == (events, 404)
  {
  }

  // Accounts

  /** `get_user_by_id`: the stored user, or 404. */
  function Get(db: Db, id: int): (r: Result<User, int>)
    ensures r.Ok? <==> id in db.users
    ensures r.Ok? ==> r.value == db.users[id]
    ensures r.Err? ==> r.error == 404
  {
    match UserService.GetOr404(db, id)
    case Ok(u) => Ok(u)
    case Err(_) => Err(404)
  }

  /** How `register_user` answers the service's outcome `c`: 200 with the
      new user, 409 for the `conflict` `ValueError`, and 500 for anything
      else; a failure changes nothing. */
  function RegisterAnswer(db: Db, c: Result<(Db, int), Failure>): (r: (Db, int))
    ensures r.1 == 200 <==> c.Ok?
    ensures r.1 == 409 <==> c == Err(Conflict)
    ensures r.1 == 500 <==> c.Err? && c.error != Conflict
    ensures r.1 == 200 ==> r.0 == c.value.0
    ensures r.1 != 200 ==> r.0 == db
  {
    match c
    case Ok((d, _)) => (d, 200)
    case Err(Conflict) => (db, 409)
    case Err(_) => (db, 500)
  }

  /** `register_user`, given the password's hash. */
  function Register(db: Db, username: string, passwordHash: string): (Db, int) {
    RegisterAnswer(db, UserService.Register(db, username, passwordHash))
  }

  /** On a valid database registering is never answered 500: 409 means
      exactly that the username is taken, and a new user leaves the
      database valid. */
  lemma RegisterOutcome(db: Db, username: string, passwordHash: string)
    requires Valid(db)
    ensures Register(db, username, passwordHash).1 in {200, 409}
    ensures Register(db, username, passwordHash).1 == 409 <==> exists i | i in db.users :: db.users[i].username == username
    ensures Register(db, username, passwordHash).1 == 200 ==> Valid(Register(db, username, passwordHash).0)
  {
    UserService.RegisterKeepsValid(db, username, passwordHash);
  }

  /** How `update_user` answers the service's outcome `u`: 200 with the
      stored user, 404 for `not_found`, 409 for `conflict`, and 500 for
      anything else; a failure changes nothing. */
  function UpdateAnswer(db: Db, u: Result<Db, Failure>): (r: (Db, int))
    ensures r.1 == 200 <==> u.Ok?
    ensures r.1 == 404 <==> u == Err(NotFound)
    ensures r.1 == 409 <==> u == Err(Conflict)
    ensures r.1 == 500 <==> u.Err? && u.error !in {NotFound, Conflict}
    ensures r.1 == 200 ==> r.0 == u.value
    ensures r.1 != 200 ==> r.0 == db
  {
    match u
    case Ok(d) => (d, 200)
    case Err(NotFound) => (db, 404)
    case Err(Conflict) => (db, 409)
    case Err(_) => (db, 500)
  }

  /** `update_user`, given the new password's hash. */
  function Update(db: Db, id: int, username: string, passwordHash: string): (Db, int) {
    UpdateAnswer(db, UserService.Update(db, id, username, passwordHash))
  }

  /** On a valid database with unique usernames updating is never answered
      500: 404 means exactly a missing user, 409 exactly that another user
      holds the username, and an accepted update leaves the database valid. */
  lemma UpdateOutcome(db: Db, id: int, username: string, passwordHash: string)
    requires Valid(db) && UserService.UsernamesUnique(db.users)
    ensures Update(db, id, username, passwordHash).1 in {200, 404, 409}
    ensures Update(db, id, username, passwordHash).1 == 404 <==> id !in db.users
    ensures Update(db, id, username, passwordHash).1 == 409
            <==> id in db.users && exists i | i in db.users :: i != id && db.users[i].username == username
    ensures Update(db, id, username, passwordHash).1 == 200 ==> Valid(Update(db, id, username, passwordHash).0)
  {
    UserService.UpdateKeepsValid(db, id, username, passwordHash);
    if id in db.users {
      UserService.UpdateConflictMeaning(db, id, username, passwordHash);
    }
  }

  /** How `delete_user` answers the service's outcome `d`: 200 with the
      removed user, 404 for `not_found`, and 500 for anything else; a
      failure changes nothing. */
  function DeleteAnswer(db: Db, d: Result<(Db, User), Failure>): (r: (Db, int))
    ensures r.1 == 200 <==> d.Ok?
    ensures r.1 == 404 <==> d == Err(NotFound)
    ensures r.1 == 500 <==> d.Err? && d.error != NotFound
    ensures r.1 == 200 ==> r.0 == d.value.0
    ensures r.1 != 200 ==> r.0 == db
  {
    match d
    case Ok((after, _)) => (after, 200)
    case Err(NotFound) => (db, 404)
    case Err(_) => (db, 500)
  }

  /** `delete_user`. */
  function Delete(db: Db, id: int): (Db, int) {
    DeleteAnswer(db, UserService.Delete(db, id))
  }

  /** On a valid database deleting answers 200 exactly when the user exists,
      and 404 otherwise; the database stays valid. */
  lemma DeleteOutcome(db: Db, id: int)
    requires Valid(db)
    ensures Delete(db, id).1 == (if id in db.users then 200 else 404)
    ensures Valid(Delete(db, id).0)
  {
    if id in db.users {
      UserService.DeleteKeepsValid(db, id);
    }
  }
}

=== FILE: user_service.dfy ===
/** `UserService` and the lookup by username it relies on: registration and
    renaming are refused when another user already has the username. */
module UserService {
  import opened Results
  import opened Store
  import Ordering

  /** `get_or_404`. */
  function GetOr404(db: Db, id: int): (r: Result<User, Failure>)
    ensures r.Err? <==> id !in db.users
    ensures r.Err? ==> r.error == NotFound
    ensures r.Ok? ==> id in db.users && r.value == db.users[id]
  {
    if id in db.users then Ok(db.users[id]) else Err(NotFound)
  }

  /** `get_by_username`: a user with exactly this username, the least id when several share it. */
  function ByUsername(db: Db, username: string): (r: Option<int>)
    ensures r.Some? ==> r.value in db.users && db.users[r.value].username == username
    ensures r.Some? ==> forall i | i in db.users && db.users[i].username == username :: r.value <= i
    ensures r.None? <==> forall i | i in db.users :: db.users[i].username != username
  {
    var s := set i | i in db.users && db.users[i].username == username;
    assert forall i | i in db.users && db.users[i].username == username :: i in s;
    Ordering.First(s)
  }

  /** No two users share a username. */
  predicate UsernamesUnique(users: map<int, User>) {
    forall i, j | i in users && j in users && i != j :: users[i].username != users[j].username
  }

  /** Writing a user whose username no other user holds keeps usernames unique. */
  lemma PutKeepsUsernamesUnique(users: map<int, User>, id: int, u: User)
    requires UsernamesUnique(users)
    requires forall i | i in users && i != id :: users[i].username != u.username
    ensures UsernamesUnique(users[id := u])
  {
    var m := users[id := u];
    forall i, j | i in m && j in m && i != j
      ensures m[i].username != m[j].username
    {
      if i != id && j != id {
        assert m[i] == users[i] && m[j] == users[j];
      }
    }
  }

  /** Changing only the users table keeps the database valid. */
  lemma UsersOnlyKeepsValid(db: Db, db': Db)
    requires Valid(db)
    requires db'.books == db.books && db'.authors == db.authors
    requires db'.nextBook == db.nextBook && db'.nextAuthor == db.nextAuthor
    requires forall i | i in db'.users :: i < db'.nextUser
    ensures Valid(db')
  {
  }

  /** `register`: refused when the exact username exists, otherwise the user
      is added with the given (already hashed) password. */
  function Register(db: Db, username: string, passwordHash: string): (r: Result<(Db, int), Failure>)
    ensures r == Err(Conflict) <==> exists i | i in db.users :: db.users[i].username == username
    ensures r.Ok? ==> && r.value.1 == db.nextUser
                      && r.value.0 == AddUser(db, User(username, passwordHash)).0
    ensures r.Err? ==> r.error in {Conflict, IntegrityViolation}
  {
    if ByUsername(db, username).Some? then Err(Conflict)
    else
      var (db', id) := AddUser(db, User(username, passwordHash));
      match Commit(db')
      case Ok(d) => Ok((d, id))
      case Err(e) => Err(e)
  }

  /** On a valid database `register` is never refused by the database,
      keeps it valid and keeps usernames unique. */
  lemma RegisterKeepsValid(db: Db, username: string, passwordHash: string)
    requires Valid(db)
    ensures Register(db, username, passwordHash) != Err(IntegrityViolation)
    ensures Register(db, username, passwordHash).Ok? ==> Valid(Register(db, username, passwordHash).value.0)
    ensures Register(db, username, passwordHash).Ok? && UsernamesUnique(db.users)
            ==> UsernamesUnique(Register(db, username, passwordHash).value.0.users)
  {
    if ByUsername(db, username).None? {
      var (db', id) := AddUser(db, User(username, passwordHash));
      UsersOnlyKeepsValid(db, db');
      assert Register(db, username, passwordHash) == Ok((db', id));
      if UsernamesUnique(db.users) {
        PutKeepsUsernamesUnique(db.users, id, User(username, passwordHash));
      }
    }
  }

  /** `update`: the user must exist, then the username must not belong to
      another user (as the lookup finds it); both username and password
      hash are overwritten. */
  function Update(db: Db, id: int, username: string, passwordHash: string): (r: Result<Db, Failure>)
    ensures r == Err(NotFound) <==> id !in db.users
    ensures r == Err(Conflict) <==> id in db.users && ByUsername(db, username).Some? && ByUsername(db, username).value != id
    ensures r.Ok? ==> id in db.users && r.value == db.(users := db.users[id := User(username, passwordHash)])
    ensures r.Err? ==> r.error in {NotFound, Conflict, IntegrityViolation}
  {
    if id !in db.users then Err(NotFound)
    else
      var other := ByUsername(db, username);
      if other.Some? && other.value != id then Err(Conflict)
      else Commit(db.(users := db.users[id := User(username, passwordHash)]))
  }

  /** With unique usernames, `update` conflicts exactly when another user
      holds the username; renaming to one's own username is allowed. */
  lemma UpdateConflictMeaning(db: Db, id: int, username: string, passwordHash: string)
    requires UsernamesUnique(db.users) && id in db.users
    ensures Update(db, id, username, passwordHash) == Err(Conflict)
            <==> exists j | j in db.users :: j != id && db.users[j].username == username
  {
    if exists j | j in db.users :: j != id && db.users[j].username == username {
      var j :| j in db.users && j != id && db.users[j].username == username;
      assert ByUsername(db, username).value == j;
    }
  }

  /** On a valid database `update` is never refused by the database, keeps
      it valid, and keeps usernames unique. */
  lemma UpdateKeepsValid(db: Db, id: int, username: string, passwordHash: string)
    requires Valid(db)
    ensures Update(db, id, username, passwordHash) != Err(IntegrityViolation)
    ensures Update(db, id, username, passwordHash).Ok? ==> Valid(Update(db, id, username, passwordHash).value)
    ensures Update(db, id, username, passwordHash).Ok? && UsernamesUnique(db.users)
            ==> UsernamesUnique(Update(db, id, username, passwordHash).value.users)
  {
    var other := ByUsername(db, username);
    if id in db.users && !(other.Some? && other.value != id) {
      var db' := db.(users := db.users[id := User(username, passwordHash)]);
      UsersOnlyKeepsValid(db, db');
      assert Update(db, id, username, passwordHash) == Ok(db');
      if UsernamesUnique(db.users) {
        forall i | i in db.users && i != id
          ensures db.users[i].username != username
        {
          if other.Some? {
            assert db.users[other.value].username == username;
          }
        }
        PutKeepsUsernamesUnique(db.users, id, User(username, passwordHash));
      }
    }
  }

  /** `delete`: the user must exist; exactly that row is removed. */
  function Delete(db: Db, id: int): (r: Result<(Db, User), Failure>)
    ensures r == Err(NotFound) <==> id !in db.users
    ensures r.Ok? ==> && id in db.users && r.value.1 == db.users[id]
                      && r.value.0 == db.(users := db.users - {id})
  {
    if id !in db.users then Err(NotFound)
    else
      match Commit(db.(users := db.users - {id}))
      case Ok(d) => Ok((d, db.users[id]))
      case Err(e) => Err(e)
  }

  /** Deleting an existing user from a valid database always succeeds and keeps it valid. */
  lemma DeleteKeepsValid(db: Db, id: int)
    requires Valid(db) && id in db.users
    ensures Delete(db, id).Ok? && Valid(Delete(db, id).value.0)
    ensures UsernamesUnique(db.users) ==> UsernamesUnique(Delete(db, id).value.0.users)
  {
    UsersOnlyKeepsValid(db, db.(users := db.users - {id}));
  }
}
